=== FILE: README.md ===
# UCloud load-balancer provider, modelled in Dafny

This project models the UCloud cloud-provider plugin for Kubernetes. The plugin is two Go files:

- `ulb.go` holds the request signer and the API client.
- `ucloud.go` holds the provider logic: instance lookup, load-balancer lookup, creation, update and deletion.

The project proves properties of that model. It is pure and functional. Each remote call is answered by an oracle. Each multi-step operation returns the list of requests it sent and its outcome.

Files and modules:

- `order.dfy` (`StringOrder`): byte-wise string order, insertion sort, and uniqueness of a sorted list of distinct keys.
- `decimal.dfy` (`Decimal`): the `%v` text of a Go `int`, and its parser.
- `signing.dfy` (`Signing`): `Params.toQueryString`, covering the empty-value filter, the sort, the signing string, and the `&`-joined pairs closed by the `Signature` pair.
  - SHA-1 with hex rendering, and query escaping, are uninterpreted function values held in `Primitives`.
- `requests.dfy` (`Requests`): the fifteen parameter structs.
  - Each struct is a list of fields under their json tags.
  - It also models `toParams`, `setKey` and `UClient.GetQueryURL`, applied in the order every client method applies them.
- `remote.dfy` (`Remote`): decoded response records, errors, the request builders the provider uses, and `RunPlan`.
  - `Server = (nat, Param) -> Reply` answers a request given its position in the operation's sequence of requests.
  - Operations are deterministic, so the position also fixes every earlier request.
  - `Reply` distinguishes three cases: a failed GET (the client returns nil), a failed decode (the client returns a partial record and an error), and a decoded record.
  - `RunPlan` sends a list of requests in order and stops at the first failure.
- `wire.dfy` (`Wire`): the pairs each request builder of `ucloud.go` puts on the wire.
- `instances.dfy` (`Instances`): `getUHostIDs`, `InstanceID`, `ExternalID`, `InstanceType`.
- `lookup.dfy` (`Lookup`): `describeLoadBalancer`, `toLBStatus`, `GetLoadBalancer`.
- `backends.dfy` (`BackendDiff`): the backend membership diff of `UpdateLoadBalancer`.
  - Go's map iteration order is a `Scheduler` parameter. The properties hold for every scheduler.
- `operations.dfy` (`Operations`): `createLoadBalancer`, `EnsureLoadBalancer`, `UpdateLoadBalancer`, `deleteLoadBalancer` and `EnsureLoadBalancerDeleted`.

Where the Go code dereferences nil or indexes past the end of a list, the model ends with the error `Panic(site)` instead of excluding the input. There are five such places:

- `EIPSet[0]` and `EIPAddr[0]` in `createLoadBalancer`;
- `VServerSet[0]` in `UpdateLoadBalancer`;
- the two nil records in `deleteLoadBalancer`.

Integer fields are rendered with `%v`, so `0` becomes the text `"0"` (ulb.go:70). That text is not empty, so the filter at ulb.go:31 keeps it. So a zero integer field is signed and sent as `"0"` (`Requests.NumbersAlwaysSent`, `Remote.ListingSendsPaging`).

## Model

Source paths are relative to the repository root.

| member | source | states |
|---|---|---|
| Decimal.FormatInt | pkg/cloudprovider/providers/ucloud/ulb.go:70 | the `%v` text of an int is never empty and starts with `-` exactly for negative numbers |
| Decimal.FormatIntRoundTrip | pkg/cloudprovider/providers/ucloud/ulb.go:70 | parsing the `%v` text gives the integer back, so distinct values are sent as distinct texts |
| StringOrder.Sort | pkg/cloudprovider/providers/ucloud/ulb.go:36 | `sort.Strings` yields a strictly ascending permutation (same multiset) of distinct keys |
| StringOrder.StrictlySortedUnique | pkg/cloudprovider/providers/ucloud/ulb.go:36 | two strictly ascending lists with the same members are equal, so the sorted keys depend only on the key set |
| Signing.NonEmptyKeys | pkg/cloudprovider/providers/ucloud/ulb.go:29-35 | the first loop keeps exactly the visited keys whose value is not empty, without repeats |
| Signing.SortedKeys | pkg/cloudprovider/providers/ucloud/ulb.go:29-36 | the key list is strictly ascending and holds exactly the keys with a non-empty value |
| Signing.SignedKeys | pkg/cloudprovider/providers/ucloud/ulb.go:38-41 | the signed and emitted keys are exactly the non-empty keys other than `PrivateKey` and `Signature`, strictly ascending |
| Signing.SigningString | pkg/cloudprovider/providers/ucloud/ulb.go:37-44 | the signing string ends with the `PrivateKey` value, or with nothing extra when that value is missing or empty |
| Signing.SigningStringContent | pkg/cloudprovider/providers/ucloud/ulb.go:37-44 | the signing string is `name + value` of each signed key, in strictly ascending key order, each piece starting at the summed length of the pieces before it, then the private key's value, and nothing else |
| Signing.TwoKeysSigned | pkg/cloudprovider/providers/ucloud/ulb.go:37-44 | with exactly two signed keys `a` < `b`, the signing string is `a`, its value, `b`, its value, then the private key's value |
| Signing.SigningStringExample | pkg/cloudprovider/providers/ucloud/ulb.go:28-44 | with `B=2`, `A=1` and private key `k`, the string signed is `A1B2k`, whatever order the map is visited in |
| Signing.QueryPairs | pkg/cloudprovider/providers/ucloud/ulb.go:48-59 | the emitted pairs are the signed keys with their values in strictly ascending order, then exactly one `Signature` pair, last, whose value is the hex digest of the signing string; no pair is `PrivateKey` |
| Signing.Segment | pkg/cloudprovider/providers/ucloud/ulb.go:53-55 | each emitted pair is one segment led by `&`, and holds no other `&` when escaping produces none |
| Signing.RenderContent | pkg/cloudprovider/providers/ucloud/ulb.go:48-56 | `Render`, the emission loop, yields the `&`-led segment of each pair in the pairs' order, each starting at the summed length of the segments before it, and nothing else |
| Signing.QueryString | pkg/cloudprovider/providers/ucloud/ulb.go:48-60 | the query string starts with `&` and ends with the encoded `Signature` segment carrying the digest |
| Signing.QueryStringContent | pkg/cloudprovider/providers/ucloud/ulb.go:48-60 | the query string is the segment of each pair of `QueryPairs` in that order (the signed keys ascending, then the signature), each at its offset, and nothing else |
| Signing.QueryStringExample | pkg/cloudprovider/providers/ucloud/ulb.go:28-60 | with `B=2`, `A=1`, private key `k` and escaping that changes nothing, the query string is `&A=1&B=2&Signature=` then the digest of `A1B2k`, in every visiting order |
| Signing.KeySent | pkg/cloudprovider/providers/ucloud/ulb.go:49-56 | every non-empty key other than the two credential names is sent as a pair of that key and its value |
| Signing.SigningStringDetermined | pkg/cloudprovider/providers/ucloud/ulb.go:30-44 | maps that agree on every key but `Signature` produce the same signing string, in whatever order their keys are visited |
| Signing.QueryStringDetermined | pkg/cloudprovider/providers/ucloud/ulb.go:28-61 | maps that agree on every key but `Signature` (missing and empty counted alike) produce the same pairs and the same query string, in any visiting order |
| Signing.OrderIrrelevant | pkg/cloudprovider/providers/ucloud/ulb.go:30-36 | Go's map iteration order affects neither the signing string nor the query string |
| Signing.EmptyValueIgnored | pkg/cloudprovider/providers/ucloud/ulb.go:31-33 | removing a key whose value is empty changes neither the signing string nor the query string |
| Signing.CallerSignatureIgnored | pkg/cloudprovider/providers/ucloud/ulb.go:39-41 | any `Signature` value already in the map is neither signed nor sent |
| Signing.PrivateKeyOnlySigned | pkg/cloudprovider/providers/ucloud/ulb.go:49-52 | changing the private key changes no pair except the final `Signature` pair |
| Signing.QueryStringSegments | pkg/cloudprovider/providers/ucloud/ulb.go:48-59 | when escaping never produces `&`, the query string has exactly one `&` per signed key plus one for the signature |
| Requests.FieldsRecord | pkg/cloudprovider/providers/ucloud/ulb.go:75-87 | every parameter struct opens with the `Action`, `PublicKey`, `PrivateKey` and `Signature` fields, then its own fields, with no tag twice |
| Requests.WellTaggedOperation | pkg/cloudprovider/providers/ucloud/ulb.go:147-157 | the operation-specific json tags of every struct are distinct, and none is a credential tag |
| Requests.ToParams | pkg/cloudprovider/providers/ucloud/ulb.go:63-73 | exactly one entry per struct field, keyed by its json tag, holding the `%v` text of its value, and no other entry |
| Requests.SetKey | pkg/cloudprovider/providers/ucloud/ulb.go:159-163 | `Action` becomes the operation's fixed non-empty name and the key pair becomes the client's; the signature and every operation field are unchanged |
| Requests.RecordQueryString | pkg/cloudprovider/providers/ucloud/ulb.go:165-168 | a struct's `QueryString()` starts with `&` |
| Requests.RequestURL | pkg/cloudprovider/providers/ucloud/ulb.go:616-622 | the URL a client method requests (`GetQueryURL` on the struct after `setKey`) is the base URL, then `/?`, then the `&`-led signed query |
| Requests.NumbersAlwaysSent | pkg/cloudprovider/providers/ucloud/ulb.go:63-72 | every int field of the struct, zero included, is sent as a pair of its tag and its `%v` text |
| Requests.EmptyTextNeverSent | pkg/cloudprovider/providers/ucloud/ulb.go:31-33 | a string field left empty is never sent, except the signature field, whose pair always closes the query |
| Requests.RequestCarriesCredentials | pkg/cloudprovider/providers/ucloud/ulb.go:136-144 | the signed request carries `Action` and the public key, never the private key as a pair, and ends its signing string with the private key |
| Requests.RequestIgnoresCallerCredentials | pkg/cloudprovider/providers/ucloud/ulb.go:159-168 | whatever credentials or signature the caller left in the struct, the request URL is the same |
| Wire.CreateULBSends | pkg/cloudprovider/providers/ucloud/ucloud.go:178-184 | the CreateULB request sends `Tag` "tidb-k8s-poc", `OuterMode` "Yes", and the name when it is not empty |
| Wire.CreateULBOuterOnly | pkg/cloudprovider/providers/ucloud/ucloud.go:178-184 | the CreateULB request sends no `InnerMode` pair |
| Wire.AllocateEIPSends | pkg/cloudprovider/providers/ucloud/ucloud.go:194-199 | the AllocateEIP request sends `OperatorName` "Bgp", `Bandwidth` "2" and `Quantity` "1" |
| Wire.BindEIPSends | pkg/cloudprovider/providers/ucloud/ucloud.go:209-214 | the BindEIP request sends `ResourceType` "ulb" and the given EIP and load-balancer ids, each when not empty |
| Wire.CreateVServerSends | pkg/cloudprovider/providers/ucloud/ucloud.go:224-233 | the CreateVServer request sends the load-balancer id when not empty, name "tidb-server", `RequestProxy`, `TCP`, the frontend port and a 60-second client timeout |
| Wire.AllocateBackendSends | pkg/cloudprovider/providers/ucloud/ucloud.go:244-253 | the AllocateBackend request sends the load-balancer, listener and host ids (each when not empty), `ResourceType` "UHost", the backend port and `Enabled` "1" |
| Wire.DeletionSendsTargets | pkg/cloudprovider/providers/ucloud/ucloud.go:272-288 | the DeleteULB request sends its non-empty load-balancer id, and the ReleaseEIP request its non-empty EIP id |
| Wire.ReleaseBackendSends | pkg/cloudprovider/providers/ucloud/ucloud.go:412-417 | the ReleaseBackend request sends its load-balancer and backend ids, each when not empty |
| Remote.Checked | pkg/cloudprovider/providers/ucloud/ucloud.go:122-128 | a reply is accepted exactly when it decoded with return code 0; a failed call passes its error on; a non-zero code becomes an error with the reply's message |
| Remote.ListingSendsPaging | pkg/cloudprovider/providers/ucloud/ucloud.go:155-159 | both listings send `Limit`/`limit` 100, and the load-balancer listing also sends `Offset` 0 |
| Remote.RunPlan | pkg/cloudprovider/providers/ucloud/ucloud.go:243-261 | the requests sent are a prefix of the plan; the run succeeds exactly when the whole plan was sent and accepted; a failure is the error of the last request sent, after every earlier one was accepted |
| Remote.RunPlanDeterminedByReplies | pkg/cloudprovider/providers/ucloud/ucloud.go:243-261 | a run depends only on the replies to the plan's own requests |
| Instances.MatchHostIDsMembers | pkg/cloudprovider/providers/ucloud/ucloud.go:369-379 | an id is collected exactly when some listed host with that id has an address among the node names |
| Instances.MatchHostIDs | pkg/cloudprovider/providers/ucloud/ucloud.go:369-379 | nothing is collected exactly when no listed host has an address among the node names |
| Instances.MatchHostIDsCount | pkg/cloudprovider/providers/ucloud/ucloud.go:369-379 | each id is collected as many times as the hosts carrying it list addresses among the node names, all together |
| Instances.HostCollectedPerAddress | pkg/cloudprovider/providers/ucloud/ucloud.go:373-379 | a host whose id no other host shares is collected once per matching address, no more and no fewer |
| Instances.TwoMatchingAddresses | pkg/cloudprovider/providers/ucloud/ucloud.go:373-379 | a host with two matching addresses has its id collected twice |
| Instances.FirstHost | pkg/cloudprovider/providers/ucloud/ucloud.go:129-135 | the search finds the first listed host with an address among the names, and nothing exactly when no host has one |
| Instances.FirstMatchIsFirstHost | pkg/cloudprovider/providers/ucloud/ucloud.go:373-379 | nothing is collected exactly when no host matches; otherwise the first id collected is the first matching host's |
| Instances.GetUHostIDs | pkg/cloudprovider/providers/ucloud/ucloud.go:355-381 | one listing request; its failure or rejection is passed on; otherwise the ids of matching hosts in listing order, one per matching address |
| Instances.InstanceID | pkg/cloudprovider/providers/ucloud/ucloud.go:104-113 | the id of the first host holding the node's address, `InstanceNotFound` when there is none, and the listing's error when it fails |
| Instances.ExternalID | pkg/cloudprovider/providers/ucloud/ucloud.go:92-101 | the first id `getUHostIDs` collects, `InstanceNotFound` when it collects none, and its error when it fails |
| Instances.ExternalIDFirstCollected | pkg/cloudprovider/providers/ucloud/ucloud.go:93-100 | the first collected id is the id of the first host holding the node's address, and none is collected exactly when no host holds it |
| Instances.InstanceType | pkg/cloudprovider/providers/ucloud/ucloud.go:116-137 | one listing request; the listing's error when it fails; `InstanceNotFound` when no listed host has an address equal to the node name; otherwise the type of the first host that has one |
| Instances.InstanceIDMatchesType | pkg/cloudprovider/providers/ucloud/ucloud.go:104-137 | given the same listing, `InstanceID` and `InstanceType` fail alike or describe the same host |
| Lookup.FindByName | pkg/cloudprovider/providers/ucloud/ucloud.go:168-173 | finds the first entry whose `Name` is the name, and nothing exactly when no entry has it |
| Lookup.DescribeLoadBalancer | pkg/cloudprovider/providers/ucloud/ucloud.go:154-174 | one listing request; a failed call passes its error on; a non-zero return code and a missing name both give `ULBNotFound`; otherwise the first entry with that `Name` |
| Lookup.MatchesNameNotULBName | pkg/cloudprovider/providers/ucloud/ucloud.go:168-173 | an entry whose `ULBName`, but not its `Name`, equals the name is not found |
| Lookup.ToLBStatus | pkg/cloudprovider/providers/ucloud/ucloud.go:316-322 | `EIPNotFound` exactly when `IPSet` is empty; otherwise one ingress, the first EIP |
| Lookup.GetLoadBalancer | pkg/cloudprovider/providers/ucloud/ucloud.go:302-314 | the lookup's error, otherwise `toLBStatus` of the found load balancer |
| Lookup.GetLoadBalancerIngress | pkg/cloudprovider/providers/ucloud/ucloud.go:302-322 | a reported status is the first EIP of the first load balancer named after the service |
| BackendDiff.BackendIndex | pkg/cloudprovider/providers/ucloud/ucloud.go:405-407 | the map from host to backend holds exactly the hosts some current backend points at |
| BackendDiff.BackendIndexLastWins | pkg/cloudprovider/providers/ucloud/ucloud.go:405-407 | each host maps to the id of the last backend pointing at it |
| BackendDiff.LaterBackendWins | pkg/cloudprovider/providers/ucloud/ucloud.go:405-407 | of two backends on one host, only the later id is kept |
| BackendDiff.ReleasedHosts | pkg/cloudprovider/providers/ucloud/ucloud.go:409-410 | the hosts released are exactly those with a current backend that are not desired, each once |
| BackendDiff.AddedHosts | pkg/cloudprovider/providers/ucloud/ucloud.go:428-429 | the hosts allocated are exactly the desired hosts without a current backend, each once; a host in both sets gets no request |
| BackendDiff.BackendPlan | pkg/cloudprovider/providers/ucloud/ucloud.go:409-450 | every planned request is on the load balancer: a release of the indexed backend of a current host that is no longer desired, or an allocation of a desired host without a backend, on the listener and the given port |
| BackendDiff.BackendPlanOrder | pkg/cloudprovider/providers/ucloud/ucloud.go:409-450 | every release, each of the indexed backend of its host, comes before every allocation on the given port, and nothing else is planned |
| BackendDiff.ReleasedCount | pkg/cloudprovider/providers/ucloud/ucloud.go:409-427 | there are as many releases as current hosts no longer desired |
| BackendDiff.AddedCount | pkg/cloudprovider/providers/ucloud/ucloud.go:428-450 | there are as many allocations as desired hosts without a backend |
| BackendDiff.SwapOneHost | pkg/cloudprovider/providers/ucloud/ucloud.go:400-450 | with backends on A and B and hosts B and C desired, the plan is exactly: release A's backend, then allocate C |
| Operations.CreateLoadBalancer | pkg/cloudprovider/providers/ucloud/ucloud.go:176-265 | between 1 and 4+n requests; success sends all 4+n; a panic happens only after the EIP request or at the end |
| Operations.CreateBackends | pkg/cloudprovider/providers/ucloud/ucloud.go:243-264 | after the four fixed steps, the allocations run until the first failure, whose error is returned; otherwise the EIP's first address |
| Operations.CreateFollowsRequests | pkg/cloudprovider/providers/ucloud/ucloud.go:176-261 | the requests sent are a prefix of CreateULB, AllocateEIP, BindEIP (first EIP id, new ULB id), CreateVServer, then one AllocateBackend per host |
| Operations.CreateStopsAtFirstFailure | pkg/cloudprovider/providers/ucloud/ucloud.go:185-261 | every request but the last was accepted; a non-panic failure is the last reply's error; success and panics follow an accepted reply |
| Operations.CreateOutcome | pkg/cloudprovider/providers/ucloud/ucloud.go:263-264 | success exactly when all 4+n requests were accepted and the EIP reply carries an address, which is returned; a panic means it carried none |
| Operations.CreatePorts | pkg/cloudprovider/providers/ucloud/ucloud.go:224-253 | every backend is allocated on the backend port and the listener is on the frontend port |
| Operations.FrontendPort | pkg/cloudprovider/providers/ucloud/ucloud.go:335-338 | the listener port is the target port when that is an int, otherwise the service port |
| Operations.EnsureLoadBalancer | pkg/cloudprovider/providers/ucloud/ucloud.go:324-353 | a lookup error other than `ULBNotFound` ends it; a service without ports fails with `NoPort`; otherwise the host listing comes next, and its error ends it; a status has one ingress |
| Operations.EnsureCreates | pkg/cloudprovider/providers/ucloud/ucloud.go:327-353 | once the lookups pass, it is a creation for the matched hosts, and its ingress is the created address |
| Operations.EnsureCreatesDuplicate | pkg/cloudprovider/providers/ucloud/ucloud.go:327-343 | an existing load balancer of that name is created again |
| Operations.EnsureAfterCreation | pkg/cloudprovider/providers/ucloud/ucloud.go:327-353 | once both lookups pass and the creation succeeds, the operation sends the two listings then the creation's requests, and reports the created address |
| Operations.CreationSucceeds | pkg/cloudprovider/providers/ucloud/ucloud.go:176-265 | on a cloud that answers each step, creating "svc" for one host sends CreateULB, AllocateEIP, BindEIP, CreateVServer and one AllocateBackend, naming the ids handed out, and returns the EIP's address |
| Operations.EnsureOneHostCreation | pkg/cloudprovider/providers/ucloud/ucloud.go:324-353 | on such a cloud, ensuring "svc" creates a second load balancer although one named "svc" exists, and allocates the host on the node port 30080 |
| Operations.EnsureOneHost | pkg/cloudprovider/providers/ucloud/ucloud.go:324-353 | the same on the concrete one-host cloud |
| Operations.EnsurePorts | pkg/cloudprovider/providers/ucloud/ucloud.go:334-343 | backends go on the node port and the listener on `FrontendPort` |
| Operations.SyncBackends | pkg/cloudprovider/providers/ucloud/ucloud.go:383-452 | the lookup's error, `NoPort`, then the host listing's error, in that order; it panics exactly when both lookups succeed and there is no listener |
| Operations.SyncBackendsRunsPlan | pkg/cloudprovider/providers/ucloud/ucloud.go:398-450 | after both lookups, the update is the backend plan of the first listener, run until its first failure |
| Operations.SyncBackendsPorts | pkg/cloudprovider/providers/ucloud/ucloud.go:428-440 | every allocation is on the port taken from the first service port |
| Operations.PlanAllocatesOn | pkg/cloudprovider/providers/ucloud/ucloud.go:428-440 | every allocation in the plan is on the given port |
| Operations.UpdateLoadBalancer | pkg/cloudprovider/providers/ucloud/ucloud.go:383-452 | as written: every backend the update adds is on the service `Port` |
| Operations.UpdateLoadBalancerOnNodePort | pkg/cloudprovider/providers/ucloud/ucloud.go:383-452 | corrected: every backend the update adds is on the `NodePort` |
| Operations.UpdateMatchesEnsure | pkg/cloudprovider/providers/ucloud/ucloud.go:393-438 | with the corrected port, backends added by an update are on the port `EnsureLoadBalancer` used |
| Operations.UpdatePortDiffersFromEnsure | pkg/cloudprovider/providers/ucloud/ucloud.go:393-438 | as written, when the service port differs from the node port, updated and created backends never share a port |
| Operations.UpdatePortWitness | pkg/cloudprovider/providers/ucloud/ucloud.go:393 | on one concrete cloud, the update sends the two listings and allocates the new host on port 80, while ensuring the same service succeeds and allocates that host on 30080 |
| Operations.ReleaseEIPRequests | pkg/cloudprovider/providers/ucloud/ucloud.go:284-298 | one EIP release per `IPSet` entry, in order, each naming that entry's `EIPId` |
| Operations.DeleteLoadBalancer | pkg/cloudprovider/providers/ucloud/ucloud.go:267-300 | as written: `ULBNotFound` is success with nothing deleted; another lookup error panics; a failed delete request panics; otherwise one delete and one EIP release per `IPSet` entry, in order, and success |
| Operations.DeleteLoadBalancerChecked | pkg/cloudprovider/providers/ucloud/ucloud.go:267-300 | corrected: fails exactly on a lookup error other than `ULBNotFound`, with that error; otherwise the delete and the releases, whatever their replies |
| Operations.DeleteCheckedAgrees | pkg/cloudprovider/providers/ucloud/ucloud.go:267-300 | the corrected deletion never panics, and agrees with the code wherever the code succeeds |
| Operations.DeletePanicsAfterFailedLookup | pkg/cloudprovider/providers/ucloud/ucloud.go:268-275 | a failed listing request makes the deletion as written panic, while the corrected one returns the error |
| Operations.DeletePanicsAfterFailedDelete | pkg/cloudprovider/providers/ucloud/ucloud.go:277-283 | a delete request that fails in transport makes the deletion as written panic, while the corrected one releases every EIP |
| Operations.DeleteNamesFound | pkg/cloudprovider/providers/ucloud/ucloud.go:267-300 | a delete is only sent after a successful lookup, and it names the load balancer found |
| Operations.EnsureLoadBalancerDeleted | pkg/cloudprovider/providers/ucloud/ucloud.go:454-458 | as written: nothing is deleted when the load balancer does not exist; it fails exactly when the lookup fails otherwise or the delete request fails in transport, and then it panics; every delete names the found load balancer |
| Operations.EnsureLoadBalancerDeletedChecked | pkg/cloudprovider/providers/ucloud/ucloud.go:454-458 | corrected: nothing is deleted when the load balancer does not exist; the only error is a failed lookup's; every delete names the found load balancer |

## Left out

- HTTP GET, JSON decoding and glog logging are I/O. Each remote call is a `Server` reply, and log-only branches have no effect.
- SHA-1, hex rendering and `url.Values.Encode` escaping are library calls. They are uninterpreted functions in `Signing.Primitives`.
- Signing.QueryStringSegments: assumes escaping never produces `&`, as query escaping guarantees. The library escaping is not modelled.
- Go reflection in `toParams` is replaced by an explicit field list per struct, in declaration order.
- `newUCloud` (gcfg configuration parsing) and the `init` registration are plumbing.
- `ProviderName`, `ScrubDNS`, `Clusters`, `Routes`, `Zones`, `GetZone`, `NodeAddresses`, `List`, `AddSSHKeyToAllInstances` and `CurrentNodeName` are trivial stubs with no logic.
- The orchestrator's `GetLoadBalancerName` is foreign code. A `Service` carries the derived name.
- The client methods for `UpdateULBAttribute`, `DeleteVServer`, `UpdateVServerAttribute`, `UpdateBackendAttribute` and `UnBindEIP` have their structs modelled, but no provider operation calls them.
- Both messages for a service without ports, "no port found for service" (ucloud.go:332) and "no port found for serivce" (ucloud.go:391), are the one error `NoPort`; the text is not modelled.
- Response fields that no logic reads are not modelled: the disk list, CPU, SSL sets, ports and statuses.
- Integer width: Go `int` is 64-bit and the ports come from `int32` fields, so no value used can overflow. Plain integers are used.
- Operations.UpdateLoadBalancer: Go's map iteration order is a `Scheduler` parameter. A proposed order that is not a permutation of the keys falls back to the canonical order. The contracts hold for every scheduler.
- State shared across operations: each operation runs against its own `Server` from a starting position. Ids the cloud hands out are read from the replies.

## Findings

| source | as written | input that shows it | evidently intended | confidence | as-written member | corrected member |
|---|---|---|---|---|---|---|
| pkg/cloudprovider/providers/ucloud/ucloud.go:268-275 | after a lookup error other than `ULBNotFound`, the code reads `ulbSet.ULBID` from a nil record | the listing request fails in transport | return the lookup error | high, not executed | Operations.DeleteLoadBalancer, Operations.EnsureLoadBalancerDeleted, Operations.DeletePanicsAfterFailedLookup | Operations.DeleteLoadBalancerChecked, Operations.EnsureLoadBalancerDeletedChecked, Operations.DeleteCheckedAgrees |
| pkg/cloudprovider/providers/ucloud/ucloud.go:277-283 | when the delete request fails, the code reads `r.RetCode` from a nil reply | the `DeleteULB` GET fails in transport after a successful lookup | log the failure and go on to release the EIPs | high, not executed | Operations.DeleteLoadBalancer, Operations.EnsureLoadBalancerDeleted, Operations.DeletePanicsAfterFailedDelete | Operations.DeleteLoadBalancerChecked, Operations.EnsureLoadBalancerDeletedChecked, Operations.DeleteCheckedAgrees |
| pkg/cloudprovider/providers/ucloud/ucloud.go:393 | the update adds backends on the service `Port`, but `EnsureLoadBalancer` adds them on the `NodePort` (ucloud.go:334) | service port 80, node port 30080, one new node: the update allocates on 80 and creation on 30080 | add backends on the `NodePort`, as creation does | medium, not executed | Operations.UpdateLoadBalancer, Operations.UpdatePortWitness | Operations.UpdateLoadBalancerOnNodePort, Operations.UpdateMatchesEnsure |

`Operations.EnsureLoadBalancerDeleted` calls the deletion as written, as `EnsureLoadBalancerDeleted` does at ucloud.go:457. `Operations.EnsureLoadBalancerDeletedChecked` is the same call on the corrected deletion.

=== FILE: backends.dfy ===
/** The backend membership diff of `UpdateLoadBalancer`
    (pkg/cloudprovider/providers/ucloud/ucloud.go). Two Go maps are built:
    the desired hosts (`m1`) and the current backends keyed by the host they
    point at (`m2`). Backends of hosts no longer desired are released, then
    desired hosts without a backend get one.

    Go visits a map's keys in an order the runtime picks. A `Scheduler`
    stands for that choice: given the keys in a canonical order it proposes
    a visiting order, and a proposal that is not a reordering of the keys
    is replaced by the canonical order. */
module BackendDiff {
  import opened StringOrder
  import opened Requests
  import opened Remote

  /** `bs[i]` is the last backend pointing at host `k`. */
  predicate LastForHostAt(bs: seq<Backend>, k: string, i: int)
  {
    0 <= i < |bs| && bs[i].resourceId == k && forall j | i < j < |bs| :: bs[j].resourceId != k
  }

  /** Some backend points at host `k`. */
  predicate HasBackendFor(bs: seq<Backend>, k: string)
  {
    exists i | 0 <= i < |bs| :: bs[i].resourceId == k
  }

  /** `id` is the id of the last backend pointing at host `k`. */
  predicate LastBackendIs(bs: seq<Backend>, k: string, id: string)
  {
    exists i | 0 <= i < |bs| :: LastForHostAt(bs, k, i) && bs[i].backendId == id
  }

  lemma LastForHostExtend(bs: seq<Backend>, k: string, i: int)
    requires |bs| > 0 && LastForHostAt(bs[..|bs| - 1], k, i) && bs[|bs| - 1].resourceId != k
    ensures LastForHostAt(bs, k, i)
  {
    var n := |bs| - 1;
    forall j | i < j < |bs|
      ensures bs[j].resourceId != k
    {
      if j < n {
        assert bs[j] == bs[..n][j];
      }
    }
  }

  lemma HasBackendForSplit(bs: seq<Backend>, k: string)
    requires |bs| > 0
    ensures HasBackendFor(bs, k) <==> HasBackendFor(bs[..|bs| - 1], k) || bs[|bs| - 1].resourceId == k
  {
    var n := |bs| - 1;
    if HasBackendFor(bs, k) {
      var i :| 0 <= i < |bs| && bs[i].resourceId == k;
      if i < n {
        assert bs[..n][i].resourceId == k;
      }
    }
    if HasBackendFor(bs[..n], k) {
      var i :| 0 <= i < n && bs[..n][i].resourceId == k;
      assert bs[i].resourceId == k;
    }
  }

  /** `m2`: host id to backend id, filled in listing order, so a later
      backend for the same host overwrites an earlier one. Its keys are
      exactly the hosts some backend points at. */
  function BackendIndex(bs: seq<Backend>): (m: map<string, string>)
    ensures forall k :: k in m <==> HasBackendFor(bs, k)
    decreases |bs|
  {
    if |bs| == 0 then map[]
    else
      var n := |bs| - 1;
      var r := BackendIndex(bs[..n])[bs[n].resourceId := bs[n].backendId];
      forall k
        ensures k in r <==> HasBackendFor(bs, k)
      {
        HasBackendForSplit(bs, k);
      }
      r
  }

  /** Each host maps to the id of the last backend pointing at it. */
  lemma {:induction false} BackendIndexLastWins(bs: seq<Backend>, k: string)
    requires k in BackendIndex(bs)
    ensures LastBackendIs(bs, k, BackendIndex(bs)[k])
    decreases |bs|
  {
    var n := |bs| - 1;
    if bs[n].resourceId == k {
      assert LastForHostAt(bs, k, n);
    } else {
      BackendIndexLastWins(bs[..n], k);
      var i :| 0 <= i < n && LastForHostAt(bs[..n], k, i) && bs[..n][i].backendId == BackendIndex(bs[..n])[k];
      LastForHostExtend(bs, k, i);
    }
  }

  /** Two backends for one host: only the later one's id is kept. */
  lemma LaterBackendWins(first: Backend, second: Backend)
    requires first.resourceId == second.resourceId
    ensures BackendIndex([first, second]) == map[second.resourceId := second.backendId]
  {
    var bs := [first, second];
    var m := BackendIndex(bs);
    var k := second.resourceId;
    assert bs[1].resourceId == k;
    assert k in m;
    BackendIndexLastWins(bs, k);
    var i :| 0 <= i < 2 && LastForHostAt(bs, k, i) && bs[i].backendId == m[k];
    assert i == 1;
    forall h | h in m
      ensures h == k
    {
      var j :| 0 <= j < 2 && bs[j].resourceId == h;
    }
    assert m.Keys == {k};
  }

  /** The distinct elements of `s`, in order of first occurrence: the keys
      of a map filled from `s`. */
  function Dedupe(s: seq<string>): (r: seq<string>)
    ensures Distinct(r)
    ensures forall x :: x in r <==> x in s
    decreases |s|
  {
    if |s| == 0 then []
    else
      var r := Dedupe(s[..|s| - 1]);
      assert s == s[..|s| - 1] + [s[|s| - 1]];
      if s[|s| - 1] in r then r else r + [s[|s| - 1]]
  }

  /** `s` visits each element of `keys` exactly once. */
  predicate Reorders(s: seq<string>, keys: seq<string>)
  {
    |s| == |keys| && Distinct(s) && (forall x | x in s :: x in keys) && (forall x | x in keys :: x in s)
  }

  type Scheduler = seq<string> -> seq<string>

  /** The order in which a `range` over a map with these keys visits them. */
  function Visit(sched: Scheduler, keys: seq<string>): (r: seq<string>)
    ensures Distinct(keys) ==> Reorders(r, keys)
    ensures Reorders(sched(keys), keys) ==> r == sched(keys)
  {
    if Reorders(sched(keys), keys) then sched(keys) else keys
  }

  /** The elements of `order` not in `present`, in the order visited. */
  function Absent(order: seq<string>, present: set<string>): (r: seq<string>)
    ensures forall x :: x in r <==> x in order && x !in present
    ensures Distinct(order) ==> Distinct(r)
    decreases |order|
  {
    if |order| == 0 then []
    else
      var rest := Absent(order[1..], present);
      DistinctCons(order);
      if order[0] in present then rest
      else
        DistinctCons([order[0]] + rest);
        assert ([order[0]] + rest)[1..] == rest;
        [order[0]] + rest
  }

  /** The host each backend points at, in listing order. */
  function HostsOf(bs: seq<Backend>): (r: seq<string>)
    ensures |r| == |bs| && forall i | 0 <= i < |bs| :: r[i] == bs[i].resourceId
  {
    seq(|bs|, i requires 0 <= i < |bs| => bs[i].resourceId)
  }

  /** `m1`: the desired hosts. */
  function Desired(hostIDs: seq<string>): (r: set<string>)
    ensures forall h :: h in r <==> h in hostIDs
  {
    set h | h in hostIDs
  }

  /** The hosts whose backends are released: the hosts of current backends
      that are not desired, each once, in the order the first `range`
      visits them. */
  function ReleasedHosts(bs: seq<Backend>, hostIDs: seq<string>, sched: Scheduler): (r: seq<string>)
    ensures Distinct(r)
    ensures forall h :: h in r <==> h in BackendIndex(bs) && h !in hostIDs
  {
    var hosts := HostsOf(bs);
    var r := Absent(Visit(sched, Dedupe(hosts)), Desired(hostIDs));
    forall h
      ensures h in hosts <==> HasBackendFor(bs, h)
    {
      if HasBackendFor(bs, h) {
        var i :| 0 <= i < |bs| && bs[i].resourceId == h;
        assert hosts[i] == h;
      }
    }
    r
  }

  /** The hosts that get a backend: desired hosts without one, each once, in
      the order the second `range` visits them. */
  function AddedHosts(bs: seq<Backend>, hostIDs: seq<string>, sched: Scheduler): (r: seq<string>)
    ensures Distinct(r)
    ensures forall h :: h in r <==> h in hostIDs && h !in BackendIndex(bs)
  {
    Absent(Visit(sched, Dedupe(hostIDs)), BackendIndex(bs).Keys)
  }

  /** One release per host, of the backend the index holds for it. */
  function ReleaseRequests(c: Cloud, ulbId: string, index: map<string, string>, hosts: seq<string>): (r: seq<Param>)
    requires forall i | 0 <= i < |hosts| :: hosts[i] in index
    ensures |r| == |hosts|
    ensures forall i | 0 <= i < |hosts| :: r[i] == ReleaseBackendRequest(c, ulbId, index[hosts[i]])
  {
    if |hosts| == 0 then []
    else [ReleaseBackendRequest(c, ulbId, index[hosts[0]])] + ReleaseRequests(c, ulbId, index, hosts[1..])
  }

  /** One allocation per host, on `port`. */
  function AllocateRequests(c: Cloud, ulbId: string, vserverId: string, hosts: seq<string>, port: int): (r: seq<Param>)
    ensures |r| == |hosts|
    ensures forall i | 0 <= i < |hosts| :: r[i] == AllocateBackendRequest(c, ulbId, vserverId, hosts[i], port)
  {
    if |hosts| == 0 then []
    else [AllocateBackendRequest(c, ulbId, vserverId, hosts[0], port)] + AllocateRequests(c, ulbId, vserverId, hosts[1..], port)
  }

  /** The requests `UpdateLoadBalancer` sends once both lookups succeeded:
      every release, then every allocation. */
  function BackendPlan(c: Cloud, ulbId: string, vs: VServer, hostIDs: seq<string>, port: int,
                       sched: Scheduler): (plan: seq<Param>)
    ensures PlanKeepsTo(plan, ulbId, vs, hostIDs, port)
  {
    var released := ReleasedHosts(vs.backends, hostIDs, sched);
    var added := AddedHosts(vs.backends, hostIDs, sched);
    ReleasedIndexed(vs, hostIDs, sched);
    PlanShape(c, ulbId, vs, hostIDs, port, released, added);
    ReleaseRequests(c, ulbId, BackendIndex(vs.backends), released)
    + AllocateRequests(c, ulbId, vs.vserverId, added, port)
  }

  /** Every request of `plan` releases or allocates a backend of load
      balancer `ulbId`. Each allocation is on listener `vs` and `port`, for
      a desired host that has no backend yet. Each release is of the
      indexed backend of a current host that is no longer desired. */
  predicate PlanKeepsTo(plan: seq<Param>, ulbId: string, vs: VServer, hostIDs: seq<string>, port: int)
  {
    forall i | 0 <= i < |plan| ::
      && (plan[i].op.ReleaseBackend? || plan[i].op.AllocateBackend?) && plan[i].op.ulbId == ulbId
      && (plan[i].op.AllocateBackend? ==>
            && plan[i].op.vserverId == vs.vserverId && plan[i].op.port == port
            && plan[i].op.resourceId in hostIDs && plan[i].op.resourceId !in BackendIndex(vs.backends))
      && (plan[i].op.ReleaseBackend? ==>
            exists h | h in BackendIndex(vs.backends) :: h !in hostIDs && plan[i].op.backendId == BackendIndex(vs.backends)[h])
  }

  lemma PlanShape(c: Cloud, ulbId: string, vs: VServer, hostIDs: seq<string>, port: int,
                  released: seq<string>, added: seq<string>)
    requires forall h :: h in released <==> h in BackendIndex(vs.backends) && h !in hostIDs
    requires forall h :: h in added <==> h in hostIDs && h !in BackendIndex(vs.backends)
    ensures PlanKeepsTo(ReleaseRequests(c, ulbId, BackendIndex(vs.backends), released)
                        + AllocateRequests(c, ulbId, vs.vserverId, added, port), ulbId, vs, hostIDs, port)
  {
    var index := BackendIndex(vs.backends);
    var releases := ReleaseRequests(c, ulbId, index, released);
    var allocations := AllocateRequests(c, ulbId, vs.vserverId, added, port);
    var plan := releases + allocations;
    forall i | 0 <= i < |plan|
      ensures (plan[i].op.ReleaseBackend? || plan[i].op.AllocateBackend?) && plan[i].op.ulbId == ulbId
      ensures plan[i].op.AllocateBackend? ==>
                && plan[i].op.vserverId == vs.vserverId && plan[i].op.port == port
                && plan[i].op.resourceId in hostIDs && plan[i].op.resourceId !in index
      ensures plan[i].op.ReleaseBackend? ==>
                exists h | h in index :: h !in hostIDs && plan[i].op.backendId == index[h]
    {
      if i < |releases| {
        assert plan[i] == releases[i];
        assert released[i] in released;
      } else {
        assert plan[i] == allocations[i - |releases|];
        assert added[i - |releases|] in added;
      }
    }
  }

  /** Every host released has a backend in the index. */
  lemma ReleasedIndexed(vs: VServer, hostIDs: seq<string>, sched: Scheduler)
    ensures var released := ReleasedHosts(vs.backends, hostIDs, sched);
            forall i | 0 <= i < |released| :: released[i] in BackendIndex(vs.backends)
  {
    var released := ReleasedHosts(vs.backends, hostIDs, sched);
    forall i | 0 <= i < |released|
      ensures released[i] in BackendIndex(vs.backends)
    {
      assert released[i] in released;
    }
  }

  /** The plan is every release, then every allocation, and nothing else. */
  lemma BackendPlanOrder(c: Cloud, ulbId: string, vs: VServer, hostIDs: seq<string>, port: int, sched: Scheduler)
    ensures var released := ReleasedHosts(vs.backends, hostIDs, sched);
            var added := AddedHosts(vs.backends, hostIDs, sched);
            var plan := BackendPlan(c, ulbId, vs, hostIDs, port, sched);
            && (forall i | 0 <= i < |released| :: released[i] in BackendIndex(vs.backends))
            && |plan| == |released| + |added|
            && (forall i | 0 <= i < |released| ::
                  plan[i] == ReleaseBackendRequest(c, ulbId, BackendIndex(vs.backends)[released[i]]))
            && (forall i | 0 <= i < |added| ::
                  plan[|released| + i] == AllocateBackendRequest(c, ulbId, vs.vserverId, added[i], port))
  {
    var index := BackendIndex(vs.backends);
    var released := ReleasedHosts(vs.backends, hostIDs, sched);
    var added := AddedHosts(vs.backends, hostIDs, sched);
    ReleasedIndexed(vs, hostIDs, sched);
    var releases := ReleaseRequests(c, ulbId, index, released);
    var allocations := AllocateRequests(c, ulbId, vs.vserverId, added, port);
    var plan := BackendPlan(c, ulbId, vs, hostIDs, port, sched);
    assert plan == releases + allocations;
    forall i | 0 <= i < |released|
      ensures plan[i] == ReleaseBackendRequest(c, ulbId, index[released[i]])
    {
      assert plan[i] == releases[i];
    }
    forall i | 0 <= i < |added|
      ensures plan[|released| + i] == AllocateBackendRequest(c, ulbId, vs.vserverId, added[i], port)
    {
      assert plan[|released| + i] == allocations[i];
    }
  }

  /** The diff is exact: as many releases as current hosts no longer
      desired. */
  lemma ReleasedCount(vs: VServer, hostIDs: seq<string>, sched: Scheduler)
    ensures |ReleasedHosts(vs.backends, hostIDs, sched)| == |BackendIndex(vs.backends).Keys - Desired(hostIDs)|
  {
    var released := ReleasedHosts(vs.backends, hostIDs, sched);
    DistinctCardinality(released);
    assert (set h | h in released) == BackendIndex(vs.backends).Keys - Desired(hostIDs);
  }

  /** ... and as many allocations as desired hosts without a backend. */
  lemma AddedCount(vs: VServer, hostIDs: seq<string>, sched: Scheduler)
    ensures |AddedHosts(vs.backends, hostIDs, sched)| == |Desired(hostIDs) - BackendIndex(vs.backends).Keys|
  {
    var added := AddedHosts(vs.backends, hostIDs, sched);
    DistinctCardinality(added);
    assert (set h | h in added) == Desired(hostIDs) - BackendIndex(vs.backends).Keys;
  }

  /** The index of two backends on different hosts holds exactly those
      hosts, each with its own backend. */
  lemma TwoBackendIndex(a: Backend, b: Backend)
    requires a.resourceId != b.resourceId
    ensures BackendIndex([a, b]).Keys == {a.resourceId, b.resourceId}
    ensures BackendIndex([a, b])[a.resourceId] == a.backendId
  {
    var bs := [a, b];
    var index := BackendIndex(bs);
    assert bs[0].resourceId == a.resourceId && bs[1].resourceId == b.resourceId;
    assert a.resourceId in index && b.resourceId in index;
    forall h | h in index
      ensures h == a.resourceId || h == b.resourceId
    {
      var j :| 0 <= j < 2 && bs[j].resourceId == h;
    }
    BackendIndexLastWins(bs, a.resourceId);
    var i :| 0 <= i < 2 && LastForHostAt(bs, a.resourceId, i) && bs[i].backendId == index[a.resourceId];
    assert i == 0;
  }

  /** Of backends on hosts A and B with B and C desired, only A's host is
      released ... */
  lemma SwapReleased(a: Backend, b: Backend, host: string, sched: Scheduler)
    requires a.resourceId != b.resourceId && host != a.resourceId && host != b.resourceId
    ensures ReleasedHosts([a, b], [b.resourceId, host], sched) == [a.resourceId]
  {
    TwoBackendIndex(a, b);
    var released := ReleasedHosts([a, b], [b.resourceId, host], sched);
    assert a.resourceId in released;
    SingletonOf(released, a.resourceId);
  }

  /** ... and only C is added. */
  lemma SwapAdded(a: Backend, b: Backend, host: string, sched: Scheduler)
    requires a.resourceId != b.resourceId && host != a.resourceId && host != b.resourceId
    ensures AddedHosts([a, b], [b.resourceId, host], sched) == [host]
  {
    TwoBackendIndex(a, b);
    var hostIDs := [b.resourceId, host];
    var added := AddedHosts([a, b], hostIDs, sched);
    assert hostIDs[1] == host;
    assert host in added;
    SingletonOf(added, host);
  }

  /** Current backends for hosts A and B, desired hosts B and C: the
      backend of A is released and C is allocated, nothing else. */
  lemma SwapOneHost(c: Cloud, ulbId: string, vserverId: string, a: Backend, b: Backend, host: string, port: int,
                    sched: Scheduler)
    requires a.resourceId != b.resourceId && host != a.resourceId && host != b.resourceId
    ensures BackendPlan(c, ulbId, VServer(vserverId, [a, b]), [b.resourceId, host], port, sched)
              == [ReleaseBackendRequest(c, ulbId, a.backendId), AllocateBackendRequest(c, ulbId, vserverId, host, port)]
  {
    TwoBackendIndex(a, b);
    SwapReleased(a, b, host, sched);
    SwapAdded(a, b, host, sched);
    BackendPlanOrder(c, ulbId, VServer(vserverId, [a, b]), [b.resourceId, host], port, sched);
  }

  /** A list without repeats whose only element is `x` is `[x]`. */
  lemma SingletonOf(s: seq<string>, x: string)
    requires Distinct(s) && x in s && forall y | y in s :: y == x
    ensures s == [x]
  {
    DistinctCardinality(s);
    assert (set y | y in s) == {x};
    assert s[0] in s;
  }
}

=== FILE: decimal.dfy ===
/** Decimal text of integers, as Go's `fmt.Sprintf("%v", n)` renders an
    `int`: an optional minus sign followed by the digits, with no padding. */
module Decimal {

  predicate IsDigit(c: char)
  {
    '0' <= c <= '9'
  }

  function DigitChar(d: nat): (c: char)
    requires d < 10
    ensures IsDigit(c)
  {
    (('0' as int) + d) as char
  }

  function DigitValue(c: char): nat
  {
    if IsDigit(c) then (c as int) - ('0' as int) else 0
  }

  /** The digits of `n`, most significant first. */
  function FormatNat(n: nat): (r: string)
    ensures |r| > 0
    ensures forall i | 0 <= i < |r| :: IsDigit(r[i])
    decreases n
  {
    if n < 10 then [DigitChar(n)] else FormatNat(n / 10) + [DigitChar(n % 10)]
  }

  /** The text `%v` produces for an int. It is never empty, so an integer
      field always survives a filter that drops empty values. */
  function FormatInt(n: int): (r: string)
    ensures r != ""
    ensures r[0] == '-' <==> n < 0
  {
    if n < 0 then "-" + FormatNat(-n) else FormatNat(n)
  }

  /** Reads a string of digits back as a number. */
  function ParseNat(s: string): nat
    decreases |s|
  {
    if |s| == 0 then 0 else ParseNat(s[..|s| - 1]) * 10 + DigitValue(s[|s| - 1])
  }

  function ParseInt(s: string): int
  {
    var negative := |s| > 0 && s[0] == '-';
    var magnitude: int := if negative then ParseNat(s[1..]) else ParseNat(s);
    if negative then -magnitude else magnitude
  }

  lemma {:induction false} FormatNatRoundTrip(n: nat)
    ensures ParseNat(FormatNat(n)) == n
    decreases n
  {
    if n >= 10 {
      FormatNatRoundTrip(n / 10);
      var s := FormatNat(n);
      assert s[..|s| - 1] == FormatNat(n / 10);
    }
  }

  /** The rendering loses nothing: parsing it gives the integer back, so
      distinct integers have distinct texts. */
  lemma FormatIntRoundTrip(n: int)
    ensures ParseInt(FormatInt(n)) == n
  {
    if n < 0 {
      FormatNatRoundTrip(-n);
      assert FormatInt(n)[1..] == FormatNat(-n);
    } else {
      FormatNatRoundTrip(n);
    }
  }
}

=== FILE: instances.dfy ===
/** Finding the cloud instances behind Kubernetes nodes
    (pkg/cloudprovider/providers/ucloud/ucloud.go). A node's name is one of
    its host's IP addresses; a host lists its addresses in `IPSet`. */
module Instances {
  import opened Remote

  /** `h` has an address among `names`. */
  predicate Serves(h: UHost, names: set<string>)
  {
    exists k | 0 <= k < |h.ipSet| :: h.ipSet[k].ip in names
  }

  /** How many of the listed addresses are among `names`: the number of
      times the inner loop of `getUHostIDs` appends the host's id. */
  function MatchCount(ips: seq<UHostIP>, names: set<string>): (n: nat)
    ensures n <= |ips|
    ensures n > 0 <==> exists k | 0 <= k < |ips| :: ips[k].ip in names
  {
    if |ips| == 0 then 0
    else (if ips[0].ip in names then 1 else 0) + MatchCount(ips[1..], names)
  }

  function Copies(x: string, n: nat): (r: seq<string>)
    ensures |r| == n && forall i | 0 <= i < n :: r[i] == x
  {
    seq(n, _ => x)
  }

  /** The ids `getUHostIDs` collects: host by host in listing order, one
      copy of the host's id per address of it that is among `names`. */
  function MatchHostIDs(hosts: seq<UHost>, names: set<string>): (r: seq<string>)
    ensures |r| == 0 <==> forall i | 0 <= i < |hosts| :: !Serves(hosts[i], names)
    decreases |hosts|
  {
    if |hosts| == 0 then []
    else
      assert forall i | 1 <= i < |hosts| :: hosts[i] == hosts[1..][i - 1];
      Copies(hosts[0].uhostId, MatchCount(hosts[0].ipSet, names)) + MatchHostIDs(hosts[1..], names)
  }

  /** An id is collected exactly when some host with that id has an
      address among the node names. */
  lemma {:induction false} MatchHostIDsMembers(hosts: seq<UHost>, names: set<string>, id: string)
    ensures id in MatchHostIDs(hosts, names) <==>
            exists i | 0 <= i < |hosts| :: hosts[i].uhostId == id && Serves(hosts[i], names)
    decreases |hosts|
  {
    if |hosts| > 0 {
      MatchHostIDsMembers(hosts[1..], names, id);
      var head := Copies(hosts[0].uhostId, MatchCount(hosts[0].ipSet, names));
      if id in head {
        assert hosts[0].uhostId == id && Serves(hosts[0], names);
      }
      if exists i | 0 <= i < |hosts| :: hosts[i].uhostId == id && Serves(hosts[i], names) {
        var i :| 0 <= i < |hosts| && hosts[i].uhostId == id && Serves(hosts[i], names);
        if i == 0 {
          assert head[0] == id;
        } else {
          assert hosts[1..][i - 1] == hosts[i];
        }
      }
      if exists i | 0 <= i < |hosts[1..]| :: hosts[1..][i].uhostId == id && Serves(hosts[1..][i], names) {
        var i :| 0 <= i < |hosts[1..]| && hosts[1..][i].uhostId == id && Serves(hosts[1..][i], names);
        assert hosts[i + 1] == hosts[1..][i];
      }
    }
  }

  /** A host listing the same node address twice, or two node addresses,
      has its id collected twice. */
  lemma TwoMatchingAddresses(h: UHost, names: set<string>)
    requires |h.ipSet| == 2 && h.ipSet[0].ip in names && h.ipSet[1].ip in names
    ensures MatchHostIDs([h], names) == [h.uhostId, h.uhostId]
  {
    assert MatchCount(h.ipSet[1..], names) == 1 by {
      assert h.ipSet[1..][1..] == [];
    }
    assert [h][1..] == [];
  }

  /** How many addresses among `names` the hosts with id `id` list, all
      together. */
  function AddressesOf(hosts: seq<UHost>, names: set<string>, id: string): nat
    decreases |hosts|
  {
    if |hosts| == 0 then 0
    else (if hosts[0].uhostId == id then MatchCount(hosts[0].ipSet, names) else 0) + AddressesOf(hosts[1..], names, id)
  }

  lemma {:induction false} CopiesCount(x: string, n: nat, id: string)
    ensures multiset(Copies(x, n))[id] == if x == id then n else 0
  {
    if n > 0 {
      CopiesCount(x, n - 1, id);
      assert Copies(x, n) == Copies(x, n - 1) + [x];
    }
  }

  /** Each id is collected once per node address listed by a host carrying
      that id. */
  lemma {:induction false} MatchHostIDsCount(hosts: seq<UHost>, names: set<string>, id: string)
    ensures multiset(MatchHostIDs(hosts, names))[id] == AddressesOf(hosts, names, id)
    decreases |hosts|
  {
    if |hosts| > 0 {
      var head := Copies(hosts[0].uhostId, MatchCount(hosts[0].ipSet, names));
      var rest := MatchHostIDs(hosts[1..], names);
      MatchHostIDsCount(hosts[1..], names, id);
      CopiesCount(hosts[0].uhostId, MatchCount(hosts[0].ipSet, names), id);
      assert multiset(head + rest) == multiset(head) + multiset(rest);
    }
  }

  lemma {:induction false} AddressesOfUnique(hosts: seq<UHost>, names: set<string>, i: nat)
    requires i < |hosts|
    requires forall j | 0 <= j < |hosts| && j != i :: hosts[j].uhostId != hosts[i].uhostId
    ensures AddressesOf(hosts, names, hosts[i].uhostId) == MatchCount(hosts[i].ipSet, names)
    decreases |hosts|
  {
    if i > 0 {
      assert hosts[1..][i - 1] == hosts[i];
      AddressesOfUnique(hosts[1..], names, i - 1);
    } else {
      AddressesOfAbsent(hosts[1..], names, hosts[0].uhostId);
    }
  }

  lemma {:induction false} AddressesOfAbsent(hosts: seq<UHost>, names: set<string>, id: string)
    requires forall j | 0 <= j < |hosts| :: hosts[j].uhostId != id
    ensures AddressesOf(hosts, names, id) == 0
    decreases |hosts|
  {
    if |hosts| > 0 {
      AddressesOfAbsent(hosts[1..], names, id);
    }
  }

  /** When no other listed host shares its id, host `i`'s id is collected
      exactly once per address of it among `names`. */
  lemma HostCollectedPerAddress(hosts: seq<UHost>, names: set<string>, i: nat)
    requires i < |hosts|
    requires forall j | 0 <= j < |hosts| && j != i :: hosts[j].uhostId != hosts[i].uhostId
    ensures multiset(MatchHostIDs(hosts, names))[hosts[i].uhostId] == MatchCount(hosts[i].ipSet, names)
  {
    MatchHostIDsCount(hosts, names, hosts[i].uhostId);
    AddressesOfUnique(hosts, names, i);
  }

  /** `hosts[k]` is the first host with an address among `names`. */
  predicate FirstServingAt(hosts: seq<UHost>, names: set<string>, k: int)
  {
    0 <= k < |hosts| && Serves(hosts[k], names) && forall j | 0 <= j < k :: !Serves(hosts[j], names)
  }

  /** The search of `InstanceType`: the first host with an address among
      `names`. */
  function FirstHost(hosts: seq<UHost>, names: set<string>): (r: Option<UHost>)
    ensures r.None? <==> forall k | 0 <= k < |hosts| :: !Serves(hosts[k], names)
    ensures r.Some? ==> exists k :: FirstServingAt(hosts, names, k) && hosts[k] == r.value
    decreases |hosts|
  {
    if |hosts| == 0 then None
    else if Serves(hosts[0], names) then
      assert FirstServingAt(hosts, names, 0);
      Some(hosts[0])
    else
      var r := FirstHost(hosts[1..], names);
      if r.Some? then
        var k :| FirstServingAt(hosts[1..], names, k) && hosts[1..][k] == r.value;
        assert FirstServingAt(hosts, names, k + 1);
        r
      else
        assert forall k | 1 <= k < |hosts| :: hosts[k] == hosts[1..][k - 1];
        r
  }

  /** The first collected id belongs to the first host with a node address;
      nothing is collected exactly when there is no such host. */
  lemma {:induction false} FirstMatchIsFirstHost(hosts: seq<UHost>, names: set<string>)
    ensures |MatchHostIDs(hosts, names)| == 0 <==> FirstHost(hosts, names).None?
    ensures FirstHost(hosts, names).Some? ==> MatchHostIDs(hosts, names)[0] == FirstHost(hosts, names).value.uhostId
    decreases |hosts|
  {
    if |hosts| > 0 {
      FirstMatchIsFirstHost(hosts[1..], names);
      if !Serves(hosts[0], names) {
        assert MatchCount(hosts[0].ipSet, names) == 0;
        assert MatchHostIDs(hosts, names) == MatchHostIDs(hosts[1..], names);
      }
    }
  }

  // ---------------------------------------------------------------------
  // The operations; each lists the instances with one request

  /** `getUHostIDs`: one listing request, its error or rejection passed on,
      otherwise the ids of the hosts holding a node address. */
  function GetUHostIDs(c: Cloud, server: Server, at: nat, nodeNames: seq<string>): (r: Run<seq<string>>)
    ensures r.calls == [DescribeUHostRequest(c)]
    ensures Checked(server(at, DescribeUHostRequest(c))).Err? ==>
            r.result == Err(Checked(server(at, DescribeUHostRequest(c))).error)
    ensures Checked(server(at, DescribeUHostRequest(c))).Ok? ==>
            r.result.Ok? && r.result.value == MatchHostIDs(server(at, DescribeUHostRequest(c)).body.uhostSet,
                                                           set n | n in nodeNames)
  {
    var call := DescribeUHostRequest(c);
    match Checked(server(at, call))
    case Err(e) => Run([call], Err(e))
    case Ok(b) => Run([call], Ok(MatchHostIDs(b.uhostSet, set n | n in nodeNames)))
  }

  /** `InstanceID`: the first collected id for the node, or
      `InstanceNotFound` when none is collected. */
  function InstanceID(c: Cloud, server: Server, at: nat, nodeName: string): (r: Run<string>)
    ensures r.calls == [DescribeUHostRequest(c)]
    ensures var reply := Checked(server(at, DescribeUHostRequest(c)));
            && (reply.Err? ==> r.result == Err(reply.error))
            && (reply.Ok? && FirstHost(reply.value.uhostSet, {nodeName}).None? ==> r.result == Err(InstanceNotFound))
            && (reply.Ok? && FirstHost(reply.value.uhostSet, {nodeName}).Some? ==>
                  r.result == Ok(FirstHost(reply.value.uhostSet, {nodeName}).value.uhostId))
  {
    var ids := GetUHostIDs(c, server, at, [nodeName]);
    assert (set n | n in [nodeName]) == {nodeName};
    match ids.result
    case Err(e) => Run(ids.calls, Err(e))
    case Ok(found) =>
      FirstMatchIsFirstHost(server(at, DescribeUHostRequest(c)).body.uhostSet, {nodeName});
      if |found| == 0 then Run(ids.calls, Err(InstanceNotFound)) else Run(ids.calls, Ok(found[0]))
  }

  /** `ExternalID` has the same body as `InstanceID`: the first id
      `getUHostIDs` collects for the node, `InstanceNotFound` when it
      collects none, and the listing's error otherwise. */
  function ExternalID(c: Cloud, server: Server, at: nat, nodeName: string): (r: Run<string>)
    ensures r.calls == [DescribeUHostRequest(c)]
    ensures var ids := GetUHostIDs(c, server, at, [nodeName]).result;
            && (ids.Err? ==> r.result == Err(ids.error))
            && (ids.Ok? && |ids.value| == 0 ==> r.result == Err(InstanceNotFound))
            && (ids.Ok? && |ids.value| > 0 ==> r.result == Ok(ids.value[0]))
  {
    ExternalIDFirstCollected(c, server, at, nodeName);
    InstanceID(c, server, at, nodeName)
  }

  /** The first id collected for a node belongs to the first host holding
      its address. */
  lemma ExternalIDFirstCollected(c: Cloud, server: Server, at: nat, nodeName: string)
    ensures var ids := GetUHostIDs(c, server, at, [nodeName]).result;
            var reply := Checked(server(at, DescribeUHostRequest(c)));
            && (ids.Ok? ==> reply.Ok?)
            && (ids.Ok? ==> (|ids.value| == 0 <==> FirstHost(reply.value.uhostSet, {nodeName}).None?))
            && (ids.Ok? && |ids.value| > 0 ==> ids.value[0] == FirstHost(reply.value.uhostSet, {nodeName}).value.uhostId)
  {
    var reply := Checked(server(at, DescribeUHostRequest(c)));
    assert (set n | n in [nodeName]) == {nodeName};
    if reply.Ok? {
      FirstMatchIsFirstHost(reply.value.uhostSet, {nodeName});
    }
  }

  /** `InstanceType`: the type of the first host holding the node's address. */
  function InstanceType(c: Cloud, server: Server, at: nat, nodeName: string): (r: Run<string>)
    ensures r.calls == [DescribeUHostRequest(c)]
    ensures var reply := Checked(server(at, DescribeUHostRequest(c)));
            && (reply.Err? ==> r.result == Err(reply.error))
            && (reply.Ok? ==> (r.result.Ok? <==> exists k | 0 <= k < |reply.value.uhostSet| :: Serves(reply.value.uhostSet[k], {nodeName})))
            && (reply.Ok? && FirstHost(reply.value.uhostSet, {nodeName}).None? ==> r.result == Err(InstanceNotFound))
            && (reply.Ok? && FirstHost(reply.value.uhostSet, {nodeName}).Some? ==>
                  r.result == Ok(FirstHost(reply.value.uhostSet, {nodeName}).value.uhostType))
            && (r.result.Ok? ==> exists k :: (FirstServingAt(reply.value.uhostSet, {nodeName}, k) &&
                                              reply.value.uhostSet[k].uhostType == r.result.value))
  {
    var call := DescribeUHostRequest(c);
    match Checked(server(at, call))
    case Err(e) => Run([call], Err(e))
    case Ok(b) =>
      match FirstHost(b.uhostSet, {nodeName})
      case None => Run([call], Err(InstanceNotFound))
      case Some(h) => Run([call], Ok(h.uhostType))
  }

  /** Given the same listing, `InstanceID` and `InstanceType` agree: both
      fail alike, or both describe the same host, the first one holding the
      node's address. */
  lemma InstanceIDMatchesType(c: Cloud, server: Server, at: nat, nodeName: string)
    ensures var id := InstanceID(c, server, at, nodeName).result;
            var ty := InstanceType(c, server, at, nodeName).result;
            var reply := Checked(server(at, DescribeUHostRequest(c)));
            && (id.Ok? <==> ty.Ok?)
            && (id.Err? ==> id == ty)
            && (id.Ok? ==> reply.Ok? && exists k :: (FirstServingAt(reply.value.uhostSet, {nodeName}, k) &&
                                                      reply.value.uhostSet[k].uhostId == id.value &&
                                                      reply.value.uhostSet[k].uhostType == ty.value))
  {
    var reply := Checked(server(at, DescribeUHostRequest(c)));
    if reply.Ok? {
      var hosts := reply.value.uhostSet;
      var first := FirstHost(hosts, {nodeName});
      if first.Some? {
        var k :| FirstServingAt(hosts, {nodeName}, k) && hosts[k] == first.value;
      }
    }
  }
}

=== FILE: lookup.dfy ===
/** Finding a load balancer by name and reading its ingress address
    (`describeLoadBalancer`, `toLBStatus` and `GetLoadBalancer` in
    pkg/cloudprovider/providers/ucloud/ucloud.go). */
module Lookup {
  import opened Remote

  /** `lbs[i]` is the first load balancer whose `Name` is `name`. */
  predicate FirstNamedAt(lbs: seq<ULB>, name: string, i: int)
  {
    0 <= i < |lbs| && lbs[i].name == name && forall j | 0 <= j < i :: lbs[j].name != name
  }

  /** The first load balancer in the listing named `name`; the `ULBName`
      field plays no part. */
  function FindByName(lbs: seq<ULB>, name: string): (r: Option<ULB>)
    ensures r.None? <==> forall i | 0 <= i < |lbs| :: lbs[i].name != name
    ensures r.Some? ==> exists i :: FirstNamedAt(lbs, name, i) && lbs[i] == r.value
    decreases |lbs|
  {
    if |lbs| == 0 then None
    else if lbs[0].name == name then
      assert FirstNamedAt(lbs, name, 0);
      Some(lbs[0])
    else
      var r := FindByName(lbs[1..], name);
      if r.Some? then
        var i :| FirstNamedAt(lbs[1..], name, i) && lbs[1..][i] == r.value;
        assert FirstNamedAt(lbs, name, i + 1);
        r
      else
        assert forall i | 1 <= i < |lbs| :: lbs[i] == lbs[1..][i - 1];
        r
  }

  /** `describeLoadBalancer`: one listing request. A failed call passes its
      error on; a rejected call and a listing without the name both give
      `ULBNotFound`; otherwise the first entry with that name. */
  function DescribeLoadBalancer(c: Cloud, server: Server, at: nat, name: string): (r: Run<ULB>)
    ensures r.calls == [DescribeULBRequest(c)]
    ensures var reply := server(at, DescribeULBRequest(c));
            && (!reply.Decoded? ==> r.result == Err(CallFailed(reply.cause)))
            && (reply.Decoded? && reply.body.retCode != 0 ==> r.result == Err(ULBNotFound))
            && (reply.Decoded? && reply.body.retCode == 0 ==>
                  && (r.result.Ok? <==> exists i | 0 <= i < |reply.body.dataSet| :: reply.body.dataSet[i].name == name)
                  && (r.result.Err? ==> r.result.error == ULBNotFound)
                  && (r.result.Ok? ==> exists i :: FirstNamedAt(reply.body.dataSet, name, i) &&
                                                   reply.body.dataSet[i] == r.result.value))
  {
    var call := DescribeULBRequest(c);
    match server(at, call)
    case TransportFailed(e) => Run([call], Err(CallFailed(e)))
    case DecodeFailed(e) => Run([call], Err(CallFailed(e)))
    case Decoded(b) =>
      if b.retCode != 0 then Run([call], Err(ULBNotFound))
      else
        match FindByName(b.dataSet, name)
        case None => Run([call], Err(ULBNotFound))
        case Some(lb) => Run([call], Ok(lb))
  }

  /** A load balancer whose `ULBName` is the name searched for, but whose
      `Name` is not, is not found. */
  lemma MatchesNameNotULBName(c: Cloud, server: Server, at: nat, name: string, lb: ULB)
    requires lb.ulbName == name && lb.name != name
    requires server(at, DescribeULBRequest(c)) == Decoded(Body(0, "", [lb], [], "", "", []))
    ensures DescribeLoadBalancer(c, server, at, name).result == Err(ULBNotFound)
  {
  }

  /** The status reported for a load balancer: its ingress addresses. */
  datatype Status = Status(ingress: seq<string>)

  /** `toLBStatus`: the first EIP of the load balancer as the only ingress,
      or `EIPNotFound` when it has none. */
  function ToLBStatus(lb: ULB): (r: Result<Status>)
    ensures r.Err? <==> |lb.ipSet| == 0
    ensures r.Err? ==> r.error == EIPNotFound
    ensures r.Ok? ==> |r.value.ingress| == 1 && r.value.ingress[0] == lb.ipSet[0].eip
  {
    if |lb.ipSet| == 0 then Err(EIPNotFound) else Ok(Status([lb.ipSet[0].eip]))
  }

  /** `GetLoadBalancer`: the lookup's error, then `toLBStatus`'s; the
      load balancer exists exactly when a status is returned. A missing
      load balancer is reported as the error `ULBNotFound`. */
  function GetLoadBalancer(c: Cloud, server: Server, at: nat, name: string): (r: Run<Status>)
    ensures r.calls == [DescribeULBRequest(c)]
    ensures var found := DescribeLoadBalancer(c, server, at, name).result;
            && (found.Err? ==> r.result == Err(found.error))
            && (found.Ok? ==> r.result == ToLBStatus(found.value))
  {
    var d := DescribeLoadBalancer(c, server, at, name);
    match d.result
    case Err(e) => Run(d.calls, Err(e))
    case Ok(lb) => Run(d.calls, ToLBStatus(lb))
  }

  /** The reported ingress is the first EIP of the first load balancer
      with the service's name. */
  lemma GetLoadBalancerIngress(c: Cloud, server: Server, at: nat, name: string)
    requires GetLoadBalancer(c, server, at, name).result.Ok?
    ensures var reply := server(at, DescribeULBRequest(c));
            && reply.Decoded? && reply.body.retCode == 0
            && exists i :: (FirstNamedAt(reply.body.dataSet, name, i) && |reply.body.dataSet[i].ipSet| > 0 &&
                            GetLoadBalancer(c, server, at, name).result.value.ingress == [reply.body.dataSet[i].ipSet[0].eip])
  {
    var reply := server(at, DescribeULBRequest(c));
    var lb := DescribeLoadBalancer(c, server, at, name).result.value;
    var i :| FirstNamedAt(reply.body.dataSet, name, i) && reply.body.dataSet[i] == lb;
  }
}

=== FILE: operations.dfy ===
/** The multi-step load-balancer operations of
    pkg/cloudprovider/providers/ucloud/ucloud.go: `createLoadBalancer`,
    `EnsureLoadBalancer`, `UpdateLoadBalancer`, `deleteLoadBalancer` and
    `EnsureLoadBalancerDeleted`. Each returns the requests it sent, in
    order, and its outcome; the replies come from the `Server`. */
module Operations {
  import opened Requests
  import opened Remote
  import opened Instances
  import opened Lookup
  import opened BackendDiff

  // ---------------------------------------------------------------------
  // Replies within a trace

  /** The record decoded from the reply to `p` at position `k`; an all-zero
      record when nothing was decoded, which no contract below reads. */
  function BodyAt(server: Server, k: nat, p: Param): Body
  {
    match server(k, p)
    case Decoded(b) => b
    case _ => Body(0, "", [], [], "", "", [])
  }

  /** Every request but the last was answered with success: an operation
      that stops at its first failure. */
  predicate AllButLastSucceeded(server: Server, at: nat, calls: seq<Param>)
  {
    forall i | 0 <= i < |calls| - 1 :: Checked(ReplyTo(server, at, calls, i)).Ok?
  }

  /** The outcome of the last request sent. */
  function LastChecked(server: Server, at: nat, calls: seq<Param>): Result<Body>
    requires |calls| > 0
  {
    Checked(ReplyTo(server, at, calls, |calls| - 1))
  }

  /** A prefix answered with success, followed by a plan run until its first
      failure: every request but the last succeeded, and the last one's
      reply is the plan's outcome. */
  lemma AppendRun(server: Server, at: nat, steps: seq<Param>, plan: seq<Param>)
    requires forall i | 0 <= i < |steps| :: Checked(ReplyTo(server, at, steps, i)).Ok?
    ensures var run := RunPlan(server, at + |steps|, plan);
            var calls := steps + run.calls;
            && AllButLastSucceeded(server, at, calls)
            && (|calls| > 0 && run.result.Ok? ==> LastChecked(server, at, calls).Ok?)
            && (run.result.Err? ==> LastChecked(server, at, calls) == Err(run.result.error))
  {
    var next := at + |steps|;
    var run := RunPlan(server, next, plan);
    var calls := steps + run.calls;
    forall i | 0 <= i < |calls|
      ensures i < |steps| ==> ReplyTo(server, at, calls, i) == ReplyTo(server, at, steps, i)
      ensures i >= |steps| ==> ReplyTo(server, at, calls, i) == ReplyTo(server, next, plan, i - |steps|)
    {
      if i >= |steps| {
        assert calls[i] == run.calls[i - |steps|] == plan[i - |steps|];
      }
    }
  }

  // ---------------------------------------------------------------------
  // createLoadBalancer

  /** The first address of the first allocated EIP, if there is one. */
  function FirstAddress(b: Body): Option<string>
  {
    if |b.eipSet| > 0 && |b.eipSet[0].eipAddr| > 0 then Some(b.eipSet[0].eipAddr[0].ip) else None
  }

  function FirstEIPId(b: Body): string
  {
    if |b.eipSet| > 0 then b.eipSet[0].eipId else ""
  }

  /** The ids a creation starting at position `at` learns from the server:
      the new load balancer's, the EIP record's and the new listener's. */
  function NewULBId(c: Cloud, server: Server, at: nat, name: string): string
  {
    BodyAt(server, at, CreateULBRequest(c, name)).ulbId
  }

  function NewEIPs(c: Cloud, server: Server, at: nat): Body
  {
    BodyAt(server, at + 1, AllocateEIPRequest(c))
  }

  function NewVServerId(c: Cloud, server: Server, at: nat, name: string, frontendPort: int): string
  {
    BodyAt(server, at + 3, CreateVServerRequest(c, NewULBId(c, server, at, name), frontendPort)).vserverId
  }

  /** The requests of a complete creation: the four fixed steps, with the
      ids the server hands out, then one allocation per host id. */
  function CreateRequests(c: Cloud, server: Server, at: nat, name: string, hostIDs: seq<string>,
                          backendPort: int, frontendPort: int): (t: seq<Param>)
    ensures |t| == 4 + |hostIDs|
  {
    var ulbId := NewULBId(c, server, at, name);
    [CreateULBRequest(c, name), AllocateEIPRequest(c), BindEIPRequest(c, FirstEIPId(NewEIPs(c, server, at)), ulbId),
     CreateVServerRequest(c, ulbId, frontendPort)]
    + AllocateRequests(c, ulbId, NewVServerId(c, server, at, name, frontendPort), hostIDs, backendPort)
  }

  /** `createLoadBalancer`: create the load balancer, allocate an EIP, bind
      it to the load balancer, create a listener on `frontendPort`, then
      one backend per host id on `backendPort`. The first failed or rejected
      request ends it with its error; on success the first address of the
      allocated EIP is returned. An EIP reply without an EIP, or without an
      address, makes the Go code index past the end. */
  function CreateLoadBalancer(c: Cloud, server: Server, at: nat, name: string, hostIDs: seq<string>,
                              backendPort: int, frontendPort: int): (r: Run<string>)
    ensures 1 <= |r.calls| <= 4 + |hostIDs|
    ensures r.result.Ok? ==> |r.calls| == 4 + |hostIDs|
    ensures r.result.Err? && r.result.error.Panic? ==> |r.calls| == 2 || |r.calls| == 4 + |hostIDs|
  {
    var p1 := CreateULBRequest(c, name);
    match Checked(server(at, p1))
    case Err(e) => Run([p1], Err(e))
    case Ok(b1) =>
      var p2 := AllocateEIPRequest(c);
      match Checked(server(at + 1, p2))
      case Err(e) => Run([p1, p2], Err(e))
      case Ok(b2) =>
        if |b2.eipSet| == 0 then Run([p1, p2], Err(Panic("EIPSet[0]")))
        else
          var p3 := BindEIPRequest(c, b2.eipSet[0].eipId, b1.ulbId);
          match Checked(server(at + 2, p3))
          case Err(e) => Run([p1, p2, p3], Err(e))
          case Ok(_) =>
            var p4 := CreateVServerRequest(c, b1.ulbId, frontendPort);
            match Checked(server(at + 3, p4))
            case Err(e) => Run([p1, p2, p3, p4], Err(e))
            case Ok(b4) => CreateBackends(c, server, at, [p1, p2, p3, p4], b1.ulbId, b4.vserverId, b2.eipSet[0],
                                          hostIDs, backendPort)
  }

  /** The backends of a creation whose first four requests, `steps`,
      succeeded: the allocations in order until one fails. */
  function CreateBackends(c: Cloud, server: Server, at: nat, steps: seq<Param>, ulbId: string,
                          vserverId: string, eip: EIP, hostIDs: seq<string>, backendPort: int): (r: Run<string>)
    ensures var run := RunPlan(server, at + |steps|, AllocateRequests(c, ulbId, vserverId, hostIDs, backendPort));
            && r.calls == steps + run.calls
            && (run.result.Err? ==> r.result == Err(run.result.error))
            && (run.result.Ok? ==> r.result == (if |eip.eipAddr| == 0 then Err(Panic("EIPAddr[0]")) else Ok(eip.eipAddr[0].ip)))
  {
    var run := RunPlan(server, at + |steps|, AllocateRequests(c, ulbId, vserverId, hostIDs, backendPort));
    if run.result.Err? then Run(steps + run.calls, Err(run.result.error))
    else if |eip.eipAddr| == 0 then Run(steps + run.calls, Err(Panic("EIPAddr[0]")))
    else Run(steps + run.calls, Ok(eip.eipAddr[0].ip))
  }

  /** Creation sends a prefix of the complete creation sequence. */
  lemma CreateFollowsRequests(c: Cloud, server: Server, at: nat, name: string, hostIDs: seq<string>,
                              backendPort: int, frontendPort: int)
    ensures var r := CreateLoadBalancer(c, server, at, name, hostIDs, backendPort, frontendPort);
            r.calls == CreateRequests(c, server, at, name, hostIDs, backendPort, frontendPort)[..|r.calls|]
  {
    var r := CreateLoadBalancer(c, server, at, name, hostIDs, backendPort, frontendPort);
    var t := CreateRequests(c, server, at, name, hostIDs, backendPort, frontendPort);
    var b1 := Checked(server(at, CreateULBRequest(c, name)));
    var b2 := Checked(server(at + 1, AllocateEIPRequest(c)));
    if b1.Ok? && b2.Ok? && |b2.value.eipSet| > 0 {
      var p3 := BindEIPRequest(c, b2.value.eipSet[0].eipId, b1.value.ulbId);
      var p4 := CreateVServerRequest(c, b1.value.ulbId, frontendPort);
      var b4 := Checked(server(at + 3, p4));
      if Checked(server(at + 2, p3)).Ok? && b4.Ok? {
        var plan := AllocateRequests(c, b1.value.ulbId, b4.value.vserverId, hostIDs, backendPort);
        assert t == [CreateULBRequest(c, name), AllocateEIPRequest(c), p3, p4] + plan;
      }
    }
  }

  /** The backend stage after four successful steps stops at its first
      failure too, and ends with that failure's error. */
  lemma CreateBackendsStops(c: Cloud, server: Server, at: nat, steps: seq<Param>, ulbId: string,
                            vserverId: string, eip: EIP, hostIDs: seq<string>, backendPort: int)
    requires |steps| > 0 && forall i | 0 <= i < |steps| :: Checked(ReplyTo(server, at, steps, i)).Ok?
    ensures var r := CreateBackends(c, server, at, steps, ulbId, vserverId, eip, hostIDs, backendPort);
            && AllButLastSucceeded(server, at, r.calls)
            && (r.result.Err? && !r.result.error.Panic? ==> LastChecked(server, at, r.calls) == Err(r.result.error))
            && (r.result.Ok? || r.result.error.Panic? ==> LastChecked(server, at, r.calls).Ok?)
  {
    AppendRun(server, at, steps, AllocateRequests(c, ulbId, vserverId, hostIDs, backendPort));
  }

  /** Creation stops at its first failed or rejected request and ends with
      that request's error; it panics, or succeeds, only after a successful
      reply. */
  lemma CreateStopsAtFirstFailure(c: Cloud, server: Server, at: nat, name: string, hostIDs: seq<string>,
                                  backendPort: int, frontendPort: int)
    ensures var r := CreateLoadBalancer(c, server, at, name, hostIDs, backendPort, frontendPort);
            && AllButLastSucceeded(server, at, r.calls)
            && (r.result.Err? && !r.result.error.Panic? ==> LastChecked(server, at, r.calls) == Err(r.result.error))
            && (r.result.Ok? || r.result.error.Panic? ==> LastChecked(server, at, r.calls).Ok?)
  {
    var p1 := CreateULBRequest(c, name);
    var p2 := AllocateEIPRequest(c);
    var b1 := Checked(server(at, p1));
    var b2 := Checked(server(at + 1, p2));
    assert ReplyTo(server, at, [p1], 0) == server(at, p1);
    assert ReplyTo(server, at, [p1, p2], 0) == server(at, p1);
    assert ReplyTo(server, at, [p1, p2], 1) == server(at + 1, p2);
    if b1.Ok? && b2.Ok? && |b2.value.eipSet| > 0 {
      var p3 := BindEIPRequest(c, b2.value.eipSet[0].eipId, b1.value.ulbId);
      var p4 := CreateVServerRequest(c, b1.value.ulbId, frontendPort);
      var b3 := Checked(server(at + 2, p3));
      var b4 := Checked(server(at + 3, p4));
      var steps := [p1, p2, p3, p4];
      assert ReplyTo(server, at, [p1, p2, p3], 0) == server(at, p1);
      assert ReplyTo(server, at, [p1, p2, p3], 1) == server(at + 1, p2);
      assert ReplyTo(server, at, [p1, p2, p3], 2) == server(at + 2, p3);
      assert ReplyTo(server, at, steps, 0) == server(at, p1);
      assert ReplyTo(server, at, steps, 1) == server(at + 1, p2);
      assert ReplyTo(server, at, steps, 2) == server(at + 2, p3);
      assert ReplyTo(server, at, steps, 3) == server(at + 3, p4);
      if b3.Ok? && b4.Ok? {
        CreateBackendsStops(c, server, at, steps, b1.value.ulbId, b4.value.vserverId, b2.value.eipSet[0],
                            hostIDs, backendPort);
      }
    }
  }

  /** Creation succeeds exactly when every request succeeded and the EIP
      reply carried an address, and then returns that address; it panics
      only when the EIP reply lacks one. */
  lemma CreateOutcome(c: Cloud, server: Server, at: nat, name: string, hostIDs: seq<string>,
                      backendPort: int, frontendPort: int)
    ensures var r := CreateLoadBalancer(c, server, at, name, hostIDs, backendPort, frontendPort);
            var address := FirstAddress(NewEIPs(c, server, at));
            && (r.result.Ok? <==> |r.calls| == 4 + |hostIDs| && LastChecked(server, at, r.calls).Ok? && address.Some?)
            && (r.result.Ok? ==> r.result.value == address.value)
            && (r.result.Err? && r.result.error.Panic? ==> address.None?)
  {
    CreateStopsAtFirstFailure(c, server, at, name, hostIDs, backendPort, frontendPort);
  }

  // ---------------------------------------------------------------------
  // The service the orchestrator hands over

  datatype IntOrString = IntVal(intVal: int) | StrVal(strVal: string)

  datatype ServicePort = ServicePort(port: int, nodePort: int, targetPort: IntOrString)

  /** A service: the load-balancer name derived from it (by the
      orchestrator's `GetLoadBalancerName`) and its ports. */
  datatype Service = Service(name: string, ports: seq<ServicePort>)

  // ---------------------------------------------------------------------
  // The ports requests are made on

  /** Every backend allocation among `calls` is on `port`. */
  predicate AllocatesOn(calls: seq<Param>, port: int)
  {
    forall i | 0 <= i < |calls| :: calls[i].op.AllocateBackend? ==> calls[i].op.port == port
  }

  lemma AllocatesOnPrefix(plan: seq<Param>, n: nat, port: int)
    requires n <= |plan| && AllocatesOn(plan, port)
    ensures AllocatesOn(plan[..n], port)
  {
  }

  lemma AllocatesOnAppend(a: seq<Param>, b: seq<Param>, port: int)
    requires AllocatesOn(a, port) && AllocatesOn(b, port)
    ensures AllocatesOn(a + b, port)
  {
    forall i | 0 <= i < |a + b|
      ensures (a + b)[i].op.AllocateBackend? ==> (a + b)[i].op.port == port
    {
      if i >= |a| {
        assert (a + b)[i] == b[i - |a|];
      }
    }
  }

  /** Every listener created among `calls` is on `port`. */
  predicate ListensOn(calls: seq<Param>, port: int)
  {
    forall i | 0 <= i < |calls| :: calls[i].op.CreateVServer? ==> calls[i].op.frontendPort == port
  }

  lemma ListensOnAppend(a: seq<Param>, b: seq<Param>, port: int)
    requires ListensOn(a, port) && ListensOn(b, port)
    ensures ListensOn(a + b, port)
  {
    forall i | 0 <= i < |a + b|
      ensures (a + b)[i].op.CreateVServer? ==> (a + b)[i].op.frontendPort == port
    {
      if i >= |a| {
        assert (a + b)[i] == b[i - |a|];
      }
    }
  }

  /** A creation allocates its backends on `backendPort` and its listener
      on `frontendPort`, however far it gets. */
  lemma CreatePorts(c: Cloud, server: Server, at: nat, name: string, hostIDs: seq<string>,
                    backendPort: int, frontendPort: int)
    ensures var r := CreateLoadBalancer(c, server, at, name, hostIDs, backendPort, frontendPort);
            AllocatesOn(r.calls, backendPort) && ListensOn(r.calls, frontendPort)
  {
    var r := CreateLoadBalancer(c, server, at, name, hostIDs, backendPort, frontendPort);
    var t := CreateRequests(c, server, at, name, hostIDs, backendPort, frontendPort);
    CreateFollowsRequests(c, server, at, name, hostIDs, backendPort, frontendPort);
    forall i | 0 <= i < |t|
      ensures t[i].op.AllocateBackend? ==> t[i].op.port == backendPort
      ensures t[i].op.CreateVServer? ==> t[i].op.frontendPort == frontendPort
    {
      if i >= 4 {
        assert t[i] == t[4..][i - 4];
      }
    }
    AllocatesOnPrefix(t, |r.calls|, backendPort);
    assert r.calls == t[..|r.calls|];
  }

  // ---------------------------------------------------------------------
  // EnsureLoadBalancer

  /** The listener's port: the target port when it is a number, else the
      service port. */
  function FrontendPort(p: ServicePort): (r: int)
    ensures p.targetPort.IntVal? ==> r == p.targetPort.intVal
    ensures p.targetPort.StrVal? ==> r == p.port
  {
    match p.targetPort
    case IntVal(n) => n
    case StrVal(_) => p.port
  }

  /** `EnsureLoadBalancer`: a lookup error other than `ULBNotFound` ends it;
      a service without ports fails; otherwise the hosts are looked up and
      a load balancer is created for them, backends on the node port, with
      the EIP address as the only ingress. The lookup's result is not used:
      an existing load balancer of that name does not stop the creation. */
  function EnsureLoadBalancer(c: Cloud, server: Server, at: nat, svc: Service, nodeNames: seq<string>): (r: Run<Status>)
    ensures |r.calls| >= 1 && r.calls[0] == DescribeULBRequest(c)
    ensures var found := DescribeLoadBalancer(c, server, at, svc.name).result;
            var hosts := GetUHostIDs(c, server, at + 1, nodeNames).result;
            && (found.Err? && found.error != ULBNotFound ==> r == Run([DescribeULBRequest(c)], Err(found.error)))
            && ((found.Ok? || found.error == ULBNotFound) && |svc.ports| == 0 ==>
                  r == Run([DescribeULBRequest(c)], Err(NoPort)))
            && ((found.Ok? || found.error == ULBNotFound) && |svc.ports| > 0 ==>
                  |r.calls| >= 2 && r.calls[1] == DescribeUHostRequest(c))
            && ((found.Ok? || found.error == ULBNotFound) && |svc.ports| > 0 && hosts.Err? ==>
                  r == Run([DescribeULBRequest(c), DescribeUHostRequest(c)], Err(hosts.error)))
    ensures r.result.Ok? ==> |r.result.value.ingress| == 1
  {
    var d := DescribeLoadBalancer(c, server, at, svc.name);
    if d.result.Err? && d.result.error != ULBNotFound then Run(d.calls, Err(d.result.error))
    else if |svc.ports| == 0 then Run(d.calls, Err(NoPort))
    else
      var u := GetUHostIDs(c, server, at + 1, nodeNames);
      match u.result
      case Err(e) => Run(d.calls + u.calls, Err(e))
      case Ok(ids) =>
        var made := CreateLoadBalancer(c, server, at + 2, svc.name, ids, svc.ports[0].nodePort, FrontendPort(svc.ports[0]));
        match made.result
        case Err(e) => Run(d.calls + u.calls + made.calls, Err(e))
        case Ok(eip) => Run(d.calls + u.calls + made.calls, Ok(Status([eip])))
  }

  /** Once the lookups pass, `EnsureLoadBalancer` is a creation for the
      matched hosts, backends on the node port and the listener on
      `FrontendPort`, whether or not the load balancer already exists; its
      ingress is the address the creation returns. */
  lemma EnsureCreates(c: Cloud, server: Server, at: nat, svc: Service, nodeNames: seq<string>)
    requires var found := DescribeLoadBalancer(c, server, at, svc.name).result;
             found.Ok? || found.error == ULBNotFound
    requires |svc.ports| > 0 && Checked(server(at + 1, DescribeUHostRequest(c))).Ok?
    ensures var ids := MatchHostIDs(server(at + 1, DescribeUHostRequest(c)).body.uhostSet, set n | n in nodeNames);
            var made := CreateLoadBalancer(c, server, at + 2, svc.name, ids, svc.ports[0].nodePort, FrontendPort(svc.ports[0]));
            var r := EnsureLoadBalancer(c, server, at, svc, nodeNames);
            && r.calls == [DescribeULBRequest(c), DescribeUHostRequest(c)] + made.calls
            && (r.result.Ok? <==> made.result.Ok?)
            && (r.result.Ok? ==> r.result.value.ingress == [made.result.value])
            && (r.result.Err? ==> r.result.error == made.result.error)
  {
    var u := GetUHostIDs(c, server, at + 1, nodeNames);
    assert u.calls == [DescribeUHostRequest(c)] && u.result.Ok?;
  }

  /** An existing load balancer with the service's name is created again:
      the third request is a `CreateULB` of that name. */
  lemma EnsureCreatesDuplicate(c: Cloud, server: Server, at: nat, svc: Service, nodeNames: seq<string>)
    requires DescribeLoadBalancer(c, server, at, svc.name).result.Ok?
    requires |svc.ports| > 0 && Checked(server(at + 1, DescribeUHostRequest(c))).Ok?
    ensures var r := EnsureLoadBalancer(c, server, at, svc, nodeNames);
            |r.calls| >= 3 && r.calls[2] == CreateULBRequest(c, svc.name)
  {
    EnsureCreates(c, server, at, svc, nodeNames);
  }

  /** Every backend `EnsureLoadBalancer` allocates is on the node port, and
      every listener it creates is on `FrontendPort`. */
  lemma EnsurePorts(c: Cloud, server: Server, at: nat, svc: Service, nodeNames: seq<string>)
    requires |svc.ports| > 0
    ensures var r := EnsureLoadBalancer(c, server, at, svc, nodeNames);
            && AllocatesOn(r.calls, svc.ports[0].nodePort)
            && ListensOn(r.calls, FrontendPort(svc.ports[0]))
  {
    var found := DescribeLoadBalancer(c, server, at, svc.name).result;
    var hosts := server(at + 1, DescribeUHostRequest(c));
    var r := EnsureLoadBalancer(c, server, at, svc, nodeNames);
    var lookups := [DescribeULBRequest(c), DescribeUHostRequest(c)];
    if (found.Ok? || found.error == ULBNotFound) && Checked(hosts).Ok? {
      var ids := MatchHostIDs(hosts.body.uhostSet, set n | n in nodeNames);
      var port, front := svc.ports[0].nodePort, FrontendPort(svc.ports[0]);
      var made := CreateLoadBalancer(c, server, at + 2, svc.name, ids, port, front);
      EnsureCreates(c, server, at, svc, nodeNames);
      CreatePorts(c, server, at + 2, svc.name, ids, port, front);
      AllocatesOnAppend(lookups, made.calls, port);
      ListensOnAppend(lookups, made.calls, front);
    } else {
      assert r.calls == [DescribeULBRequest(c)] || r.calls == lookups;
    }
  }

  // ---------------------------------------------------------------------
  // UpdateLoadBalancer

  /** `UpdateLoadBalancer` with the backend port taken from the service's
      first port by `portOf`: look the load balancer up and fail with its
      error, fail on a service without ports, look the hosts up and fail
      with their error, then run the backend plan of the first listener.
      A load balancer without listeners makes the Go code index past the
      end. `sched` is the order Go's map iteration happens to take. */
  function SyncBackends(c: Cloud, server: Server, at: nat, svc: Service, nodeNames: seq<string>, sched: Scheduler,
                        portOf: ServicePort -> int): (r: Run<()>)
    ensures |r.calls| >= 1 && r.calls[0] == DescribeULBRequest(c)
    ensures var found := DescribeLoadBalancer(c, server, at, svc.name).result;
            var hosts := GetUHostIDs(c, server, at + 1, nodeNames).result;
            && (found.Err? ==> r == Run([DescribeULBRequest(c)], Err(found.error)))
            && (found.Ok? && |svc.ports| == 0 ==> r == Run([DescribeULBRequest(c)], Err(NoPort)))
            && (found.Ok? && |svc.ports| > 0 ==> |r.calls| >= 2 && r.calls[1] == DescribeUHostRequest(c))
            && (found.Ok? && |svc.ports| > 0 && hosts.Err? ==> r.calls == [DescribeULBRequest(c), DescribeUHostRequest(c)] && r.result == Err(hosts.error))
            && (r.result.Err? && r.result.error.Panic? <==>
                  found.Ok? && |svc.ports| > 0 && hosts.Ok? && |found.value.vserverSet| == 0)
  {
    var d := DescribeLoadBalancer(c, server, at, svc.name);
    match d.result
    case Err(e) => Run(d.calls, Err(e))
    case Ok(lb) =>
      if |svc.ports| == 0 then Run(d.calls, Err(NoPort))
      else
        var u := GetUHostIDs(c, server, at + 1, nodeNames);
        match u.result
        case Err(e) => Run(d.calls + u.calls, Err(e))
        case Ok(ids) =>
          if |lb.vserverSet| == 0 then Run(d.calls + u.calls, Err(Panic("VServerSet[0]")))
          else
            var port := portOf(svc.ports[0]);
            var plan := BackendPlan(c, lb.ulbId, lb.vserverSet[0], ids, port, sched);
            var run := RunPlan(server, at + 2, plan);
            assert run.result.Err? ==> Checked(ReplyTo(server, at + 2, plan, |run.calls| - 1)).Err?;
            Run(d.calls + u.calls + run.calls, run.result)
  }

  /** Every backend the update allocates is on the port `portOf` picks. */
  lemma SyncBackendsPorts(c: Cloud, server: Server, at: nat, svc: Service, nodeNames: seq<string>, sched: Scheduler,
                          portOf: ServicePort -> int)
    ensures |svc.ports| > 0 ==> AllocatesOn(SyncBackends(c, server, at, svc, nodeNames, sched, portOf).calls, portOf(svc.ports[0]))
  {
    var found := DescribeLoadBalancer(c, server, at, svc.name).result;
    var hosts := GetUHostIDs(c, server, at + 1, nodeNames).result;
    if found.Ok? && |svc.ports| > 0 && hosts.Ok? && |found.value.vserverSet| > 0 {
      var lb := found.value;
      var port := portOf(svc.ports[0]);
      var plan := BackendPlan(c, lb.ulbId, lb.vserverSet[0], hosts.value, port, sched);
      var run := RunPlan(server, at + 2, plan);
      SyncBackendsRunsPlan(c, server, at, svc, nodeNames, sched, portOf);
      PlanAllocatesOn(c, lb.ulbId, lb.vserverSet[0], hosts.value, port, sched);
      AllocatesOnPrefix(plan, |run.calls|, port);
      AllocatesOnAppend([DescribeULBRequest(c), DescribeUHostRequest(c)], run.calls, port);
    }
  }

  lemma PlanAllocatesOn(c: Cloud, ulbId: string, vs: VServer, hostIDs: seq<string>, port: int, sched: Scheduler)
    ensures AllocatesOn(BackendPlan(c, ulbId, vs, hostIDs, port, sched), port)
  {
    var released := ReleasedHosts(vs.backends, hostIDs, sched);
    var plan := BackendPlan(c, ulbId, vs, hostIDs, port, sched);
    BackendPlanOrder(c, ulbId, vs, hostIDs, port, sched);
    forall i | |released| <= i < |plan|
      ensures plan[i].op.AllocateBackend? ==> plan[i].op.port == port
    {
      assert plan[|released| + (i - |released|)] == plan[i];
    }
  }

  /** When both lookups succeed and there is a listener, the update is the
      backend plan, run until its first failure, after the two lookups. */
  lemma SyncBackendsRunsPlan(c: Cloud, server: Server, at: nat, svc: Service, nodeNames: seq<string>,
                             sched: Scheduler, portOf: ServicePort -> int)
    requires DescribeLoadBalancer(c, server, at, svc.name).result.Ok?
    requires |svc.ports| > 0 && GetUHostIDs(c, server, at + 1, nodeNames).result.Ok?
    requires |DescribeLoadBalancer(c, server, at, svc.name).result.value.vserverSet| > 0
    ensures var lb := DescribeLoadBalancer(c, server, at, svc.name).result.value;
            var ids := GetUHostIDs(c, server, at + 1, nodeNames).result.value;
            var run := RunPlan(server, at + 2, BackendPlan(c, lb.ulbId, lb.vserverSet[0], ids, portOf(svc.ports[0]), sched));
            var r := SyncBackends(c, server, at, svc, nodeNames, sched, portOf);
            r.calls == [DescribeULBRequest(c), DescribeUHostRequest(c)] + run.calls && r.result == run.result
  {
  }

  /** `UpdateLoadBalancer` as written: backends are allocated on the
      service port. */
  function UpdateLoadBalancer(c: Cloud, server: Server, at: nat, svc: Service, nodeNames: seq<string>,
                              sched: Scheduler): (r: Run<()>)
    ensures |svc.ports| > 0 ==> AllocatesOn(r.calls, svc.ports[0].port)
  {
    SyncBackendsPorts(c, server, at, svc, nodeNames, sched, (p: ServicePort) => p.port);
    SyncBackends(c, server, at, svc, nodeNames, sched, (p: ServicePort) => p.port)
  }

  /** `UpdateLoadBalancer` with backends on the node port, the port
      `EnsureLoadBalancer` gives them. */
  function UpdateLoadBalancerOnNodePort(c: Cloud, server: Server, at: nat, svc: Service, nodeNames: seq<string>,
                                        sched: Scheduler): (r: Run<()>)
    ensures |svc.ports| > 0 ==> AllocatesOn(r.calls, svc.ports[0].nodePort)
  {
    SyncBackendsPorts(c, server, at, svc, nodeNames, sched, (p: ServicePort) => p.nodePort);
    SyncBackends(c, server, at, svc, nodeNames, sched, (p: ServicePort) => p.nodePort)
  }

  /** With the corrected port, a backend the update adds is on the same port
      as the ones `EnsureLoadBalancer` created. */
  lemma UpdateMatchesEnsure(c: Cloud, server: Server, at: nat, svc: Service, nodeNames: seq<string>,
                            sched: Scheduler, s2: Server, at2: nat)
    requires |svc.ports| > 0
    ensures var created := EnsureLoadBalancer(c, s2, at2, svc, nodeNames).calls;
            var updated := UpdateLoadBalancerOnNodePort(c, server, at, svc, nodeNames, sched).calls;
            forall i, j | 0 <= i < |created| && 0 <= j < |updated| ::
              created[i].op.AllocateBackend? && updated[j].op.AllocateBackend? ==> created[i].op.port == updated[j].op.port
  {
    EnsurePorts(c, s2, at2, svc, nodeNames);
  }

  /** As written, whenever the service port differs from the node port,
      every backend the update adds is on a port the backends
      `EnsureLoadBalancer` created are not on. */
  lemma UpdatePortDiffersFromEnsure(c: Cloud, server: Server, at: nat, svc: Service, nodeNames: seq<string>,
                                    sched: Scheduler, s2: Server, at2: nat)
    requires |svc.ports| > 0 && svc.ports[0].port != svc.ports[0].nodePort
    ensures var created := EnsureLoadBalancer(c, s2, at2, svc, nodeNames).calls;
            var updated := UpdateLoadBalancer(c, server, at, svc, nodeNames, sched).calls;
            forall i, j | 0 <= i < |created| && 0 <= j < |updated| ::
              created[i].op.AllocateBackend? && updated[j].op.AllocateBackend? ==> created[i].op.port != updated[j].op.port
  {
    EnsurePorts(c, s2, at2, svc, nodeNames);
  }

  /** A cloud whose listing holds load balancer "svc" with one empty
      listener, whose one host holds node address 10.0.0.1, which hands out
      load balancer "ulb-2", listener "vs-2" and EIP "eip-1" with address
      203.0.113.7 when asked to create them, and which accepts every other
      request. */
  function OneHostCloud(): Server
  {
    (k: nat, p: Param) =>
      if p.op.DescribeULB? then
        Decoded(Body(0, "", [ULB("ulb-1", "svc", "svc", [], [VServer("vs-1", [])])], [], "", "", []))
      else if p.op.DescribeUHostInstance? then
        Decoded(Body(0, "", [], [UHost("uhost-1", "N2", [UHostIP("10.0.0.1")])], "", "", []))
      else if p.op.CreateULB? then Decoded(Body(0, "", [], [], "ulb-2", "", []))
      else if p.op.AllocateEIP? then Decoded(Body(0, "", [], [], "", "", [EIP("eip-1", [EIPAddr("203.0.113.7")])]))
      else if p.op.CreateVServer? then Decoded(Body(0, "", [], [], "", "vs-2", []))
      else Decoded(Body(0, "", [], [], "", "", []))
  }

  /** Against `OneHostCloud`, both lookups of service "svc" with node
      10.0.0.1 succeed: the load balancer with one empty listener, and one
      host id. */
  lemma OneHostLookups(c: Cloud)
    ensures DescribeLoadBalancer(c, OneHostCloud(), 0, "svc").result == Ok(ULB("ulb-1", "svc", "svc", [], [VServer("vs-1", [])]))
    ensures GetUHostIDs(c, OneHostCloud(), 1, ["10.0.0.1"]).result == Ok(["uhost-1"])
  {
    OneHostCloudAnswers(c);
    CreationLookups(c, OneHostCloud());
  }

  /** A listener without backends and one desired host: the plan is that
      host's allocation alone, whatever the iteration order. */
  lemma OneHostPlan(c: Cloud, sched: Scheduler, port: int)
    ensures BackendPlan(c, "ulb-1", VServer("vs-1", []), ["uhost-1"], port, sched)
              == [AllocateBackendRequest(c, "ulb-1", "vs-1", "uhost-1", port)]
  {
    var vs := VServer("vs-1", []);
    var ids := ["uhost-1"];
    assert "uhost-1" in ids;
    SingletonOf(AddedHosts(vs.backends, ids, sched), "uhost-1");
    BackendPlanOrder(c, "ulb-1", vs, ids, port, sched);
  }

  /** `OneHostCloud` accepts the host's allocation. */
  lemma OneHostAllocates(c: Cloud, ulbId: string, vserverId: string, port: int, at: nat)
    ensures var alloc := AllocateBackendRequest(c, ulbId, vserverId, "uhost-1", port);
            RunPlan(OneHostCloud(), at, [alloc]) == Run([alloc], Ok(()))
  {
    var alloc := AllocateBackendRequest(c, ulbId, vserverId, "uhost-1", port);
    assert Checked(OneHostCloud()(at, alloc)).Ok?;
    assert [alloc][1..] == [];
  }

  /** Once the lookups pass and the creation succeeds, `EnsureLoadBalancer`
      reports the created address after the two lookups and the creation's
      requests. */
  lemma EnsureAfterCreation(c: Cloud, server: Server, at: nat, svc: Service, nodeNames: seq<string>,
                            ids: seq<string>, made: Run<string>)
    requires var found := DescribeLoadBalancer(c, server, at, svc.name).result;
             found.Ok? || found.error == ULBNotFound
    requires |svc.ports| > 0 && GetUHostIDs(c, server, at + 1, nodeNames).result == Ok(ids)
    requires made == CreateLoadBalancer(c, server, at + 2, svc.name, ids, svc.ports[0].nodePort, FrontendPort(svc.ports[0]))
    requires made.result.Ok?
    ensures EnsureLoadBalancer(c, server, at, svc, nodeNames)
              == Run([DescribeULBRequest(c), DescribeUHostRequest(c)] + made.calls, Ok(Status([made.result.value])))
  {
    EnsureCreates(c, server, at, svc, nodeNames);
  }

  /** `server` answers the seven requests of creating "svc" for host
      "uhost-1" as `OneHostCloud` does: the two listings, then load balancer
      "ulb-2", EIP "eip-1" with address 203.0.113.7, listener "vs-2", and
      acceptance of the binding and of the backend on 30080. */
  predicate AnswersOneHostCreation(c: Cloud, server: Server)
  {
    && server(0, DescribeULBRequest(c)) == Decoded(Body(0, "", [ULB("ulb-1", "svc", "svc", [], [VServer("vs-1", [])])], [], "", "", []))
    && server(1, DescribeUHostRequest(c)) == Decoded(Body(0, "", [], [UHost("uhost-1", "N2", [UHostIP("10.0.0.1")])], "", "", []))
    && server(2, CreateULBRequest(c, "svc")) == Decoded(Body(0, "", [], [], "ulb-2", "", []))
    && server(3, AllocateEIPRequest(c)) == Decoded(Body(0, "", [], [], "", "", [EIP("eip-1", [EIPAddr("203.0.113.7")])]))
    && server(4, BindEIPRequest(c, "eip-1", "ulb-2")) == Decoded(Body(0, "", [], [], "", "", []))
    && server(5, CreateVServerRequest(c, "ulb-2", 80)) == Decoded(Body(0, "", [], [], "", "vs-2", []))
    && server(6, AllocateBackendRequest(c, "ulb-2", "vs-2", "uhost-1", 30080)) == Decoded(Body(0, "", [], [], "", "", []))
  }

  lemma OneHostCloudAnswers(c: Cloud)
    ensures AnswersOneHostCreation(c, OneHostCloud())
  {
  }

  lemma CreationLookups(c: Cloud, server: Server)
    requires AnswersOneHostCreation(c, server)
    ensures DescribeLoadBalancer(c, server, 0, "svc").result == Ok(ULB("ulb-1", "svc", "svc", [], [VServer("vs-1", [])]))
    ensures GetUHostIDs(c, server, 1, ["10.0.0.1"]).result == Ok(["uhost-1"])
  {
    var lb := ULB("ulb-1", "svc", "svc", [], [VServer("vs-1", [])]);
    var host := UHost("uhost-1", "N2", [UHostIP("10.0.0.1")]);
    assert FindByName([lb], "svc") == Some(lb);
    var names := set n | n in ["10.0.0.1"];
    assert names == {"10.0.0.1"};
    assert MatchCount(host.ipSet, names) == 1 by {
      assert host.ipSet[1..] == [];
    }
    assert MatchHostIDs([host], names) == ["uhost-1"] by {
      assert [host][1..] == [];
    }
  }

  /** Such a cloud lets the creation of "svc" for "uhost-1" run to the end
      and return the EIP's address. */
  lemma CreationSucceeds(c: Cloud, server: Server)
    requires AnswersOneHostCreation(c, server)
    ensures CreateLoadBalancer(c, server, 2, "svc", ["uhost-1"], 30080, 80)
              == Run([CreateULBRequest(c, "svc"), AllocateEIPRequest(c), BindEIPRequest(c, "eip-1", "ulb-2"),
                      CreateVServerRequest(c, "ulb-2", 80), AllocateBackendRequest(c, "ulb-2", "vs-2", "uhost-1", 30080)],
                     Ok("203.0.113.7"))
  {
    var alloc := AllocateBackendRequest(c, "ulb-2", "vs-2", "uhost-1", 30080);
    assert AllocateRequests(c, "ulb-2", "vs-2", ["uhost-1"], 30080) == [alloc];
    assert [alloc][1..] == [];
  }

  lemma CreationPrepared(c: Cloud, server: Server, svc: Service, made: Run<string>)
    requires AnswersOneHostCreation(c, server)
    requires svc == Service("svc", [ServicePort(80, 30080, StrVal("http"))])
    requires made == Run([CreateULBRequest(c, "svc"), AllocateEIPRequest(c), BindEIPRequest(c, "eip-1", "ulb-2"),
                          CreateVServerRequest(c, "ulb-2", 80), AllocateBackendRequest(c, "ulb-2", "vs-2", "uhost-1", 30080)],
                         Ok("203.0.113.7"))
    ensures var found := DescribeLoadBalancer(c, server, 0, svc.name).result;
            found.Ok? || found.error == ULBNotFound
    ensures |svc.ports| > 0 && GetUHostIDs(c, server, 0 + 1, ["10.0.0.1"]).result == Ok(["uhost-1"])
    ensures made == CreateLoadBalancer(c, server, 0 + 2, svc.name, ["uhost-1"], svc.ports[0].nodePort, FrontendPort(svc.ports[0]))
    ensures made.result.Ok?
  {
    assert svc.ports[0].nodePort == 30080 && FrontendPort(svc.ports[0]) == 80;
    CreationLookups(c, server);
    CreationSucceeds(c, server);
  }

  lemma LookupsThenCreation(c: Cloud)
    ensures [DescribeULBRequest(c), DescribeUHostRequest(c)]
              + [CreateULBRequest(c, "svc"), AllocateEIPRequest(c), BindEIPRequest(c, "eip-1", "ulb-2"),
                 CreateVServerRequest(c, "ulb-2", 80), AllocateBackendRequest(c, "ulb-2", "vs-2", "uhost-1", 30080)]
            == [DescribeULBRequest(c), DescribeUHostRequest(c), CreateULBRequest(c, "svc"), AllocateEIPRequest(c),
                BindEIPRequest(c, "eip-1", "ulb-2"), CreateVServerRequest(c, "ulb-2", 80),
                AllocateBackendRequest(c, "ulb-2", "vs-2", "uhost-1", 30080)]
  {
  }

  /** On any cloud answering like `OneHostCloud`, `EnsureLoadBalancer` for
      service "svc" creates a new load balancer although "svc" exists, and
      allocates the host's backend on the node port, 30080. */
  lemma EnsureOneHostCreation(c: Cloud, server: Server)
    requires AnswersOneHostCreation(c, server)
    ensures var svc := Service("svc", [ServicePort(80, 30080, StrVal("http"))]);
            var r := EnsureLoadBalancer(c, server, 0, svc, ["10.0.0.1"]);
            && r.result == Ok(Status(["203.0.113.7"]))
            && r.calls == [DescribeULBRequest(c), DescribeUHostRequest(c), CreateULBRequest(c, "svc"), AllocateEIPRequest(c),
                           BindEIPRequest(c, "eip-1", "ulb-2"), CreateVServerRequest(c, "ulb-2", 80),
                           AllocateBackendRequest(c, "ulb-2", "vs-2", "uhost-1", 30080)]
  {
    var svc := Service("svc", [ServicePort(80, 30080, StrVal("http"))]);
    var made := Run([CreateULBRequest(c, "svc"), AllocateEIPRequest(c), BindEIPRequest(c, "eip-1", "ulb-2"),
                     CreateVServerRequest(c, "ulb-2", 80), AllocateBackendRequest(c, "ulb-2", "vs-2", "uhost-1", 30080)],
                    Ok("203.0.113.7"));
    CreationPrepared(c, server, svc, made);
    var calls := [DescribeULBRequest(c), DescribeUHostRequest(c), CreateULBRequest(c, "svc"), AllocateEIPRequest(c),
                  BindEIPRequest(c, "eip-1", "ulb-2"), CreateVServerRequest(c, "ulb-2", 80),
                  AllocateBackendRequest(c, "ulb-2", "vs-2", "uhost-1", 30080)];
    EnsureAfterCreation(c, server, 0, svc, ["10.0.0.1"], ["uhost-1"], made);
    assert [DescribeULBRequest(c), DescribeUHostRequest(c)] + made.calls == calls by {
      LookupsThenCreation(c);
    }
  }

  /** The same on `OneHostCloud` itself. */
  lemma EnsureOneHost(c: Cloud)
    ensures var svc := Service("svc", [ServicePort(80, 30080, StrVal("http"))]);
            var r := EnsureLoadBalancer(c, OneHostCloud(), 0, svc, ["10.0.0.1"]);
            && r.result == Ok(Status(["203.0.113.7"]))
            && r.calls == [DescribeULBRequest(c), DescribeUHostRequest(c), CreateULBRequest(c, "svc"), AllocateEIPRequest(c),
                           BindEIPRequest(c, "eip-1", "ulb-2"), CreateVServerRequest(c, "ulb-2", 80),
                           AllocateBackendRequest(c, "ulb-2", "vs-2", "uhost-1", 30080)]
  {
    OneHostCloudAnswers(c);
    EnsureOneHostCreation(c, OneHostCloud());
  }

  /** Against `OneHostCloud`, updating service "svc" adds the host's
      backend on the service port, 80. */
  lemma UpdateOneHost(c: Cloud, sched: Scheduler)
    ensures var svc := Service("svc", [ServicePort(80, 30080, StrVal("http"))]);
            var r := UpdateLoadBalancer(c, OneHostCloud(), 0, svc, ["10.0.0.1"], sched);
            && r.result.Ok?
            && r.calls == [DescribeULBRequest(c), DescribeUHostRequest(c),
                           AllocateBackendRequest(c, "ulb-1", "vs-1", "uhost-1", 80)]
  {
    var svc := Service("svc", [ServicePort(80, 30080, StrVal("http"))]);
    OneHostLookups(c);
    OneHostPlan(c, sched, 80);
    OneHostAllocates(c, "ulb-1", "vs-1", 80, 2);
    SyncBackendsRunsPlan(c, OneHostCloud(), 0, svc, ["10.0.0.1"], sched, (p: ServicePort) => p.port);
  }

  /** Service "svc" on port 80, node port 30080: the update adds the host's
      backend on port 80, while `EnsureLoadBalancer`, on the same cloud,
      adds it on 30080. */
  lemma UpdatePortWitness(c: Cloud, sched: Scheduler)
    ensures var svc := Service("svc", [ServicePort(80, 30080, StrVal("http"))]);
            var r := UpdateLoadBalancer(c, OneHostCloud(), 0, svc, ["10.0.0.1"], sched);
            var e := EnsureLoadBalancer(c, OneHostCloud(), 0, svc, ["10.0.0.1"]);
            && r.result.Ok?
            && r.calls == [DescribeULBRequest(c), DescribeUHostRequest(c),
                           AllocateBackendRequest(c, "ulb-1", "vs-1", "uhost-1", 80)]
            && e.result.Ok?
            && AllocateBackendRequest(c, "ulb-2", "vs-2", "uhost-1", 30080) in e.calls
  {
    UpdateOneHost(c, sched);
    EnsureOneHost(c);
    var e := EnsureLoadBalancer(c, OneHostCloud(), 0, Service("svc", [ServicePort(80, 30080, StrVal("http"))]), ["10.0.0.1"]);
    assert e.calls[6] == AllocateBackendRequest(c, "ulb-2", "vs-2", "uhost-1", 30080);
  }

  // ---------------------------------------------------------------------
  // deleteLoadBalancer and EnsureLoadBalancerDeleted

  /** One EIP release per entry of the load balancer's `IPSet`, in order. */
  function ReleaseEIPRequests(c: Cloud, ips: seq<ULBIP>): (r: seq<Param>)
    ensures |r| == |ips|
    ensures forall i | 0 <= i < |ips| :: r[i] == ReleaseEIPRequest(c, ips[i].eipId)
  {
    if |ips| == 0 then []
    else [ReleaseEIPRequest(c, ips[0].eipId)] + ReleaseEIPRequests(c, ips[1..])
  }

  /** `deleteLoadBalancer` as written. `ULBNotFound` from the lookup is
      success with nothing deleted. Any other lookup error leaves the
      record nil, and reading its id panics. Otherwise one delete is sent;
      when the client returns no reply at all, reading its return code
      panics; any other outcome is only logged, one EIP release follows per
      `IPSet` entry whatever their replies, and the result is success. */
  function DeleteLoadBalancer(c: Cloud, server: Server, at: nat, name: string): (r: Run<()>)
    ensures |r.calls| >= 1 && r.calls[0] == DescribeULBRequest(c)
    ensures r.result.Err? ==> r.result.error.Panic?
    ensures var found := DescribeLoadBalancer(c, server, at, name).result;
            && (found == Err(ULBNotFound) ==> r == Run([DescribeULBRequest(c)], Ok(())))
            && (found.Err? && found.error != ULBNotFound ==> |r.calls| == 1 && r.result.Err?)
            && (found.Ok? ==>
                  var delete := DeleteULBRequest(c, found.value.ulbId);
                  && |r.calls| >= 2 && r.calls[1] == delete
                  && (server(at + 1, delete).TransportFailed? ==> |r.calls| == 2 && r.result.Err?)
                  && (!server(at + 1, delete).TransportFailed? ==>
                        r.result.Ok? && r.calls[2..] == ReleaseEIPRequests(c, found.value.ipSet)))
  {
    var d := DescribeLoadBalancer(c, server, at, name);
    if d.result == Err(ULBNotFound) then Run(d.calls, Ok(()))
    else if d.result.Err? then Run(d.calls, Err(Panic("ulbSet.ULBID")))
    else
      var lb := d.result.value;
      var delete := DeleteULBRequest(c, lb.ulbId);
      if server(at + 1, delete).TransportFailed? then Run(d.calls + [delete], Err(Panic("r.RetCode")))
      else Run(d.calls + [delete] + ReleaseEIPRequests(c, lb.ipSet), Ok(()))
  }

  /** `deleteLoadBalancer` with the two nil records checked: a lookup error
      other than `ULBNotFound` is returned, and a failed delete is logged
      like a rejected one. */
  function DeleteLoadBalancerChecked(c: Cloud, server: Server, at: nat, name: string): (r: Run<()>)
    ensures var found := DescribeLoadBalancer(c, server, at, name).result;
            && (r.result.Err? <==> found.Err? && found.error != ULBNotFound)
            && (r.result.Err? ==> r.result.error == found.error)
            && (found.Err? ==> r.calls == [DescribeULBRequest(c)])
            && (found.Ok? ==> r.calls == [DescribeULBRequest(c), DeleteULBRequest(c, found.value.ulbId)]
                                        + ReleaseEIPRequests(c, found.value.ipSet))
  {
    match DescribeLoadBalancer(c, server, at, name).result
    case Err(e) => Run([DescribeULBRequest(c)], if e == ULBNotFound then Ok(()) else Err(e))
    case Ok(lb) => Run([DescribeULBRequest(c), DeleteULBRequest(c, lb.ulbId)] + ReleaseEIPRequests(c, lb.ipSet), Ok(()))
  }

  /** The checked deletion never panics, and wherever the deletion as
      written does not panic the two agree exactly. */
  lemma DeleteCheckedAgrees(c: Cloud, server: Server, at: nat, name: string)
    ensures var checked := DeleteLoadBalancerChecked(c, server, at, name);
            && (checked.result.Err? ==> !checked.result.error.Panic?)
            && (DeleteLoadBalancer(c, server, at, name).result.Ok? ==> DeleteLoadBalancer(c, server, at, name) == checked)
  {
    var found := DescribeLoadBalancer(c, server, at, name).result;
    if found.Err? && found.error != ULBNotFound {
      assert !found.error.Panic?;
    }
  }

  /** As written, a failed lookup (the listing request itself failing)
      makes deletion panic instead of reporting the error. */
  lemma DeletePanicsAfterFailedLookup(c: Cloud, server: Server, at: nat, name: string, cause: string)
    requires server(at, DescribeULBRequest(c)) == TransportFailed(cause)
    ensures DeleteLoadBalancer(c, server, at, name).result.Err?
    ensures DeleteLoadBalancer(c, server, at, name).result.error.Panic?
    ensures DeleteLoadBalancerChecked(c, server, at, name).result == Err(CallFailed(cause))
  {
  }

  /** As written, a delete request that fails in transport makes deletion
      panic; the checked deletion goes on to release every EIP. */
  lemma DeletePanicsAfterFailedDelete(c: Cloud, server: Server, at: nat, name: string, lb: ULB, cause: string)
    requires DescribeLoadBalancer(c, server, at, name).result == Ok(lb)
    requires server(at + 1, DeleteULBRequest(c, lb.ulbId)) == TransportFailed(cause)
    ensures var r := DeleteLoadBalancer(c, server, at, name);
            r.result.Err? && r.result.error.Panic? && |r.calls| == 2
    ensures var r := DeleteLoadBalancerChecked(c, server, at, name);
            r.result == Ok(()) && |r.calls| == 2 + |lb.ipSet|
  {
  }

  /** Every delete request the deletion as written sends names the load
      balancer the lookup found. */
  lemma DeleteNamesFound(c: Cloud, server: Server, at: nat, name: string)
    ensures var found := DescribeLoadBalancer(c, server, at, name).result;
            var r := DeleteLoadBalancer(c, server, at, name);
            forall i | 0 <= i < |r.calls| :: r.calls[i].op.DeleteULB? ==> found.Ok? && r.calls[i].op.ulbId == found.value.ulbId
  {
    var found := DescribeLoadBalancer(c, server, at, name).result;
    var r := DeleteLoadBalancer(c, server, at, name);
    if found.Ok? && |r.calls| > 2 {
      var releases := ReleaseEIPRequests(c, found.value.ipSet);
      forall i | 2 <= i < |r.calls|
        ensures !r.calls[i].op.DeleteULB?
      {
        assert r.calls[i] == releases[i - 2];
      }
    }
  }

  /** `EnsureLoadBalancerDeleted`: the deletion as written of the service's
      load balancer. Nothing is deleted when it does not exist. A lookup
      error other than `ULBNotFound`, and a delete request that fails in
      transport, make it panic; otherwise it succeeds, whatever the delete
      and release replies say. Every delete names the load balancer found. */
  function EnsureLoadBalancerDeleted(c: Cloud, server: Server, at: nat, svc: Service): (r: Run<()>)
    ensures var found := DescribeLoadBalancer(c, server, at, svc.name).result;
            && (found == Err(ULBNotFound) ==> r == Run([DescribeULBRequest(c)], Ok(())))
            && (r.result.Err? <==> (found.Err? && found.error != ULBNotFound)
                                   || (found.Ok? && server(at + 1, DeleteULBRequest(c, found.value.ulbId)).TransportFailed?))
            && (r.result.Err? ==> r.result.error.Panic?)
            && forall i | 0 <= i < |r.calls| :: r.calls[i].op.DeleteULB? ==> found.Ok? && r.calls[i].op.ulbId == found.value.ulbId
  {
    DeleteNamesFound(c, server, at, svc.name);
    DeleteLoadBalancer(c, server, at, svc.name)
  }

  /** `EnsureLoadBalancerDeleted` on the checked deletion: nothing is
      deleted when the load balancer does not exist, and the only error is
      a failed lookup's. */
  function EnsureLoadBalancerDeletedChecked(c: Cloud, server: Server, at: nat, svc: Service): (r: Run<()>)
    ensures var found := DescribeLoadBalancer(c, server, at, svc.name).result;
            && (found == Err(ULBNotFound) ==> r == Run([DescribeULBRequest(c)], Ok(())))
            && (r.result.Err? ==> r.calls == [DescribeULBRequest(c)] && found.Err? && r.result.error == found.error)
            && forall i | 0 <= i < |r.calls| :: r.calls[i].op.DeleteULB? ==> found.Ok? && r.calls[i].op.ulbId == found.value.ulbId
  {
    DeleteLoadBalancerChecked(c, server, at, svc.name)
  }
}

=== FILE: order.dfy ===
/** Byte-wise ordering of strings and sorting of distinct key lists.

    Go's `sort.Strings` compares strings byte by byte. Dafny's `char` is a
    Unicode scalar value, and UTF-8 encoding preserves the order of scalar
    values, so comparing characters agrees with comparing the UTF-8 bytes. */
module StringOrder {

  /** No element occurs twice. */
  predicate Distinct<T(==)>(s: seq<T>)
  {
    forall i, j | 0 <= i < j < |s| :: s[i] != s[j]
  }

  lemma DistinctCons<T>(s: seq<T>)
    requires |s| > 0
    ensures Distinct(s) <==> Distinct(s[1..]) && s[0] !in s[1..]
  {
    if Distinct(s[1..]) && s[0] !in s[1..] {
      forall i, j | 0 <= i < j < |s|
        ensures s[i] != s[j]
      {
        assert s[j] == s[1..][j - 1];
        if i > 0 {
          assert s[i] == s[1..][i - 1];
        }
      }
    }
  }

  /** `a` sorts strictly before `b`: the first differing character is
      smaller, or `a` is a proper prefix of `b`. */
  predicate Less(a: string, b: string)
    decreases |a|
  {
    if |a| == 0 then |b| > 0
    else |b| > 0 && (a[0] < b[0] || (a[0] == b[0] && Less(a[1..], b[1..])))
  }

  predicate StrictlySorted(s: seq<string>)
  {
    forall i, j | 0 <= i < j < |s| :: Less(s[i], s[j])
  }

  lemma {:induction false} LessIrreflexive(a: string)
    ensures !Less(a, a)
    decreases |a|
  {
    if |a| > 0 {
      LessIrreflexive(a[1..]);
    }
  }

  lemma {:induction false} LessTransitive(a: string, b: string, c: string)
    requires Less(a, b) && Less(b, c)
    ensures Less(a, c)
    decreases |a|
  {
    if |a| > 0 && a[0] == b[0] && b[0] == c[0] {
      LessTransitive(a[1..], b[1..], c[1..]);
    }
  }

  lemma {:induction false} LessTotal(a: string, b: string)
    requires a != b
    ensures Less(a, b) || Less(b, a)
    decreases |a|
  {
    if |a| > 0 && |b| > 0 && a[0] == b[0] {
      assert a == [a[0]] + a[1..] && b == [b[0]] + b[1..];
      LessTotal(a[1..], b[1..]);
    }
  }

  lemma LessAsymmetric(a: string, b: string)
    requires Less(a, b)
    ensures !Less(b, a)
  {
    if Less(b, a) {
      LessTransitive(a, b, a);
      LessIrreflexive(a);
    }
  }

  /** A strictly sorted sequence never repeats an element. */
  lemma StrictlySortedDistinct(s: seq<string>)
    requires StrictlySorted(s)
    ensures Distinct(s)
  {
    forall i, j | 0 <= i < j < |s|
      ensures s[i] != s[j]
    {
      if s[i] == s[j] {
        LessIrreflexive(s[i]);
      }
    }
  }

  /** Inserts `x` at its place in a strictly sorted sequence that lacks it. */
  function Insert(x: string, s: seq<string>): (r: seq<string>)
    requires StrictlySorted(s) && x !in s
    ensures StrictlySorted(r)
    ensures multiset(r) == multiset(s) + multiset{x}
    decreases |s|
  {
    if |s| == 0 then [x]
    else if Less(x, s[0]) then
      InsertFrontSorted(x, s);
      [x] + s
    else
      LessTotal(x, s[0]);
      var rest := Insert(x, s[1..]);
      assert s == [s[0]] + s[1..];
      HeadBelowAll(s[0], rest, x, s[1..]);
      [s[0]] + rest
  }

  lemma InsertFrontSorted(x: string, s: seq<string>)
    requires StrictlySorted(s) && |s| > 0 && Less(x, s[0])
    ensures StrictlySorted([x] + s)
  {
    forall j | 0 < j < |s|
      ensures Less(x, s[j])
    {
      LessTransitive(x, s[0], s[j]);
    }
  }

  lemma HeadBelowAll(h: string, rest: seq<string>, x: string, tail: seq<string>)
    requires StrictlySorted(rest) && Less(h, x)
    requires multiset(rest) == multiset(tail) + multiset{x}
    requires forall j | 0 <= j < |tail| :: Less(h, tail[j])
    ensures StrictlySorted([h] + rest)
  {
    forall j | 0 <= j < |rest|
      ensures Less(h, rest[j])
    {
      assert rest[j] in multiset(rest);
      if rest[j] != x {
        assert rest[j] in multiset(tail);
        var k :| 0 <= k < |tail| && tail[k] == rest[j];
      }
    }
  }

  /** Insertion sort of a list of distinct strings, the effect of
      `sort.Strings` on the keys of a map. */
  function Sort(s: seq<string>): (r: seq<string>)
    requires Distinct(s)
    ensures StrictlySorted(r)
    ensures multiset(r) == multiset(s)
    decreases |s|
  {
    if |s| == 0 then []
    else
      var rest := Sort(s[1..]);
      assert s == [s[0]] + s[1..];
      assert s[0] !in multiset(s[1..]);
      Insert(s[0], rest)
  }

  /** Two strictly sorted sequences holding the same elements are equal:
      the sorted order of a set of keys is unique. */
  lemma {:induction false} StrictlySortedUnique(a: seq<string>, b: seq<string>)
    requires StrictlySorted(a) && StrictlySorted(b)
    requires forall x :: x in a <==> x in b
    ensures a == b
    decreases |a|
  {
    if |a| > 0 {
      assert a[0] in b;
    }
    if |b| > 0 {
      assert b[0] in a;
    }
    if |a| > 0 && |b| > 0 {
      if a[0] != b[0] {
        assert b[0] in a;
        var i :| 0 <= i < |a| && a[i] == b[0];
        assert a[0] in b;
        var j :| 0 <= j < |b| && b[j] == a[0];
        assert Less(a[0], b[0]) && Less(b[0], a[0]);
        LessAsymmetric(a[0], b[0]);
        assert false;
      }
      StrictlySortedDistinct(a);
      StrictlySortedDistinct(b);
      forall x
        ensures x in a[1..] <==> x in b[1..]
      {
        if x in a[1..] {
          var k :| 1 <= k < |a| && a[k] == x;
          assert x != a[0];
          assert x in b;
          var m :| 0 <= m < |b| && b[m] == x;
          assert m != 0;
          assert b[m] == b[1..][m - 1];
        }
        if x in b[1..] {
          var k :| 1 <= k < |b| && b[k] == x;
          assert x != b[0];
          assert x in a;
          var m :| 0 <= m < |a| && a[m] == x;
          assert m != 0;
          assert a[m] == a[1..][m - 1];
        }
      }
      StrictlySortedUnique(a[1..], b[1..]);
      assert a == [a[0]] + a[1..] && b == [b[0]] + b[1..];
    }
  }

  /** A list without repeats has as many elements as the set of its elements. */
  lemma {:induction false} DistinctCardinality<T>(s: seq<T>)
    requires Distinct(s)
    ensures |set x | x in s| == |s|
    decreases |s|
  {
    if |s| > 0 {
      DistinctCardinality(s[1..]);
      assert (set x | x in s) == (set x | x in s[1..]) + {s[0]};
      assert s[0] !in (set x | x in s[1..]);
    }
  }
}

=== FILE: remote.dfy ===
/** The remote API as the provider in
    pkg/cloudprovider/providers/ucloud/ucloud.go sees it: each client method
    sends one signed request and hands back either an error or a decoded
    response record. The API itself is a parameter, `Server`, which answers
    a request given its position in the operation's sequence of requests;
    since operations are deterministic, the position also fixes every
    request sent before it. Operations return the requests they sent
    together with their outcome. */
module Remote {
  import opened Decimal
  import opened Signing
  import opened Requests

  datatype Option<T> = None | Some(value: T)

  datatype Result<T> = Ok(value: T) | Err(error: Error)

  /** The errors an operation can end with. */
  datatype Error =
    | CallFailed(cause: string)   // the client method returned an error (transport or decoding)
    | Rejected(message: string)   // `errors.New(r.Message)` after a non-zero RetCode
    | ULBNotFound                 // the package's `ULBNotFound`
    | EIPNotFound                 // the package's `EIPNotFound`
    | InstanceNotFound            // `cloudprovider.InstanceNotFound`
    | NoPort                      // "no port found for service"
    | Panic(site: string)         // the Go code dereferences nil or indexes past the end here

  // The parts of the response records the provider reads. JSON decoding
  // leaves every absent field at its zero value.

  datatype UHostIP = UHostIP(ip: string)

  datatype UHost = UHost(uhostId: string, uhostType: string, ipSet: seq<UHostIP>)

  datatype ULBIP = ULBIP(eip: string, eipId: string)

  datatype Backend = Backend(backendId: string, resourceId: string)

  /** A listener of a load balancer; its `VServerSet` holds its backends. */
  datatype VServer = VServer(vserverId: string, backends: seq<Backend>)

  /** `ULBSet`: both `ULBName` and `Name` are decoded; lookups use `Name`. */
  datatype ULB = ULB(ulbId: string, ulbName: string, name: string, ipSet: seq<ULBIP>, vserverSet: seq<VServer>)

  datatype EIPAddr = EIPAddr(ip: string)

  datatype EIP = EIP(eipId: string, eipAddr: seq<EIPAddr>)

  /** Every response type in one record: the return status and the payload
      fields of the responses the provider reads. */
  datatype Body = Body(retCode: int, message: string, dataSet: seq<ULB>, uhostSet: seq<UHost>,
                       ulbId: string, vserverId: string, eipSet: seq<EIP>)

  /** What a client method returns: `(nil, err)` when the GET fails,
      `(r, err)` with a partly filled record when decoding fails, and
      `(r, nil)` otherwise. */
  datatype Reply = TransportFailed(cause: string) | DecodeFailed(cause: string) | Decoded(body: Body)

  /** The remote side: the reply to a request, given how many requests the
      operation sent before it. Operations are deterministic, so that count
      also fixes which requests went before. */
  type Server = (nat, Param) -> Reply

  /** An operation's outcome and the requests it sent, in order. */
  datatype Run<T> = Run(calls: seq<Param>, result: Result<T>)

  /** The provider's configuration: client, region, zone and project. */
  datatype Cloud = Cloud(client: UClient, region: string, zone: string, projectId: string)

  /** The check every caller makes on a reply: the client's error first,
      then the return code. */
  function Checked(reply: Reply): (r: Result<Body>)
    ensures r.Ok? <==> reply.Decoded? && reply.body.retCode == 0
    ensures r.Ok? ==> r.value == reply.body
    ensures reply.Decoded? && reply.body.retCode != 0 ==> r == Err(Rejected(reply.body.message))
    ensures !reply.Decoded? ==> r == Err(CallFailed(reply.cause))
  {
    match reply
    case TransportFailed(e) => Err(CallFailed(e))
    case DecodeFailed(e) => Err(CallFailed(e))
    case Decoded(b) => if b.retCode != 0 then Err(Rejected(b.message)) else Ok(b)
  }

  // ---------------------------------------------------------------------
  // The requests the provider builds; every field not set is Go's zero value

  const PageLimit := 100
  const LoadBalancerTag := "tidb-k8s-poc"
  const EIPOperator := "Bgp"
  const EIPBandwidth := 2
  const VServerName := "tidb-server"
  const VServerTimeout := 60

  function DescribeUHostRequest(c: Cloud): Param
  {
    Unsigned(DescribeUHostInstance(c.projectId, c.region, "", "", "", 0, PageLimit))
  }

  function DescribeULBRequest(c: Cloud): Param
  {
    Unsigned(DescribeULB(c.projectId, c.region, 0, PageLimit, ""))
  }

  function CreateULBRequest(c: Cloud, name: string): Param
  {
    Unsigned(CreateULB(c.projectId, c.region, name, LoadBalancerTag, "", "Yes", "", ""))
  }

  function AllocateEIPRequest(c: Cloud): Param
  {
    Unsigned(AllocateEIP(c.region, EIPOperator, EIPBandwidth, "", "", 1, "", "", "", "", ""))
  }

  function BindEIPRequest(c: Cloud, eipId: string, ulbId: string): Param
  {
    Unsigned(BindEIP(c.region, eipId, "ulb", ulbId))
  }

  function CreateVServerRequest(c: Cloud, ulbId: string, frontendPort: int): Param
  {
    Unsigned(CreateVServer(c.projectId, c.region, ulbId, VServerName, "RequestProxy", "TCP", frontendPort,
                           "", "", "", VServerTimeout))
  }

  function AllocateBackendRequest(c: Cloud, ulbId: string, vserverId: string, host: string, port: int): Param
  {
    Unsigned(AllocateBackend(c.projectId, c.region, ulbId, vserverId, "UHost", host, port, 1))
  }

  function ReleaseBackendRequest(c: Cloud, ulbId: string, backendId: string): Param
  {
    Unsigned(ReleaseBackend(c.projectId, c.region, ulbId, backendId))
  }

  function DeleteULBRequest(c: Cloud, ulbId: string): Param
  {
    Unsigned(DeleteULB(c.projectId, c.region, ulbId))
  }

  function ReleaseEIPRequest(c: Cloud, eipId: string): Param
  {
    Unsigned(ReleaseEIP(c.region, eipId))
  }

  /** The first page of a listing asks for 100 entries from offset 0; both
      integers are sent even though the offset is zero. */
  lemma ListingSendsPaging(c: Cloud, prim: Primitives)
    ensures Pair("Limit", "100") in RecordPairs(SetKey(DescribeULBRequest(c), c.client.publicKey, c.client.privateKey), prim)
    ensures Pair("Offset", "0") in RecordPairs(SetKey(DescribeULBRequest(c), c.client.publicKey, c.client.privateKey), prim)
    ensures Pair("limit", "100") in RecordPairs(SetKey(DescribeUHostRequest(c), c.client.publicKey, c.client.privateKey), prim)
  {
    var d := SetKey(DescribeULBRequest(c), c.client.publicKey, c.client.privateKey);
    var u := SetKey(DescribeUHostRequest(c), c.client.publicKey, c.client.privateKey);
    assert OperationFields(d.op)[2] == Number("Offset", 0);
    assert OperationFields(d.op)[3] == Number("Limit", 100);
    assert OperationFields(u.op)[6] == Number("limit", 100);
    assert FormatInt(0) == "0";
    assert FormatInt(100) == "100" by {
      assert FormatNat(100) == FormatNat(10) + [DigitChar(0)];
    }
    NumbersAlwaysSent(d, prim, 2);
    NumbersAlwaysSent(d, prim, 3);
    NumbersAlwaysSent(u, prim, 6);
  }

  // ---------------------------------------------------------------------
  // A fixed list of requests, sent in order until one fails

  /** The reply to `calls[i]` when `calls` is sent from position `at` on. */
  function ReplyTo(server: Server, at: nat, calls: seq<Param>, i: nat): Reply
    requires i < |calls|
  {
    server(at + i, calls[i])
  }

  /** All of `plan` up to index `n` was answered with success. */
  predicate SucceededUpTo(server: Server, at: nat, plan: seq<Param>, n: nat)
    requires n <= |plan|
  {
    forall i | 0 <= i < n :: Checked(ReplyTo(server, at, plan, i)).Ok?
  }

  /** What a run of `plan` from position `at` reports: the requests sent are
      a prefix of the plan; it succeeds exactly when the whole plan was sent
      and answered with success; a failure comes from the last request sent,
      after every earlier one succeeded. */
  predicate RanUntilFailure(server: Server, at: nat, plan: seq<Param>, r: Run<()>)
  {
    && |r.calls| <= |plan| && r.calls == plan[..|r.calls|]
    && (r.result.Ok? <==> r.calls == plan && SucceededUpTo(server, at, plan, |plan|))
    && (r.result.Err? ==>
          && |r.calls| > 0
          && SucceededUpTo(server, at, plan, |r.calls| - 1)
          && Checked(ReplyTo(server, at, plan, |r.calls| - 1)) == Err(r.result.error))
  }

  /** Sends the requests of `plan` in order and stops at the first one that
      fails, returning its error; the shape of every loop in ucloud.go that
      issues one request per item and returns on error. */
  function RunPlan(server: Server, at: nat, plan: seq<Param>): (r: Run<()>)
    ensures RanUntilFailure(server, at, plan, r)
    decreases |plan|
  {
    if |plan| == 0 then Run([], Ok(()))
    else
      match Checked(server(at, plan[0]))
      case Err(e) =>
        assert ReplyTo(server, at, plan, 0) == server(at, plan[0]);
        Run([plan[0]], Err(e))
      case Ok(_) =>
        var rest := RunPlan(server, at + 1, plan[1..]);
        RunPlanStep(server, at, plan, rest);
        Run([plan[0]] + rest.calls, rest.result)
  }

  /** A run of the tail after a successful head is a run of the plan. */
  lemma RunPlanStep(server: Server, at: nat, plan: seq<Param>, rest: Run<()>)
    requires |plan| > 0 && Checked(server(at, plan[0])).Ok?
    requires RanUntilFailure(server, at + 1, plan[1..], rest)
    ensures RanUntilFailure(server, at, plan, Run([plan[0]] + rest.calls, rest.result))
  {
    var r := Run([plan[0]] + rest.calls, rest.result);
    assert r.calls == plan[..|r.calls|] by {
      assert plan == [plan[0]] + plan[1..];
    }
    ShiftPlan(server, at, plan, |plan| - 1);
    if rest.result.Ok? {
      assert plan == [plan[0]] + plan[1..];
    } else {
      ShiftPlan(server, at, plan, |rest.calls| - 1);
      assert ReplyTo(server, at + 1, plan[1..], |rest.calls| - 1) == ReplyTo(server, at, plan, |rest.calls|);
    }
  }

  /** Success on the tail of a plan, after its head succeeded, is success on
      the whole plan one step further. */
  lemma ShiftPlan(server: Server, at: nat, plan: seq<Param>, n: nat)
    requires 0 < |plan| && n < |plan|
    ensures SucceededUpTo(server, at + 1, plan[1..], n) && Checked(server(at, plan[0])).Ok?
            <==> SucceededUpTo(server, at, plan, n + 1)
  {
    if SucceededUpTo(server, at + 1, plan[1..], n) && Checked(server(at, plan[0])).Ok? {
      forall i | 0 <= i < n + 1
        ensures Checked(ReplyTo(server, at, plan, i)).Ok?
      {
        if i > 0 {
          assert ReplyTo(server, at + 1, plan[1..], i - 1) == ReplyTo(server, at, plan, i);
        }
      }
    }
    if SucceededUpTo(server, at, plan, n + 1) {
      assert ReplyTo(server, at, plan, 0) == server(at, plan[0]);
      var next, tail := at + 1, plan[1..];
      forall k | 0 <= k < n
        ensures Checked(ReplyTo(server, next, tail, k)).Ok?
      {
        assert ReplyTo(server, next, tail, k) == ReplyTo(server, at, plan, k + 1);
      }
    }
  }

  /** The plan's outcome depends only on the replies to its own requests:
      two servers that answer the plan's requests alike run it alike. */
  lemma {:induction false} RunPlanDeterminedByReplies(s1: Server, s2: Server, at: nat, plan: seq<Param>)
    requires forall i | 0 <= i < |plan| :: ReplyTo(s1, at, plan, i) == ReplyTo(s2, at, plan, i)
    ensures RunPlan(s1, at, plan) == RunPlan(s2, at, plan)
    decreases |plan|
  {
    if |plan| > 0 {
      var next, tail := at + 1, plan[1..];
      forall k | 0 <= k < |tail|
        ensures ReplyTo(s1, next, tail, k) == ReplyTo(s2, next, tail, k)
      {
        assert ReplyTo(s1, next, tail, k) == ReplyTo(s1, at, plan, k + 1);
        assert ReplyTo(s2, next, tail, k) == ReplyTo(s2, at, plan, k + 1);
      }
      assert ReplyTo(s1, at, plan, 0) == ReplyTo(s2, at, plan, 0);
      RunPlanDeterminedByReplies(s1, s2, at + 1, plan[1..]);
    }
  }
}

=== FILE: requests.dfy ===
/** The parameter records of the remote API, their flattening into a
    parameter map (`toParams`), the injection of credentials (`setKey`) and
    the signed request URL (`UClient.GetQueryURL`), all in
    pkg/cloudprovider/providers/ucloud/ulb.go.

    Go flattens a record by reflection, keying each field by its json tag and
    rendering its value with `%v`. Here every record lists its fields
    explicitly, in declaration order. Every Go parameter struct opens with
    the same four credential fields; they are kept apart from the
    operation-specific fields, which `Operation` holds. */
module Requests {
  import opened StringOrder
  import opened Decimal
  import opened Signing

  /** The operation-specific fields of each parameter struct. */
  datatype Operation =
    | DescribeUHostInstance(projectId: string, region: string, zone: string, uhostIds: string, tag: string,
                            offset: int, limit: int)
    | DescribeULB(projectId: string, region: string, offset: int, limit: int, ulbId: string)
    | CreateULB(projectId: string, region: string, ulbName: string, tag: string, remark: string,
                outerMode: string, innerMode: string, chargeType: string)
    | DeleteULB(projectId: string, region: string, ulbId: string)
    | UpdateULBAttribute(projectId: string, region: string, ulbId: string, name: string, tag: string,
                         remark: string)
    | CreateVServer(projectId: string, region: string, ulbId: string, vserverName: string, listenType: string,
                    protocol: string, frontendPort: int, lbMethod: string, persistenceType: string,
                    persistenceInfo: string, clientTimeout: int)
    | DeleteVServer(projectId: string, region: string, ulbId: string, vserverId: string)
    | UpdateVServerAttribute(projectId: string, region: string, ulbId: string, vserverId: string,
                             vserverName: string, protocol: string, lbMethod: string, persistenceType: string,
                             persistenceInfo: string, clientTimeout: int)
    | AllocateBackend(projectId: string, region: string, ulbId: string, vserverId: string,
                      resourceType: string, resourceId: string, port: int, enabled: int)
    | UpdateBackendAttribute(projectId: string, region: string, ulbId: string, backendId: string,
                             port: int, enabled: int)
    | ReleaseBackend(projectId: string, region: string, ulbId: string, backendId: string)
    | AllocateEIP(region: string, operatorName: string, bandwidth: int, tag: string, chargeType: string,
                  quantity: int, payMode: string, shareBandwidthId: string, couponId: string,
                  name: string, remark: string)
    | ReleaseEIP(region: string, eipId: string)
    | BindEIP(region: string, eipId: string, resourceType: string, resourceId: string)
    | UnBindEIP(region: string, eipId: string, resourceType: string, resourceId: string)

  /** A parameter struct: the credential fields and the operation's own. */
  datatype Param = Param(action: string, publicKey: string, privateKey: string, signature: string,
                         op: Operation)

  /** A record as the provider builds it, before `setKey`. */
  function Unsigned(op: Operation): Param
  {
    Param("", "", "", "", op)
  }

  /** A record field under its json tag: a string field or an int field. */
  datatype Field = Text(tag: string, text: string) | Number(tag: string, number: int)

  /** The `%v` text of a field's value. */
  function FieldValue(f: Field): string
  {
    match f
    case Text(_, s) => s
    case Number(_, n) => FormatInt(n)
  }

  predicate DistinctTags(fs: seq<Field>)
  {
    forall i, j | 0 <= i < j < |fs| :: fs[i].tag != fs[j].tag
  }

  /** The tags of the four fields every struct opens with. */
  predicate IsCredentialTag(t: string)
  {
    t == "Action" || t == "PublicKey" || t == PrivateKeyName || t == SignatureName
  }

  function CredentialFields(p: Param): seq<Field>
  {
    [Text("Action", p.action), Text("PublicKey", p.publicKey),
     Text(PrivateKeyName, p.privateKey), Text(SignatureName, p.signature)]
  }

  /** The operation-specific fields in declaration order, under their json tags. */
  function OperationFields(op: Operation): seq<Field>
  {
    match op
    case DescribeUHostInstance(projectId, region, zone, uhostIds, tag, offset, limit) =>
      [Text("ProjectId", projectId), Text("Region", region), Text("zone", zone),
       Text("UHostIds.n", uhostIds), Text("tag", tag), Number("offset", offset), Number("limit", limit)]
    case DescribeULB(projectId, region, offset, limit, ulbId) =>
      [Text("ProjectId", projectId), Text("Region", region), Number("Offset", offset),
       Number("Limit", limit), Text("ULBId", ulbId)]
    case CreateULB(projectId, region, ulbName, tag, remark, outerMode, innerMode, chargeType) =>
      [Text("ProjectId", projectId), Text("Region", region), Text("ULBName", ulbName), Text("Tag", tag),
       Text("Remark", remark), Text("OuterMode", outerMode), Text("InnerMode", innerMode),
       Text("ChargeType", chargeType)]
    case DeleteULB(projectId, region, ulbId) =>
      [Text("ProjectId", projectId), Text("Region", region), Text("ULBId", ulbId)]
    case UpdateULBAttribute(projectId, region, ulbId, name, tag, remark) =>
      [Text("ProjectId", projectId), Text("Region", region), Text("ULBId", ulbId), Text("Name", name),
       Text("Tag", tag), Text("Remark", remark)]
    case CreateVServer(projectId, region, ulbId, vserverName, listenType, protocol, frontendPort,
                       lbMethod, persistenceType, persistenceInfo, clientTimeout) =>
      [Text("ProjectId", projectId), Text("Region", region), Text("ULBId", ulbId),
       Text("VServerName", vserverName), Text("ListenType", listenType), Text("Protocol", protocol),
       Number("FrontendPort", frontendPort), Text("Method", lbMethod), Text("PersistenceType", persistenceType),
       Text("PersistenceInfo", persistenceInfo), Number("ClientTimeout", clientTimeout)]
    case DeleteVServer(projectId, region, ulbId, vserverId) =>
      [Text("ProjectId", projectId), Text("Region", region), Text("ULBId", ulbId), Text("VServerId", vserverId)]
    case UpdateVServerAttribute(projectId, region, ulbId, vserverId, vserverName, protocol, lbMethod,
                                persistenceType, persistenceInfo, clientTimeout) =>
      [Text("ProjectId", projectId), Text("Region", region), Text("ULBId", ulbId), Text("VServerId", vserverId),
       Text("VServerName", vserverName), Text("Protocol", protocol), Text("Method", lbMethod),
       Text("PersistenceType", persistenceType), Text("PersistenceInfo", persistenceInfo),
       Number("ClientTimeout", clientTimeout)]
    case AllocateBackend(projectId, region, ulbId, vserverId, resourceType, resourceId, port, enabled) =>
      [Text("ProjectId", projectId), Text("Region", region), Text("ULBId", ulbId), Text("VServerId", vserverId),
       Text("ResourceType", resourceType), Text("ResourceId", resourceId), Number("Port", port),
       Number("Enabled", enabled)]
    case UpdateBackendAttribute(projectId, region, ulbId, backendId, port, enabled) =>
      [Text("ProjectId", projectId), Text("Region", region), Text("ULBId", ulbId), Text("BackendId", backendId),
       Number("Port", port), Number("Enabled", enabled)]
    case ReleaseBackend(projectId, region, ulbId, backendId) =>
      [Text("ProjectId", projectId), Text("Region", region), Text("ULBId", ulbId), Text("BackendId", backendId)]
    case AllocateEIP(region, operatorName, bandwidth, tag, chargeType, quantity, payMode,
                     shareBandwidthId, couponId, name, remark) =>
      [Text("Region", region), Text("OperatorName", operatorName), Number("Bandwidth", bandwidth),
       Text("tag", tag), Text("ChargeType", chargeType), Number("Quantity", quantity), Text("PayMode", payMode),
       Text("ShareBandwidth", shareBandwidthId), Text("CouponId", couponId), Text("Name", name),
       Text("Remark", remark)]
    case ReleaseEIP(region, eipId) =>
      [Text("Region", region), Text("EIPId", eipId)]
    case BindEIP(region, eipId, resourceType, resourceId) =>
      [Text("Region", region), Text("EIPId", eipId), Text("ResourceType", resourceType),
       Text("ResourceId", resourceId)]
    case UnBindEIP(region, eipId, resourceType, resourceId) =>
      [Text("Region", region), Text("EIPId", eipId), Text("ResourceType", resourceType),
       Text("ResourceId", resourceId)]
  }

  /** All fields of a struct, in declaration order. */
  function Fields(p: Param): seq<Field>
  {
    CredentialFields(p) + OperationFields(p.op)
  }

  /** The operation's tags are distinct and none is a credential tag. */
  predicate WellTagged(fs: seq<Field>)
  {
    DistinctTags(fs) && forall i | 0 <= i < |fs| :: !IsCredentialTag(fs[i].tag)
  }

  lemma WellTaggedOperation(op: Operation)
    ensures WellTagged(OperationFields(op))
  {
    match op
    case DescribeUHostInstance(_, _, _, _, _, _, _) => WellTaggedDescribeUHostInstance(op);
    case DescribeULB(_, _, _, _, _) => WellTaggedDescribeULB(op);
    case CreateULB(_, _, _, _, _, _, _, _) => WellTaggedCreateULB(op);
    case DeleteULB(_, _, _) => WellTaggedDeleteULB(op);
    case UpdateULBAttribute(_, _, _, _, _, _) => WellTaggedUpdateULBAttribute(op);
    case CreateVServer(_, _, _, _, _, _, _, _, _, _, _) => WellTaggedCreateVServer(op);
    case DeleteVServer(_, _, _, _) => WellTaggedDeleteVServer(op);
    case UpdateVServerAttribute(_, _, _, _, _, _, _, _, _, _) => WellTaggedUpdateVServerAttribute(op);
    case AllocateBackend(_, _, _, _, _, _, _, _) => WellTaggedAllocateBackend(op);
    case UpdateBackendAttribute(_, _, _, _, _, _) => WellTaggedUpdateBackendAttribute(op);
    case ReleaseBackend(_, _, _, _) => WellTaggedReleaseBackend(op);
    case AllocateEIP(_, _, _, _, _, _, _, _, _, _, _) => WellTaggedAllocateEIP(op);
    case ReleaseEIP(_, _) => WellTaggedReleaseEIP(op);
    case BindEIP(_, _, _, _) => WellTaggedBindEIP(op);
    case UnBindEIP(_, _, _, _) => WellTaggedUnBindEIP(op);
  }

  lemma WellTaggedDescribeUHostInstance(op: Operation)
    requires op.DescribeUHostInstance?
    ensures WellTagged(OperationFields(op))
  {
  }

  lemma WellTaggedDescribeULB(op: Operation)
    requires op.DescribeULB?
    ensures WellTagged(OperationFields(op))
  {
  }

  lemma WellTaggedCreateULB(op: Operation)
    requires op.CreateULB?
    ensures WellTagged(OperationFields(op))
  {
  }

  lemma WellTaggedDeleteULB(op: Operation)
    requires op.DeleteULB?
    ensures WellTagged(OperationFields(op))
  {
  }

  lemma WellTaggedUpdateULBAttribute(op: Operation)
    requires op.UpdateULBAttribute?
    ensures WellTagged(OperationFields(op))
  {
  }

  lemma WellTaggedCreateVServer(op: Operation)
    requires op.CreateVServer?
    ensures WellTagged(OperationFields(op))
  {
  }

  lemma WellTaggedDeleteVServer(op: Operation)
    requires op.DeleteVServer?
    ensures WellTagged(OperationFields(op))
  {
  }

  lemma WellTaggedUpdateVServerAttribute(op: Operation)
    requires op.UpdateVServerAttribute?
    ensures WellTagged(OperationFields(op))
  {
  }

  lemma WellTaggedAllocateBackend(op: Operation)
    requires op.AllocateBackend?
    ensures WellTagged(OperationFields(op))
  {
  }

  lemma WellTaggedUpdateBackendAttribute(op: Operation)
    requires op.UpdateBackendAttribute?
    ensures WellTagged(OperationFields(op))
  {
  }

  lemma WellTaggedReleaseBackend(op: Operation)
    requires op.ReleaseBackend?
    ensures WellTagged(OperationFields(op))
  {
  }

  lemma WellTaggedAllocateEIP(op: Operation)
    requires op.AllocateEIP?
    ensures WellTagged(OperationFields(op))
  {
  }

  lemma WellTaggedReleaseEIP(op: Operation)
    requires op.ReleaseEIP?
    ensures WellTagged(OperationFields(op))
  {
  }

  lemma WellTaggedBindEIP(op: Operation)
    requires op.BindEIP?
    ensures WellTagged(OperationFields(op))
  {
  }

  lemma WellTaggedUnBindEIP(op: Operation)
    requires op.UnBindEIP?
    ensures WellTagged(OperationFields(op))
  {
  }

  // ---------------------------------------------------------------------
  // Flattening a list of fields (`toParams` on any struct)

  /** The shape every parameter struct has: the four credential fields
      first, then the operation's own, no tag twice. */
  predicate IsRecord(fs: seq<Field>)
  {
    && |fs| >= 4
    && fs[0].Text? && fs[0].tag == "Action"
    && fs[1].Text? && fs[1].tag == "PublicKey"
    && fs[2].Text? && fs[2].tag == PrivateKeyName
    && fs[3].Text? && fs[3].tag == SignatureName
    && DistinctTags(fs)
  }

  function TagsOf(fs: seq<Field>): (r: seq<string>)
    ensures |r| == |fs|
    ensures forall i | 0 <= i < |r| :: r[i] == fs[i].tag
  {
    seq(|fs|, i requires 0 <= i < |fs| => fs[i].tag)
  }

  /** One map entry per field, keyed by its tag and holding the `%v` text
      of its value; nothing else. */
  function MapOf(fs: seq<Field>): (r: Params)
    requires DistinctTags(fs)
    ensures forall i | 0 <= i < |fs| :: fs[i].tag in r && r[fs[i].tag] == FieldValue(fs[i])
    ensures forall k | k in r :: k in TagsOf(fs)
  {
    map i | 0 <= i < |fs| :: fs[i].tag := FieldValue(fs[i])
  }

  /** Distinct tags give the map exactly as many entries as there are fields. */
  lemma MapOfSize(fs: seq<Field>)
    requires DistinctTags(fs)
    ensures |MapOf(fs)| == |fs|
  {
    var tags := TagsOf(fs);
    assert Distinct(tags);
    DistinctCardinality(tags);
    assert MapOf(fs).Keys == set t | t in tags by {
      forall t | t in tags
        ensures t in MapOf(fs)
      {
        var i :| 0 <= i < |tags| && tags[i] == t;
        assert fs[i].tag == t;
      }
    }
  }

  /** The declaration order of the fields is one order in which Go may
      visit the map's keys. */
  lemma TagsOfEnumerate(fs: seq<Field>)
    requires DistinctTags(fs)
    ensures Enumerates(TagsOf(fs), MapOf(fs))
  {
  }

  function PairsOf(fs: seq<Field>, prim: Primitives): seq<Pair>
    requires DistinctTags(fs)
  {
    TagsOfEnumerate(fs);
    QueryPairs(MapOf(fs), TagsOf(fs), prim)
  }

  function SigningOf(fs: seq<Field>): string
    requires DistinctTags(fs)
  {
    TagsOfEnumerate(fs);
    SigningString(MapOf(fs), TagsOf(fs))
  }

  function QueryOf(fs: seq<Field>, prim: Primitives): (q: string)
    requires DistinctTags(fs)
    ensures |q| > 0 && q[0] == '&'
  {
    TagsOfEnumerate(fs);
    QueryString(MapOf(fs), TagsOf(fs), prim)
  }

  /** A field whose value renders non-empty and whose tag is not a
      credential is sent as a pair of its tag and value. */
  lemma {:induction false} SentOf(fs: seq<Field>, prim: Primitives, i: nat)
    requires DistinctTags(fs) && i < |fs|
    requires FieldValue(fs[i]) != "" && fs[i].tag != PrivateKeyName && fs[i].tag != SignatureName
    ensures Pair(fs[i].tag, FieldValue(fs[i])) in PairsOf(fs, prim)
  {
    TagsOfEnumerate(fs);
    KeySent(MapOf(fs), TagsOf(fs), prim, fs[i].tag);
  }

  /** A text field left empty is never among the pairs, unless it is the
      signature field, whose pair always closes the query. */
  lemma {:induction false} EmptyTextOf(fs: seq<Field>, prim: Primitives, i: nat, j: nat)
    requires DistinctTags(fs) && i < |fs| && fs[i].Text? && fs[i].text == "" && fs[i].tag != SignatureName
    requires j < |PairsOf(fs, prim)|
    ensures PairsOf(fs, prim)[j].name != fs[i].tag
  {
    TagsOfEnumerate(fs);
    var m := MapOf(fs);
    var pairs := PairsOf(fs, prim);
    assert m[fs[i].tag] == "";
    if j < |pairs| - 1 {
      assert pairs[j].value == m[pairs[j].name] != "";
    }
  }

  /** The private key is never a pair and always ends the signed text. */
  lemma {:induction false} PrivateKeyOf(fs: seq<Field>, prim: Primitives)
    requires IsRecord(fs)
    ensures forall i | 0 <= i < |PairsOf(fs, prim)| :: PairsOf(fs, prim)[i].name != PrivateKeyName
    ensures var s := SigningOf(fs);
            |s| >= |fs[2].text| && s[|s| - |fs[2].text|..] == fs[2].text
  {
    TagsOfEnumerate(fs);
    assert Lookup(MapOf(fs), PrivateKeyName) == fs[2].text;
  }

  /** Two records that differ at most in the signature field flatten to maps
      that differ at most under `Signature`, in the same visiting order. */
  lemma {:induction false} SignatureOnlyOf(fs: seq<Field>, gs: seq<Field>)
    requires IsRecord(fs) && IsRecord(gs) && |fs| == |gs|
    requires forall i | 0 <= i < |fs| && i != 3 :: fs[i] == gs[i]
    ensures TagsOf(fs) == TagsOf(gs)
    ensures AgreeExcept(MapOf(fs), MapOf(gs), {SignatureName})
  {
    assert TagsOf(fs) == TagsOf(gs);
    var mf := MapOf(fs);
    var mg := MapOf(gs);
    forall k | k !in {SignatureName}
      ensures Lookup(mf, k) == Lookup(mg, k)
    {
      if k in TagsOf(fs) {
        var i :| 0 <= i < |fs| && TagsOf(fs)[i] == k;
        assert fs[i] == gs[i];
        assert mf[k] == FieldValue(fs[i]);
        assert mg[k] == FieldValue(gs[i]);
      } else {
        assert k !in mf && k !in mg;
      }
    }
  }

  // ---------------------------------------------------------------------
  // The parameter structs

  /** Every parameter struct has the record shape, and its credential
      fields hold the struct's credential values. */
  lemma FieldsRecord(p: Param)
    ensures IsRecord(Fields(p))
    ensures Fields(p)[..4] == CredentialFields(p)
    ensures Fields(p)[4..] == OperationFields(p.op)
  {
    var ops := OperationFields(p.op);
    var fs := Fields(p);
    WellTaggedOperation(p.op);
    forall i, j | 0 <= i < j < |fs|
      ensures fs[i].tag != fs[j].tag
    {
      if j >= 4 {
        assert fs[j] == ops[j - 4];
        if i >= 4 {
          assert fs[i] == ops[i - 4];
        }
      }
    }
  }

  function FieldTags(p: Param): seq<string>
  {
    TagsOf(Fields(p))
  }

  /** `toParams`: one entry per field of the struct, keyed by its json tag
      and holding the `%v` text of its value. */
  function ToParams(p: Param): (r: Params)
    ensures |r| == |Fields(p)|
    ensures forall i | 0 <= i < |Fields(p)| :: Fields(p)[i].tag in r && r[Fields(p)[i].tag] == FieldValue(Fields(p)[i])
    ensures forall k | k in r :: k in FieldTags(p)
  {
    FieldsRecord(p);
    MapOfSize(Fields(p));
    MapOf(Fields(p))
  }

  /** The operation name `setKey` writes into `Action`. */
  function ActionName(op: Operation): string
  {
    match op
    case DescribeUHostInstance(_, _, _, _, _, _, _) => "DescribeUHostInstance"
    case DescribeULB(_, _, _, _, _) => "DescribeULB"
    case CreateULB(_, _, _, _, _, _, _, _) => "CreateULB"
    case DeleteULB(_, _, _) => "DeleteULB"
    case UpdateULBAttribute(_, _, _, _, _, _) => "UpdateULBAttribute"
    case CreateVServer(_, _, _, _, _, _, _, _, _, _, _) => "CreateVServer"
    case DeleteVServer(_, _, _, _) => "DeleteVServer"
    case UpdateVServerAttribute(_, _, _, _, _, _, _, _, _, _) => "UpdateVServerAttribute"
    case AllocateBackend(_, _, _, _, _, _, _, _) => "AllocateBackend"
    case UpdateBackendAttribute(_, _, _, _, _, _) => "UpdateBackendAttribute"
    case ReleaseBackend(_, _, _, _) => "ReleaseBackend"
    case AllocateEIP(_, _, _, _, _, _, _, _, _, _, _) => "AllocateEIP"
    case ReleaseEIP(_, _) => "ReleaseEIP"
    case BindEIP(_, _, _, _) => "BindEIP"
    case UnBindEIP(_, _, _, _) => "UnBindEIP"
  }

  /** `setKey`: the operation's name and the client's key pair go into the
      credential fields; the signature field and every operation field keep
      their values. */
  function SetKey(p: Param, publicKey: string, privateKey: string): (r: Param)
    ensures r.action == ActionName(p.op) && r.action != ""
    ensures r.publicKey == publicKey && r.privateKey == privateKey
    ensures r.signature == p.signature && r.op == p.op
  {
    p.(action := ActionName(p.op), publicKey := publicKey, privateKey := privateKey)
  }

  /** The pairs the serialiser emits for a struct, in order. */
  function RecordPairs(p: Param, prim: Primitives): seq<Pair>
  {
    FieldsRecord(p);
    PairsOf(Fields(p), prim)
  }

  /** The string hashed into a struct's signature. */
  function RecordSigningString(p: Param): string
  {
    FieldsRecord(p);
    SigningOf(Fields(p))
  }

  /** `Parameter.QueryString()`: `toParams` then `toQueryString`. The tags
      serve as the map's visiting order; any other order gives the same
      string (`Signing.OrderIrrelevant`). */
  function RecordQueryString(p: Param, prim: Primitives): (q: string)
    ensures |q| > 0 && q[0] == '&'
  {
    FieldsRecord(p);
    QueryOf(Fields(p), prim)
  }

  /** The client: base URL and key pair, fixed for its lifetime. */
  datatype UClient = UClient(baseURL: string, publicKey: string, privateKey: string)

  function GetQueryURL(c: UClient, p: Param, prim: Primitives): string
  {
    c.baseURL + "/?" + RecordQueryString(p, prim)
  }

  lemma PrefixBeforeQuery(base: string, q: string)
    requires |q| > 0 && q[0] == '&'
    ensures |base + "/?" + q| > |base| + 2
    ensures (base + "/?" + q)[..|base| + 3] == base + "/?&"
  {
    assert (base + "/?" + q)[..|base| + 3] == (base + "/?") + [q[0]];
  }

  /** The URL every client method requests: the struct goes through
      `setKey` with the client's keys before it is serialised and signed. */
  function RequestURL(c: UClient, p: Param, prim: Primitives): (url: string)
    ensures |url| > |c.baseURL| + 2
    ensures url[..|c.baseURL| + 3] == c.baseURL + "/?&"
  {
    var r := SetKey(p, c.publicKey, c.privateKey);
    PrefixBeforeQuery(c.baseURL, RecordQueryString(r, prim));
    GetQueryURL(c, r, prim)
  }

  // ---------------------------------------------------------------------
  // Properties of the signed request

  /** An integer field is always sent, zero included: `%v` never renders
      an int as the empty string, and no int field is a credential. */
  lemma NumbersAlwaysSent(p: Param, prim: Primitives, i: nat)
    requires i < |OperationFields(p.op)| && OperationFields(p.op)[i].Number?
    ensures var f := OperationFields(p.op)[i];
            Pair(f.tag, FormatInt(f.number)) in RecordPairs(p, prim)
  {
    FieldsRecord(p);
    WellTaggedOperation(p.op);
    var fs := Fields(p);
    assert fs[i + 4] == fs[4..][i];
    SentOf(fs, prim, i + 4);
  }

  /** A string field of the struct's own that is not empty is sent as a
      pair of its tag and its text. */
  lemma TextSent(p: Param, prim: Primitives, i: nat)
    requires i < |OperationFields(p.op)| && OperationFields(p.op)[i].Text? && OperationFields(p.op)[i].text != ""
    ensures var f := OperationFields(p.op)[i];
            Pair(f.tag, f.text) in RecordPairs(p, prim)
  {
    FieldsRecord(p);
    WellTaggedOperation(p.op);
    var fs := Fields(p);
    assert fs[i + 4] == fs[4..][i];
    SentOf(fs, prim, i + 4);
  }

  /** A string field left empty is never sent; only the signature field
      is exempt, since the computed signature replaces it. */
  lemma EmptyTextNeverSent(p: Param, prim: Primitives, i: nat, j: nat)
    requires i < |Fields(p)| && Fields(p)[i].Text? && Fields(p)[i].text == "" && Fields(p)[i].tag != SignatureName
    requires j < |RecordPairs(p, prim)|
    ensures RecordPairs(p, prim)[j].name != Fields(p)[i].tag
  {
    FieldsRecord(p);
    EmptyTextOf(Fields(p), prim, i, j);
  }

  /** The first three fields of a struct hold its credential values. */
  lemma CredentialsFirst(p: Param)
    ensures IsRecord(Fields(p))
    ensures Fields(p)[0] == Text("Action", p.action)
    ensures Fields(p)[1] == Text("PublicKey", p.publicKey)
    ensures Fields(p)[2] == Text(PrivateKeyName, p.privateKey)
  {
    FieldsRecord(p);
    var fs := Fields(p);
    assert fs[0] == fs[..4][0] && fs[1] == fs[..4][1] && fs[2] == fs[..4][2];
  }

  /** The signed request names its operation and carries the client's
      public key; the private key is never a pair of the query string and
      is the last thing hashed. */
  lemma RequestCarriesCredentials(c: UClient, p: Param, prim: Primitives)
    ensures var r := SetKey(p, c.publicKey, c.privateKey);
            var pairs := RecordPairs(r, prim);
            var s := RecordSigningString(r);
            && Pair("Action", ActionName(p.op)) in pairs
            && (c.publicKey != "" ==> Pair("PublicKey", c.publicKey) in pairs)
            && (forall i | 0 <= i < |pairs| :: pairs[i].name != PrivateKeyName)
            && |s| >= |c.privateKey| && s[|s| - |c.privateKey|..] == c.privateKey
  {
    var r := SetKey(p, c.publicKey, c.privateKey);
    CredentialsFirst(r);
    var fs := Fields(r);
    SentOf(fs, prim, 0);
    if c.publicKey != "" {
      SentOf(fs, prim, 1);
    }
    PrivateKeyOf(fs, prim);
  }

  /** Whatever credentials or signature the caller left in the struct, the
      request URL is the same: `setKey` overwrites the first three and the
      serialiser ignores the fourth. */
  lemma RequestIgnoresCallerCredentials(c: UClient, p: Param, q: Param, prim: Primitives)
    requires p.op == q.op
    ensures RequestURL(c, p, prim) == RequestURL(c, q, prim)
  {
    var rp := SetKey(p, c.publicKey, c.privateKey);
    var rq := SetKey(q, c.publicKey, c.privateKey);
    FieldsRecord(rp);
    FieldsRecord(rq);
    var fp := Fields(rp);
    var fq := Fields(rq);
    assert fp[4..] == fq[4..];
    forall i | 0 <= i < |fp| && i != 3
      ensures fp[i] == fq[i]
    {
      if i >= 4 {
        assert fp[i] == fp[4..][i - 4];
        assert fq[i] == fq[4..][i - 4];
      } else {
        assert fp[i] == CredentialFields(rp)[i];
        assert fq[i] == CredentialFields(rq)[i];
      }
    }
    SignatureOnlyOf(fp, fq);
    TagsOfEnumerate(fp);
    TagsOfEnumerate(fq);
    QueryStringDetermined(MapOf(fp), TagsOf(fp), MapOf(fq), TagsOf(fq), prim);
  }
}

=== FILE: signing.dfy ===
/** Canonicalisation and signing of one request: `Params.toQueryString`
    in pkg/cloudprovider/providers/ucloud/ulb.go.

    The parameters are a map from field name to text. The serialiser drops
    the keys whose value is empty, sorts the rest byte-wise, hashes the
    concatenation of `name + value` of every key but `PrivateKey` and
    `Signature` followed by the private key's value, and emits the pairs in
    the same order with the hex digest as a final `Signature` pair. */
module Signing {
  import opened StringOrder

  /** A request's parameters (Go's `Params`). */
  type Params = map<string, string>

  const PrivateKeyName: string := "PrivateKey"
  const SignatureName: string := "Signature"

  /** The two library routines the serialiser calls, left uninterpreted:
      the lowercase hex text of the SHA-1 digest of a string
      (`fmt.Sprintf("%x", sha1...)`), and the escaping `url.Values.Encode`
      applies to a name and to a value. */
  datatype Primitives = Primitives(hexSha1: string -> string, queryEscape: string -> string)

  /** One `name=value` pair of the query string, before escaping. */
  datatype Pair = Pair(name: string, value: string)

  /** Go's `p[k]` on a map: the empty string for an absent key. */
  function Lookup(p: Params, k: string): string
  {
    if k in p then p[k] else ""
  }

  /** `order` lists every key of `p` exactly once: one of the orders in
      which Go's `range` may visit the map. */
  predicate Enumerates(order: seq<string>, p: Params)
  {
    Distinct(order)
    && (forall i | 0 <= i < |order| :: order[i] in p)
    && (forall k | k in p :: k in order)
  }

  /** The first loop: the keys whose value is not empty, in visiting order. */
  function NonEmptyKeys(p: Params, order: seq<string>): (r: seq<string>)
    requires forall i | 0 <= i < |order| :: order[i] in p
    ensures forall k :: k in r <==> k in order && Lookup(p, k) != ""
    ensures Distinct(order) ==> Distinct(r)
    decreases |order|
  {
    if |order| == 0 then []
    else
      var rest := NonEmptyKeys(p, order[1..]);
      assert order == [order[0]] + order[1..];
      DistinctCons(order);
      DistinctCons([order[0]] + rest);
      assert ([order[0]] + rest)[1..] == rest;
      if p[order[0]] != "" then [order[0]] + rest else rest
  }

  /** The keys with a non-empty value, in byte-wise ascending order
      (`sort.Strings(keys)`). */
  function SortedKeys(p: Params, order: seq<string>): (r: seq<string>)
    requires Enumerates(order, p)
    ensures StrictlySorted(r)
    ensures forall k :: k in r <==> k in p && p[k] != ""
  {
    var keys := NonEmptyKeys(p, order);
    var r := Sort(keys);
    assert forall k :: k in r <==> k in multiset(r);
    assert forall k :: k in keys <==> k in multiset(keys);
    r
  }

  /** Drops `PrivateKey` and `Signature`, keeping the order of the rest. */
  function WithoutCredentials(keys: seq<string>): (r: seq<string>)
    ensures forall k :: k in r <==> k in keys && k != PrivateKeyName && k != SignatureName
    ensures StrictlySorted(keys) ==> StrictlySorted(r)
    decreases |keys|
  {
    if |keys| == 0 then []
    else
      var rest := WithoutCredentials(keys[1..]);
      assert keys == [keys[0]] + keys[1..];
      if keys[0] == PrivateKeyName || keys[0] == SignatureName then rest
      else
        FirstBelowRest(keys, rest);
        [keys[0]] + rest
  }

  lemma FirstBelowRest(keys: seq<string>, rest: seq<string>)
    requires |keys| > 0
    requires forall k :: k in rest ==> k in keys[1..]
    requires StrictlySorted(keys) ==> StrictlySorted(rest)
    ensures StrictlySorted(keys) ==> StrictlySorted([keys[0]] + rest)
  {
    if StrictlySorted(keys) {
      forall j | 0 <= j < |rest|
        ensures Less(keys[0], rest[j])
      {
        assert rest[j] in keys[1..];
        var m :| 0 <= m < |keys[1..]| && keys[1..][m] == rest[j];
        assert keys[m + 1] == rest[j];
      }
    }
  }

  /** The keys whose `name + value` is signed and whose pair is emitted:
      every key with a non-empty value except `PrivateKey` and `Signature`,
      in ascending order. */
  function SignedKeys(p: Params, order: seq<string>): (r: seq<string>)
    requires Enumerates(order, p)
    ensures StrictlySorted(r)
    ensures forall k :: k in r <==> k in p && p[k] != "" && k != PrivateKeyName && k != SignatureName
    ensures forall i | 0 <= i < |r| :: r[i] in p
  {
    var r := WithoutCredentials(SortedKeys(p, order));
    assert forall i | 0 <= i < |r| :: r[i] in r;
    r
  }

  /** The pieces laid end to end. */
  function Concat(pieces: seq<string>): string
    decreases |pieces|
  {
    if |pieces| == 0 then "" else Concat(pieces[..|pieces| - 1]) + pieces[|pieces| - 1]
  }

  function SignedPieces(p: Params, keys: seq<string>): (r: seq<string>)
    requires forall i | 0 <= i < |keys| :: keys[i] in p
    ensures |r| == |keys|
    ensures forall i | 0 <= i < |keys| :: r[i] == keys[i] + p[keys[i]]
  {
    seq(|keys|, i requires 0 <= i < |keys| => keys[i] + p[keys[i]])
  }

  /** Where the piece `name + value` of `keys[i]` starts when the pieces of
      `keys` are laid end to end: the summed lengths of the pieces before
      it. */
  function SignedOffset(p: Params, keys: seq<string>, i: nat): nat
    requires i <= |keys| && forall j | 0 <= j < |keys| :: keys[j] in p
  {
    if i == 0 then 0 else SignedOffset(p, keys, i - 1) + |keys[i - 1]| + |p[keys[i - 1]]|
  }

  /** `s` holds the piece `name + value` of `keys[i]` at that key's
      offset. */
  predicate PieceAt(s: string, p: Params, keys: seq<string>, i: nat)
    requires i < |keys| && forall j | 0 <= j < |keys| :: keys[j] in p
  {
    SignedOffset(p, keys, i + 1) <= |s|
    && s[SignedOffset(p, keys, i)..SignedOffset(p, keys, i + 1)] == keys[i] + p[keys[i]]
  }

  /** The first `n` pieces laid end to end hold the piece of each of the
      first `n` keys, in order, each at its offset, and nothing else. */
  lemma {:induction false} ConcatSignedPieces(p: Params, keys: seq<string>, n: nat)
    requires n <= |keys| && forall j | 0 <= j < |keys| :: keys[j] in p
    ensures |Concat(SignedPieces(p, keys)[..n])| == SignedOffset(p, keys, n)
    ensures forall i | 0 <= i < n :: PieceAt(Concat(SignedPieces(p, keys)[..n]), p, keys, i)
  {
    if n > 0 {
      var pieces := SignedPieces(p, keys);
      ConcatSignedPieces(p, keys, n - 1);
      var init := Concat(pieces[..n - 1]);
      assert pieces[..n][..n - 1] == pieces[..n - 1];
      var c := Concat(pieces[..n]);
      assert c == init + pieces[n - 1];
      forall i | 0 <= i < n
        ensures PieceAt(c, p, keys, i)
      {
        if i < n - 1 {
          assert PieceAt(init, p, keys, i);
          assert c[SignedOffset(p, keys, i)..SignedOffset(p, keys, i + 1)]
              == init[SignedOffset(p, keys, i)..SignedOffset(p, keys, i + 1)];
        } else {
          assert c[|init|..] == pieces[n - 1];
        }
      }
    }
  }

  /** The string that is hashed: `name + value` of every signed key in
      ascending order, then the private key's value (nothing when that is
      absent or empty). */
  function SigningString(p: Params, order: seq<string>): (s: string)
    requires Enumerates(order, p)
    ensures |s| >= |Lookup(p, PrivateKeyName)|
    ensures s[|s| - |Lookup(p, PrivateKeyName)|..] == Lookup(p, PrivateKeyName)
  {
    var body := Concat(SignedPieces(p, SignedKeys(p, order)));
    var s := body + Lookup(p, PrivateKeyName);
    assert s[|body|..] == Lookup(p, PrivateKeyName);
    s
  }

  /** The pieces of `keys` laid end to end, then `tail`: each piece sits
      at its offset, and `tail` fills the rest. */
  lemma PiecesThen(p: Params, keys: seq<string>, tail: string)
    requires forall j | 0 <= j < |keys| :: keys[j] in p
    ensures var s := Concat(SignedPieces(p, keys)) + tail;
            && |s| == SignedOffset(p, keys, |keys|) + |tail|
            && forall i | 0 <= i < |keys| :: PieceAt(s, p, keys, i)
  {
    var pieces := SignedPieces(p, keys);
    var body := Concat(pieces);
    ConcatSignedPieces(p, keys, |keys|);
    assert pieces[..|keys|] == pieces;
    var s := body + tail;
    forall i | 0 <= i < |keys|
      ensures PieceAt(s, p, keys, i)
    {
      assert PieceAt(body, p, keys, i);
      assert s[SignedOffset(p, keys, i)..SignedOffset(p, keys, i + 1)]
          == body[SignedOffset(p, keys, i)..SignedOffset(p, keys, i + 1)];
    }
  }

  /** What is signed: the signing string is `name + value` of each signed
      key, in ascending key order, each piece at its offset, followed by the
      private key's value, and nothing else. */
  lemma SigningStringContent(p: Params, order: seq<string>)
    requires Enumerates(order, p)
    ensures var s := SigningString(p, order);
            var keys := SignedKeys(p, order);
            && |s| == SignedOffset(p, keys, |keys|) + |Lookup(p, PrivateKeyName)|
            && forall i | 0 <= i < |keys| :: PieceAt(s, p, keys, i)
  {
    PiecesThen(p, SignedKeys(p, order), Lookup(p, PrivateKeyName));
  }

  /** The parameters of the example below: `B=2`, `A=1` and the private
      key `k`. */
  function ExampleParams(): Params
  {
    map["B" := "2", "A" := "1", PrivateKeyName := "k"]
  }

  lemma ExampleSignedKeys(order: seq<string>)
    requires Enumerates(order, ExampleParams())
    ensures SignedKeys(ExampleParams(), order) == ["A", "B"]
  {
    var p := ExampleParams();
    var keys := SignedKeys(p, order);
    assert p.Keys == {"A", "B", PrivateKeyName};
    assert StrictlySorted(["A", "B"]) by {
      assert Less("A", "B");
    }
    forall k
      ensures k in keys <==> k in ["A", "B"]
    {
      if k == "A" || k == "B" {
        assert k in p && p[k] != "" && k != PrivateKeyName && k != SignatureName;
      }
    }
    StrictlySortedUnique(keys, ["A", "B"]);
  }

  /** A string holding the pieces of two keys at their offsets, then
      `tail`, is exactly those pieces and `tail`. */
  lemma TwoPieces(s: string, p: Params, a: string, b: string, tail: string)
    requires a in p && b in p
    requires |s| == SignedOffset(p, [a, b], 2) + |tail| && s[|s| - |tail|..] == tail
    requires PieceAt(s, p, [a, b], 0) && PieceAt(s, p, [a, b], 1)
    ensures s == a + p[a] + b + p[b] + tail
  {
    var keys := [a, b];
    var m, e := SignedOffset(p, keys, 1), SignedOffset(p, keys, 2);
    assert s[..m] == a + p[a] && s[m..e] == b + p[b] && s[e..] == tail;
    assert s == s[..m] + s[m..e] + s[e..];
  }

  /** With two signed keys, the signing string is their two pieces, then
      the private key's value. */
  lemma TwoKeysSigned(p: Params, order: seq<string>, a: string, b: string)
    requires Enumerates(order, p)
    requires SignedKeys(p, order) == [a, b]
    ensures a in p && b in p
    ensures SigningString(p, order) == a + p[a] + b + p[b] + Lookup(p, PrivateKeyName)
  {
    var keys, s, t := [a, b], SigningString(p, order), Lookup(p, PrivateKeyName);
    assert keys[0] in p && keys[1] in p;
    SigningStringContent(p, order);
    assert |s| == SignedOffset(p, keys, 2) + |t| && s[|s| - |t|..] == t;
    assert PieceAt(s, p, keys, 0) && PieceAt(s, p, keys, 1);
    TwoPieces(s, p, a, b, t);
  }

  /** With `B=2`, `A=1` and the private key `k`, the string signed is
      `A1B2k`, whatever order the map is visited in. */
  lemma SigningStringExample(order: seq<string>)
    requires Enumerates(order, ExampleParams())
    ensures SigningString(ExampleParams(), order) == "A1B2k"
  {
    var p := ExampleParams();
    assert p["A"] == "1" && p["B"] == "2" && Lookup(p, PrivateKeyName) == "k";
    assert "A" + "1" + "B" + "2" + "k" == "A1B2k";
    ExampleSignedKeys(order);
    TwoKeysSigned(p, order, "A", "B");
  }

  /** Each key with its value. */
  function KeyPairs(p: Params, keys: seq<string>): (r: seq<Pair>)
    requires forall i | 0 <= i < |keys| :: keys[i] in p
    ensures |r| == |keys|
    ensures forall i | 0 <= i < |keys| :: r[i] == Pair(keys[i], p[keys[i]])
  {
    seq(|keys|, i requires 0 <= i < |keys| => Pair(keys[i], p[keys[i]]))
  }

  /** The pairs of the query string, in emission order. */
  function QueryPairs(p: Params, order: seq<string>, prim: Primitives): (r: seq<Pair>)
    requires Enumerates(order, p)
    ensures |r| == |SignedKeys(p, order)| + 1
    ensures forall i | 0 <= i < |r| - 1 :: r[i].name == SignedKeys(p, order)[i]
    ensures forall i | 0 <= i < |r| - 1 :: r[i].name in p && r[i].value == p[r[i].name] && r[i].value != ""
    ensures forall i, j | 0 <= i < j < |r| - 1 :: Less(r[i].name, r[j].name)
    ensures forall i | 0 <= i < |r| :: r[i].name != PrivateKeyName
    ensures forall i | 0 <= i < |r| :: r[i].name == SignatureName <==> i == |r| - 1
    ensures r[|r| - 1] == Pair(SignatureName, prim.hexSha1(SigningString(p, order)))
  {
    var keys := SignedKeys(p, order);
    forall i | 0 <= i < |keys|
      ensures keys[i] in p && p[keys[i]] != "" && keys[i] != PrivateKeyName && keys[i] != SignatureName
    {
      assert keys[i] in keys;
    }
    var pairs := KeyPairs(p, keys);
    var r := pairs + [Pair(SignatureName, prim.hexSha1(SigningString(p, order)))];
    forall i | 0 <= i < |keys|
      ensures r[i] == Pair(keys[i], p[keys[i]])
    {
      assert r[i] == pairs[i];
    }
    r
  }

  /** `"&" + url.Values{name: value}.Encode()` for one pair: it opens with
      `&`, and when escaping leaves no `&` in the name or value, that is its
      only `&`, so segments can be told apart. */
  function Segment(pair: Pair, escape: string -> string): (s: string)
    ensures |s| > 0 && s[0] == '&'
    ensures '&' !in escape(pair.name) && '&' !in escape(pair.value) ==> Count('&', s) == 1
  {
    OneAmpersand(escape(pair.name), escape(pair.value));
    "&" + escape(pair.name) + "=" + escape(pair.value)
  }

  function Render(pairs: seq<Pair>, escape: string -> string): (r: string)
    ensures |pairs| > 0 ==> |r| > 0 && r[0] == '&'
    decreases |pairs|
  {
    if |pairs| == 0 then "" else Segment(pairs[0], escape) + Render(pairs[1..], escape)
  }

  lemma {:induction false} RenderAppend(pairs: seq<Pair>, last: Pair, escape: string -> string)
    ensures Render(pairs + [last], escape) == Render(pairs, escape) + Segment(last, escape)
    decreases |pairs|
  {
    if |pairs| > 0 {
      assert (pairs + [last])[1..] == pairs[1..] + [last];
      RenderAppend(pairs[1..], last, escape);
    } else {
      assert pairs + [last] == [last];
    }
  }

  /** The query string `toQueryString` returns. It starts with `&` and
      ends with the one `Signature` pair, whose value is the digest of the
      signing string. */
  function QueryString(p: Params, order: seq<string>, prim: Primitives): (q: string)
    requires Enumerates(order, p)
    ensures |q| > 0 && q[0] == '&'
    ensures var last := Segment(Pair(SignatureName, prim.hexSha1(SigningString(p, order))), prim.queryEscape);
            |q| >= |last| && q[|q| - |last|..] == last
  {
    var pairs := QueryPairs(p, order, prim);
    var front := pairs[..|pairs| - 1];
    assert pairs == front + [pairs[|pairs| - 1]];
    RenderAppend(front, pairs[|pairs| - 1], prim.queryEscape);
    var q := Render(pairs, prim.queryEscape);
    assert q[|Render(front, prim.queryEscape)|..] == Segment(pairs[|pairs| - 1], prim.queryEscape);
    q
  }

  /** Where the segment of `pairs[i]` starts in the rendered string: the
      summed lengths of the segments before it. */
  function SegmentOffset(pairs: seq<Pair>, escape: string -> string, i: nat): nat
    requires i <= |pairs|
  {
    if i == 0 then 0 else SegmentOffset(pairs, escape, i - 1) + |Segment(pairs[i - 1], escape)|
  }

  /** `q` holds the segment of `pairs[i]` at that pair's offset. */
  predicate SegmentAt(q: string, pairs: seq<Pair>, escape: string -> string, i: nat)
    requires i < |pairs|
  {
    SegmentOffset(pairs, escape, i + 1) <= |q|
    && q[SegmentOffset(pairs, escape, i)..SegmentOffset(pairs, escape, i + 1)] == Segment(pairs[i], escape)
  }

  /** The first `n` pairs rendered hold the segment of each of those pairs,
      in order, each at its offset, and nothing else. */
  lemma {:induction false} RenderPrefix(pairs: seq<Pair>, escape: string -> string, n: nat)
    requires n <= |pairs|
    ensures |Render(pairs[..n], escape)| == SegmentOffset(pairs, escape, n)
    ensures forall i | 0 <= i < n :: SegmentAt(Render(pairs[..n], escape), pairs, escape, i)
  {
    if n > 0 {
      RenderPrefix(pairs, escape, n - 1);
      var init := Render(pairs[..n - 1], escape);
      assert pairs[..n] == pairs[..n - 1] + [pairs[n - 1]];
      RenderAppend(pairs[..n - 1], pairs[n - 1], escape);
      var last := Segment(pairs[n - 1], escape);
      var r := Render(pairs[..n], escape);
      assert r == init + last;
      assert SegmentOffset(pairs, escape, n) == |init| + |last|;
      forall i | 0 <= i < n
        ensures SegmentAt(r, pairs, escape, i)
      {
        var lo, hi := SegmentOffset(pairs, escape, i), SegmentOffset(pairs, escape, i + 1);
        if i < n - 1 {
          assert SegmentAt(init, pairs, escape, i);
          assert r[lo..hi] == init[lo..hi];
        } else {
          assert lo == |init| && r[lo..hi] == last;
        }
      }
    }
  }

  /** The emission loop: the rendered string is the segment of each pair,
      in the pairs' order, each at its offset, and nothing else. */
  lemma RenderContent(pairs: seq<Pair>, escape: string -> string)
    ensures |Render(pairs, escape)| == SegmentOffset(pairs, escape, |pairs|)
    ensures forall i | 0 <= i < |pairs| :: SegmentAt(Render(pairs, escape), pairs, escape, i)
  {
    RenderPrefix(pairs, escape, |pairs|);
    assert pairs[..|pairs|] == pairs;
  }

  /** What is sent: the query string is the `&`-led segment of each pair of
      `QueryPairs`, in that order (the signed keys ascending, then the
      signature), each at its offset, and nothing else. */
  lemma QueryStringContent(p: Params, order: seq<string>, prim: Primitives)
    requires Enumerates(order, p)
    ensures var q := QueryString(p, order, prim);
            var pairs := QueryPairs(p, order, prim);
            && |q| == SegmentOffset(pairs, prim.queryEscape, |pairs|)
            && forall i | 0 <= i < |pairs| :: SegmentAt(q, pairs, prim.queryEscape, i)
  {
    QueryStringRendersPairs(p, order, prim);
    RenderContent(QueryPairs(p, order, prim), prim.queryEscape);
  }

  lemma QueryStringRendersPairs(p: Params, order: seq<string>, prim: Primitives)
    requires Enumerates(order, p)
    ensures QueryString(p, order, prim) == Render(QueryPairs(p, order, prim), prim.queryEscape)
  {
  }

  lemma ExampleQueryPairs(order: seq<string>, prim: Primitives)
    requires Enumerates(order, ExampleParams())
    ensures QueryPairs(ExampleParams(), order, prim)
            == [Pair("A", "1"), Pair("B", "2"), Pair(SignatureName, prim.hexSha1("A1B2k"))]
  {
    var p := ExampleParams();
    assert p["A"] == "1" && p["B"] == "2";
    ExampleSignedKeys(order);
    SigningStringExample(order);
    var pairs := QueryPairs(p, order, prim);
    assert |pairs| == 3;
    assert pairs[0].name == "A" && pairs[1].name == "B";
  }

  lemma RenderThree(a: Pair, b: Pair, c: Pair, escape: string -> string)
    ensures Render([a, b, c], escape) == Segment(a, escape) + Segment(b, escape) + Segment(c, escape)
  {
    assert [a, b, c][1..] == [b, c] && [b, c][1..] == [c] && [c][1..] == [];
    assert Render([c], escape) == Segment(c, escape) + Render([], escape);
    assert Render([b, c], escape) == Segment(b, escape) + Render([c], escape);
    assert Render([a, b, c], escape) == Segment(a, escape) + Render([b, c], escape);
  }

  lemma ExampleSegments(prim: Primitives)
    requires forall x :: prim.queryEscape(x) == x
    ensures Segment(Pair("A", "1"), prim.queryEscape) == "&A=1"
    ensures Segment(Pair("B", "2"), prim.queryEscape) == "&B=2"
    ensures Segment(Pair(SignatureName, prim.hexSha1("A1B2k")), prim.queryEscape) == "&Signature=" + prim.hexSha1("A1B2k")
  {
    var e := prim.queryEscape;
    assert e("A") == "A" && e("1") == "1" && e("B") == "B" && e("2") == "2";
    assert e(SignatureName) == SignatureName && e(prim.hexSha1("A1B2k")) == prim.hexSha1("A1B2k");
  }

  lemma JoinExample(digest: string)
    ensures "&A=1" + "&B=2" + ("&Signature=" + digest) == "&A=1&B=2&Signature=" + digest
  {
  }

  /** With `B=2`, `A=1`, the private key `k` and escaping that changes
      nothing, the query string is `&A=1&B=2&Signature=` followed by the
      digest of `A1B2k`, whatever order the map is visited in. */
  lemma QueryStringExample(order: seq<string>, prim: Primitives)
    requires Enumerates(order, ExampleParams())
    requires forall x :: prim.queryEscape(x) == x
    ensures QueryString(ExampleParams(), order, prim) == "&A=1&B=2&Signature=" + prim.hexSha1("A1B2k")
  {
    var e := prim.queryEscape;
    var a, b, c := Pair("A", "1"), Pair("B", "2"), Pair(SignatureName, prim.hexSha1("A1B2k"));
    ExampleSegments(prim);
    JoinExample(prim.hexSha1("A1B2k"));
    RenderThree(a, b, c, e);
    ExampleQueryPairs(order, prim);
    QueryStringRendersPairs(ExampleParams(), order, prim);
  }

  /** Every key with a non-empty value, other than the two credential
      names, is sent as a pair of that key and its value. */
  lemma KeySent(p: Params, order: seq<string>, prim: Primitives, k: string)
    requires Enumerates(order, p)
    requires k in p && p[k] != "" && k != PrivateKeyName && k != SignatureName
    ensures Pair(k, p[k]) in QueryPairs(p, order, prim)
  {
    var keys := SignedKeys(p, order);
    var pairs := QueryPairs(p, order, prim);
    assert k in keys;
    var j :| 0 <= j < |keys| && keys[j] == k;
    assert pairs[j] == Pair(k, p[k]);
  }

  // ---------------------------------------------------------------------
  // The output is a function of the map contents alone

  /** The two maps agree, through Go's `p[k]`, on every key but those
      named in `except`. */
  ghost predicate AgreeExcept(p1: Params, p2: Params, except: set<string>)
  {
    forall k | k !in except :: Lookup(p1, k) == Lookup(p2, k)
  }

  lemma SignedKeysDetermined(p1: Params, o1: seq<string>, p2: Params, o2: seq<string>)
    requires Enumerates(o1, p1) && Enumerates(o2, p2)
    requires AgreeExcept(p1, p2, {PrivateKeyName, SignatureName})
    ensures SignedKeys(p1, o1) == SignedKeys(p2, o2)
  {
    var a := SignedKeys(p1, o1);
    var b := SignedKeys(p2, o2);
    forall x
      ensures x in a <==> x in b
    {
      if x != PrivateKeyName && x != SignatureName {
        assert Lookup(p1, x) == Lookup(p2, x);
      }
    }
    StrictlySortedUnique(a, b);
  }

  /** Two maps that agree on every key but `Signature` have the same
      signed keys with the same values. */
  lemma SignedValuesDetermined(p1: Params, o1: seq<string>, p2: Params, o2: seq<string>)
    requires Enumerates(o1, p1) && Enumerates(o2, p2)
    requires AgreeExcept(p1, p2, {SignatureName})
    ensures SignedKeys(p1, o1) == SignedKeys(p2, o2)
    ensures forall i | 0 <= i < |SignedKeys(p1, o1)| ::
              SignedKeys(p1, o1)[i] in p1 && SignedKeys(p1, o1)[i] in p2 &&
              p1[SignedKeys(p1, o1)[i]] == p2[SignedKeys(p1, o1)[i]]
  {
    SignedKeysDetermined(p1, o1, p2, o2);
    var keys := SignedKeys(p1, o1);
    forall i | 0 <= i < |keys|
      ensures keys[i] in p1 && keys[i] in p2 && p1[keys[i]] == p2[keys[i]]
    {
      assert keys[i] in keys;
      assert Lookup(p1, keys[i]) == Lookup(p2, keys[i]);
    }
  }

  /** Two maps that agree on every key but `Signature` sign to the same
      string, whatever orders their keys are visited in. */
  lemma SigningStringDetermined(p1: Params, o1: seq<string>, p2: Params, o2: seq<string>)
    requires Enumerates(o1, p1) && Enumerates(o2, p2)
    requires AgreeExcept(p1, p2, {SignatureName})
    ensures SigningString(p1, o1) == SigningString(p2, o2)
  {
    SignedValuesDetermined(p1, o1, p2, o2);
    var keys := SignedKeys(p1, o1);
    assert SignedPieces(p1, keys) == SignedPieces(p2, keys);
    assert Lookup(p1, PrivateKeyName) == Lookup(p2, PrivateKeyName);
  }

  /** Two maps that agree on every key but `Signature` (missing and empty
      values counting as the same) give the same pairs and serialise to
      the same query string, whatever orders their keys are visited in. */
  lemma QueryStringDetermined(p1: Params, o1: seq<string>, p2: Params, o2: seq<string>, prim: Primitives)
    requires Enumerates(o1, p1) && Enumerates(o2, p2)
    requires AgreeExcept(p1, p2, {SignatureName})
    ensures SigningString(p1, o1) == SigningString(p2, o2)
    ensures QueryPairs(p1, o1, prim) == QueryPairs(p2, o2, prim)
    ensures QueryString(p1, o1, prim) == QueryString(p2, o2, prim)
  {
    SignedValuesDetermined(p1, o1, p2, o2);
    SigningStringDetermined(p1, o1, p2, o2);
    var q1 := QueryPairs(p1, o1, prim);
    var q2 := QueryPairs(p2, o2, prim);
    forall i | 0 <= i < |q1|
      ensures q1[i] == q2[i]
    {
      if i < |q1| - 1 {
        assert q1[i].name == q2[i].name;
      }
    }
    assert q1 == q2;
  }

  /** Sorting makes the result independent of Go's map iteration order. */
  lemma OrderIrrelevant(p: Params, o1: seq<string>, o2: seq<string>, prim: Primitives)
    requires Enumerates(o1, p) && Enumerates(o2, p)
    ensures SigningString(p, o1) == SigningString(p, o2)
    ensures QueryString(p, o1, prim) == QueryString(p, o2, prim)
  {
    QueryStringDetermined(p, o1, p, o2, prim);
  }

  /** A key whose value is empty contributes nothing: removing it changes
      neither the signing string nor the query string. */
  lemma EmptyValueIgnored(p: Params, k: string, o1: seq<string>, o2: seq<string>, prim: Primitives)
    requires k in p && p[k] == ""
    requires Enumerates(o1, p) && Enumerates(o2, p - {k})
    ensures SigningString(p - {k}, o2) == SigningString(p, o1)
    ensures QueryString(p - {k}, o2, prim) == QueryString(p, o1, prim)
  {
    assert AgreeExcept(p, p - {k}, {SignatureName}) by {
      forall x | x !in {SignatureName}
        ensures Lookup(p, x) == Lookup(p - {k}, x)
      {
      }
    }
    QueryStringDetermined(p, o1, p - {k}, o2, prim);
  }

  /** A `Signature` value supplied by the caller is never sent nor signed. */
  lemma CallerSignatureIgnored(p: Params, v: string, o1: seq<string>, o2: seq<string>, prim: Primitives)
    requires Enumerates(o1, p) && Enumerates(o2, p[SignatureName := v])
    ensures SigningString(p[SignatureName := v], o2) == SigningString(p, o1)
    ensures QueryString(p[SignatureName := v], o2, prim) == QueryString(p, o1, prim)
  {
    QueryStringDetermined(p, o1, p[SignatureName := v], o2, prim);
  }

  /** The private key reaches the query string only through the digest:
      changing it leaves every pair but the final `Signature` pair as it
      was. */
  lemma PrivateKeyOnlySigned(p: Params, v: string, o1: seq<string>, o2: seq<string>, prim: Primitives)
    requires Enumerates(o1, p) && Enumerates(o2, p[PrivateKeyName := v])
    ensures var q1 := QueryPairs(p, o1, prim);
            var q2 := QueryPairs(p[PrivateKeyName := v], o2, prim);
            |q1| == |q2| && q1[..|q1| - 1] == q2[..|q2| - 1]
  {
    var p2 := p[PrivateKeyName := v];
    SignedKeysDetermined(p, o1, p2, o2);
    var q1 := QueryPairs(p, o1, prim);
    var q2 := QueryPairs(p2, o2, prim);
    forall i | 0 <= i < |q1| - 1
      ensures q1[i] == q2[i]
    {
      assert q1[i].name != PrivateKeyName;
    }
  }

  // ---------------------------------------------------------------------
  // Segments of the query string

  function Count(c: char, s: string): nat
    decreases |s|
  {
    if |s| == 0 then 0 else (if s[0] == c then 1 else 0) + Count(c, s[1..])
  }

  lemma {:induction false} CountAppend(c: char, s: string, t: string)
    ensures Count(c, s + t) == Count(c, s) + Count(c, t)
    decreases |s|
  {
    if |s| > 0 {
      assert (s + t)[1..] == s[1..] + t;
      CountAppend(c, s[1..], t);
    } else {
      assert s + t == t;
    }
  }

  lemma {:induction false} RenderAmpersands(pairs: seq<Pair>, escape: string -> string)
    requires forall i | 0 <= i < |pairs| :: '&' !in escape(pairs[i].name) && '&' !in escape(pairs[i].value)
    ensures Count('&', Render(pairs, escape)) == |pairs|
    decreases |pairs|
  {
    if |pairs| > 0 {
      CountAppend('&', Segment(pairs[0], escape), Render(pairs[1..], escape));
      RenderAmpersands(pairs[1..], escape);
    }
  }

  lemma OneAmpersand(n: string, v: string)
    ensures '&' !in n && '&' !in v ==> Count('&', "&" + n + "=" + v) == 1
  {
    if '&' !in n && '&' !in v {
      NoOccurrence('&', n);
      NoOccurrence('&', v);
      CountAppend('&', "&" + n, "=" + v);
      CountAppend('&', "&", n);
      CountAppend('&', "=", v);
      assert "&" + n + "=" + v == ("&" + n) + ("=" + v);
    }
  }

  lemma {:induction false} NoOccurrence(c: char, s: string)
    requires c !in s
    ensures Count(c, s) == 0
    decreases |s|
  {
    if |s| > 0 {
      assert forall i | 0 <= i < |s[1..]| :: s[1..][i] == s[i + 1];
      NoOccurrence(c, s[1..]);
    }
  }

  /** When escaping never produces `&` (as query escaping does not), the
      query string has exactly one `&`-led segment per signed key plus one
      for the signature. */
  lemma QueryStringSegments(p: Params, order: seq<string>, prim: Primitives)
    requires Enumerates(order, p)
    requires forall i | 0 <= i < |QueryPairs(p, order, prim)| ::
      '&' !in prim.queryEscape(QueryPairs(p, order, prim)[i].name)
      && '&' !in prim.queryEscape(QueryPairs(p, order, prim)[i].value)
    ensures Count('&', QueryString(p, order, prim)) == |SignedKeys(p, order)| + 1
  {
    RenderAmpersands(QueryPairs(p, order, prim), prim.queryEscape);
  }
}

=== FILE: wire.dfy ===
/** What the request builders of pkg/cloudprovider/providers/ucloud/ucloud.go
    put on the wire: the pairs each signed request carries, with the
    provider's fixed settings. */
module Wire {
  import opened Decimal
  import opened Signing
  import opened Requests
  import opened Remote

  /** The request built as `p`, signed with the client key pair of `c`,
      carries the pair `tag`=`value`. */
  predicate Sends(c: Cloud, p: Param, prim: Primitives, tag: string, value: string)
  {
    Pair(tag, value) in RecordPairs(SetKey(p, c.client.publicKey, c.client.privateKey), prim)
  }

  lemma TextFieldSent(c: Cloud, p: Param, prim: Primitives, k: nat, tag: string, value: string)
    requires k < |OperationFields(p.op)| && OperationFields(p.op)[k] == Text(tag, value) && value != ""
    ensures Sends(c, p, prim, tag, value)
  {
    TextSent(SetKey(p, c.client.publicKey, c.client.privateKey), prim, k);
  }

  lemma NumberFieldSent(c: Cloud, p: Param, prim: Primitives, k: nat, tag: string, n: int)
    requires k < |OperationFields(p.op)| && OperationFields(p.op)[k] == Number(tag, n)
    ensures Sends(c, p, prim, tag, FormatInt(n))
  {
    NumbersAlwaysSent(SetKey(p, c.client.publicKey, c.client.privateKey), prim, k);
  }

  /** The request creating a load balancer sends its name, the provider's
      tag and `OuterMode` "Yes". */
  lemma CreateULBSends(c: Cloud, name: string, prim: Primitives)
    ensures Sends(c, CreateULBRequest(c, name), prim, "Tag", "tidb-k8s-poc")
    ensures Sends(c, CreateULBRequest(c, name), prim, "OuterMode", "Yes")
    ensures name != "" ==> Sends(c, CreateULBRequest(c, name), prim, "ULBName", name)
  {
    var p := CreateULBRequest(c, name);
    var fs := OperationFields(p.op);
    assert |fs| == 8 && fs[2] == Text("ULBName", name) && fs[3] == Text("Tag", LoadBalancerTag)
           && fs[5] == Text("OuterMode", "Yes");
    TextFieldSent(c, p, prim, 3, "Tag", LoadBalancerTag);
    TextFieldSent(c, p, prim, 5, "OuterMode", "Yes");
    if name != "" {
      TextFieldSent(c, p, prim, 2, "ULBName", name);
    }
  }

  /** An operation field left empty yields no pair of its tag. */
  lemma EmptyFieldUnsent(c: Cloud, p: Param, prim: Primitives, k: nat, tag: string)
    requires k < |OperationFields(p.op)| && OperationFields(p.op)[k] == Text(tag, "") && tag != SignatureName
    ensures var pairs := RecordPairs(SetKey(p, c.client.publicKey, c.client.privateKey), prim);
            forall j | 0 <= j < |pairs| :: pairs[j].name != tag
  {
    var s := SetKey(p, c.client.publicKey, c.client.privateKey);
    var fs := Fields(s);
    assert s.op == p.op && fs == CredentialFields(s) + OperationFields(p.op);
    assert k + 4 < |fs| && fs[k + 4] == Text(tag, "");
    var pairs := RecordPairs(s, prim);
    forall j | 0 <= j < |pairs|
      ensures pairs[j].name != tag
    {
      EmptyTextNeverSent(s, prim, k + 4, j);
    }
  }

  /** The load balancer is public only: no `InnerMode` is ever sent. */
  lemma CreateULBOuterOnly(c: Cloud, name: string, prim: Primitives)
    ensures var pairs := RecordPairs(SetKey(CreateULBRequest(c, name), c.client.publicKey, c.client.privateKey), prim);
            forall j | 0 <= j < |pairs| :: pairs[j].name != "InnerMode"
  {
    var p := CreateULBRequest(c, name);
    var fs := OperationFields(p.op);
    assert |fs| == 8 && fs[6] == Text("InnerMode", "");
    EmptyFieldUnsent(c, p, prim, 6, "InnerMode");
  }

  /** The EIP request asks for one address on the "Bgp" line with
      bandwidth 2. */
  lemma AllocateEIPSends(c: Cloud, prim: Primitives)
    ensures Sends(c, AllocateEIPRequest(c), prim, "OperatorName", "Bgp")
    ensures Sends(c, AllocateEIPRequest(c), prim, "Bandwidth", "2")
    ensures Sends(c, AllocateEIPRequest(c), prim, "Quantity", "1")
  {
    var p := AllocateEIPRequest(c);
    var fs := OperationFields(p.op);
    assert |fs| == 11 && fs[1] == Text("OperatorName", EIPOperator) && fs[2] == Number("Bandwidth", EIPBandwidth)
           && fs[5] == Number("Quantity", 1);
    assert FormatInt(2) == "2" && FormatInt(1) == "1";
    TextFieldSent(c, p, prim, 1, "OperatorName", EIPOperator);
    NumberFieldSent(c, p, prim, 2, "Bandwidth", EIPBandwidth);
    NumberFieldSent(c, p, prim, 5, "Quantity", 1);
  }

  /** Binding names the EIP and the load balancer, as a resource of type
      "ulb". */
  lemma BindEIPSends(c: Cloud, eipId: string, ulbId: string, prim: Primitives)
    ensures Sends(c, BindEIPRequest(c, eipId, ulbId), prim, "ResourceType", "ulb")
    ensures eipId != "" ==> Sends(c, BindEIPRequest(c, eipId, ulbId), prim, "EIPId", eipId)
    ensures ulbId != "" ==> Sends(c, BindEIPRequest(c, eipId, ulbId), prim, "ResourceId", ulbId)
  {
    var p := BindEIPRequest(c, eipId, ulbId);
    var fs := OperationFields(p.op);
    assert |fs| == 4 && fs[1] == Text("EIPId", eipId) && fs[2] == Text("ResourceType", "ulb")
           && fs[3] == Text("ResourceId", ulbId);
    TextFieldSent(c, p, prim, 2, "ResourceType", "ulb");
    if eipId != "" {
      TextFieldSent(c, p, prim, 1, "EIPId", eipId);
    }
    if ulbId != "" {
      TextFieldSent(c, p, prim, 3, "ResourceId", ulbId);
    }
  }

  /** The listener is a TCP request proxy named "tidb-server" on the given
      port, with a 60-second client timeout, on the named load balancer. */
  lemma CreateVServerSends(c: Cloud, ulbId: string, frontendPort: int, prim: Primitives)
    ensures var p := CreateVServerRequest(c, ulbId, frontendPort);
            && Sends(c, p, prim, "VServerName", "tidb-server")
            && Sends(c, p, prim, "ListenType", "RequestProxy")
            && Sends(c, p, prim, "Protocol", "TCP")
            && Sends(c, p, prim, "FrontendPort", FormatInt(frontendPort))
            && Sends(c, p, prim, "ClientTimeout", "60")
            && (ulbId != "" ==> Sends(c, p, prim, "ULBId", ulbId))
  {
    var p := CreateVServerRequest(c, ulbId, frontendPort);
    var fs := OperationFields(p.op);
    assert |fs| == 11 && fs[2] == Text("ULBId", ulbId) && fs[3] == Text("VServerName", VServerName)
           && fs[4] == Text("ListenType", "RequestProxy") && fs[5] == Text("Protocol", "TCP")
           && fs[6] == Number("FrontendPort", frontendPort) && fs[10] == Number("ClientTimeout", VServerTimeout);
    assert FormatInt(60) == "60" by {
      assert FormatNat(60) == FormatNat(6) + [DigitChar(0)];
    }
    TextFieldSent(c, p, prim, 3, "VServerName", VServerName);
    TextFieldSent(c, p, prim, 4, "ListenType", "RequestProxy");
    TextFieldSent(c, p, prim, 5, "Protocol", "TCP");
    NumberFieldSent(c, p, prim, 6, "FrontendPort", frontendPort);
    NumberFieldSent(c, p, prim, 10, "ClientTimeout", VServerTimeout);
    if ulbId != "" {
      TextFieldSent(c, p, prim, 2, "ULBId", ulbId);
    }
  }

  /** A backend is an enabled "UHost" resource on the given port, on the
      named load balancer and listener. */
  lemma AllocateBackendSends(c: Cloud, ulbId: string, vserverId: string, host: string, port: int, prim: Primitives)
    ensures var p := AllocateBackendRequest(c, ulbId, vserverId, host, port);
            && Sends(c, p, prim, "ResourceType", "UHost")
            && Sends(c, p, prim, "Port", FormatInt(port))
            && Sends(c, p, prim, "Enabled", "1")
            && (host != "" ==> Sends(c, p, prim, "ResourceId", host))
            && (ulbId != "" ==> Sends(c, p, prim, "ULBId", ulbId))
            && (vserverId != "" ==> Sends(c, p, prim, "VServerId", vserverId))
  {
    var p := AllocateBackendRequest(c, ulbId, vserverId, host, port);
    var fs := OperationFields(p.op);
    assert |fs| == 8 && fs[2] == Text("ULBId", ulbId) && fs[3] == Text("VServerId", vserverId)
           && fs[4] == Text("ResourceType", "UHost") && fs[5] == Text("ResourceId", host)
           && fs[6] == Number("Port", port) && fs[7] == Number("Enabled", 1);
    assert FormatInt(1) == "1";
    TextFieldSent(c, p, prim, 4, "ResourceType", "UHost");
    NumberFieldSent(c, p, prim, 6, "Port", port);
    NumberFieldSent(c, p, prim, 7, "Enabled", 1);
    if host != "" {
      TextFieldSent(c, p, prim, 5, "ResourceId", host);
    }
    if ulbId != "" {
      TextFieldSent(c, p, prim, 2, "ULBId", ulbId);
    }
    if vserverId != "" {
      TextFieldSent(c, p, prim, 3, "VServerId", vserverId);
    }
  }

  /** A backend release names the load balancer and the backend. */
  lemma ReleaseBackendSends(c: Cloud, ulbId: string, backendId: string, prim: Primitives)
    ensures ulbId != "" ==> Sends(c, ReleaseBackendRequest(c, ulbId, backendId), prim, "ULBId", ulbId)
    ensures backendId != "" ==> Sends(c, ReleaseBackendRequest(c, ulbId, backendId), prim, "BackendId", backendId)
  {
    var b := ReleaseBackendRequest(c, ulbId, backendId);
    var bs := OperationFields(b.op);
    assert |bs| == 4 && bs[2] == Text("ULBId", ulbId) && bs[3] == Text("BackendId", backendId);
    if ulbId != "" {
      TextFieldSent(c, b, prim, 2, "ULBId", ulbId);
    }
    if backendId != "" {
      TextFieldSent(c, b, prim, 3, "BackendId", backendId);
    }
  }

  /** The deletion names the load balancer, and each EIP release its EIP. */
  lemma DeletionSendsTargets(c: Cloud, ulbId: string, eipId: string, prim: Primitives)
    ensures ulbId != "" ==> Sends(c, DeleteULBRequest(c, ulbId), prim, "ULBId", ulbId)
    ensures eipId != "" ==> Sends(c, ReleaseEIPRequest(c, eipId), prim, "EIPId", eipId)
  {
    var d, e := DeleteULBRequest(c, ulbId), ReleaseEIPRequest(c, eipId);
    var ds, es := OperationFields(d.op), OperationFields(e.op);
    assert |ds| == 3 && ds[2] == Text("ULBId", ulbId);
    assert |es| == 2 && es[1] == Text("EIPId", eipId);
    if ulbId != "" {
      TextFieldSent(c, d, prim, 2, "ULBId", ulbId);
    }
    if eipId != "" {
      TextFieldSent(c, e, prim, 1, "EIPId", eipId);
    }
  }
}
